=== FILE: README.md ===
# microsys core, modelled in Dafny

The model covers the core of `microsys`, a reusable Django app that adds user management, an activity log, scoped users, OTP-based two-factor checks and file or Excel export to a Django project. The Dafny project models these parts:

- **Activity log.**
  - The signal handlers that turn logins, logouts, saves and deletes into log entries, including the field diff, the masking of secrets, and the merge of a user save and a profile save made in the same second into one entry (`signals.dfy`).
  - `UserActivityLog.safe_log` with its duplicate debounce (`activity_log.dfy`).
- **Model helpers.** The settings singleton, `full_name` and `is_2fa_enabled` (`models.dfy`).
- **Translations.** Discovery and merging of other apps' tables, and the language layering of `get_strings` (`translations.dfy`).
- **OTP.** Issuing and verifying one-time codes through the cache: five-minute lifetime, three attempts, single use (`otp.dfy`).
- **View policies** (`views.dfy`):
  - renaming a soft-deleted user;
  - profile completeness;
  - the scope toggle;
  - the preference merge;
  - the minimal inline creation of a record and the scope it gets.
- **The file fetcher.**
  - File names, the collected files and the single-or-zip decision.
  - Zip entry names.
  - The Excel export's columns, cells and hidden columns.

  (`fetcher.dfy`)
- **Table and display helpers.**
  - Row action menus and rendering (`tables.dfy`).
  - The activity-log template tags (`log_display.dfy`).
  - The Arabic permission label from `apps.py` (`permission_label.dfy`).
- **Permission widgets.** The grouped widget, its extra groups and the legacy widget (`permissions.dfy`).
- **Autofill API.** The serializer and its permission check (`autofill.dfy`).

Shared vocabulary lives in `wrappers.dfy` (`Option`, `Result`), `text.dfy` (string helpers Python offers built in), `json_data.dfy` (JSON values and their truthiness) and `values.dfy` (Python field values and their `str()`).

Time is a natural number of microseconds for the activity log and of seconds for the OTP cache. The current time, the acting user (held by a thread-local in the source) and the request are parameters. The database is a sequence of log entries or a map keyed by primary key, passed in and returned.

Some behaviours of the code are easy to miss, and the model keeps them as they are:

- **Secrets on creation.** The creation dump of a new user or profile skips only `password` and the volatile fields, not every sensitive field. `backup_codes` are therefore recorded in plain text when a profile is created; see `Signals.CreationDumpRecordsBackupCodes`.
- **Duplicate test.** The debounce in `safe_log` compares the payload only when the new payload is non-empty. A request without details matches any recent entry with the same user, action, model and object, whatever that entry's details; see `ActivityLog.EmptyDetailsMatchAnyPayload`.
- **Diff masking.** The diff masks only `password` and `backup_codes`; a field such as `api_token` or `otp_secret` is logged as it is. The display tag hides `password`, `backup_codes`, `token` and `secret`; see `LogDisplay.DisplayHidesEveryMaskedField`.
- **Same-second merge.** A same-second save merges into the earlier entry (promoting it to CREATE on creation) only when its payload is non-empty. An empty payload leaves the log untouched and adds no entry.

## Model

| member | source | states |
|---|---|---|
| ActivityLog.SecondStart | microsys/signals.py:193 | dropping the microseconds gives the start of the current second: it is a whole second and at most one second before now |
| ActivityLog.FirstMatch | microsys/signals.py:280-287 | the `.first()` of a filtered query: an entry that satisfies the filter, and none exactly when no entry does |
| ActivityLog.MostRecent | microsys/signals.py:189-194 | the latest entry matching the filter (among equal times, the one stored last), and none exactly when no entry matches |
| ActivityLog.EntryScope | microsys/models.py:158-160 | an explicit scope wins; otherwise the actor's profile scope; anonymous requests get no scope |
| ActivityLog.SafeLog | microsys/models.py:131-173 | a request is dropped, leaving the log unchanged, exactly when a matching entry exists within the debounce window; otherwise one entry is appended carrying the request's user, action, target, number, client data, scope and time, with an empty payload standing for no details |
| ActivityLog.SafeLogKeepsOrder | microsys/models.py:162-173 | appending at the current time keeps a chronological log chronological |
| ActivityLog.RepeatWithinWindowIsDropped | microsys/models.py:139-156 | the same request repeated within the debounce window after it was logged adds nothing |
| ActivityLog.EmptyDetailsMatchAnyPayload | microsys/models.py:151-156 | a request without details is a duplicate of any recent entry for the same user, action and object, whatever that entry's payload |
| ActivityLog.QuietStoreAcceptsWrite | microsys/models.py:139-156 | when no entry is as recent as the debounce window, every request is logged |
| Signals.ClientIp | microsys/signals.py:20-29 | the first hop of `X-Forwarded-For` (the prefix up to the first comma) when that header is non-empty, else `REMOTE_ADDR` if present, and nothing without a request |
| Signals.CaptureOriginalState | microsys/signals.py:59-82 | a saved record whose row is still stored remembers exactly its readable prior field values and whether the row was not soft-deleted; the log model itself, unsaved records and missing rows are left untouched |
| Signals.Diff | microsys/signals.py:124-150 | the diff holds exactly the changed non-volatile readable fields; masked fields show only the mask, the others the old and new display text |
| Signals.DiffNeverShowsSecrets | microsys/signals.py:137-141 | a changed password or backup-code list appears in the diff only as the mask on both sides |
| Signals.CreationDump | microsys/signals.py:177-184 | a creation payload lists every non-skipped field with a non-empty value, each as a change from null to its display text; an unreadable field aborts the dump |
| Signals.CreationDumpRecordsBackupCodes | microsys/signals.py:180-184 | backup codes are recorded in plain text when a profile is created (the creation dump does not mask them) |
| Signals.SaveAction | microsys/signals.py:116-121 | CREATE exactly for creations, DELETE exactly for a save that soft-deletes a previously live row, UPDATE otherwise |
| Signals.TargetOf | microsys/signals.py:152-175 | users and profiles are both logged as `User Profile` against the user's key, and other models under their verbose name and key |
| Signals.MergeInto | microsys/signals.py:196-207 | merging a payload into an existing entry lets the new keys win and keeps the old ones, promotes it to CREATE on a creation, and changes nothing else |
| Signals.NumberOf | microsys/signals.py:210-215 | the recorded reference number is the first 50 characters of the record's display text (its `str()`, else its key), whole when shorter, and none exactly when that text is empty |
| Signals.SaveDetails | microsys/signals.py:116-184 | an update is logged with its diff, the creation of a user or profile with its initial state, and any other save with an empty payload |
| Signals.LogSave | microsys/signals.py:84-240 | skipped saves (the log model, excluded models, opted-out records, anonymous actors, last-login and preference-only saves) leave the log unchanged; a save that is not skipped raises exactly when its target key or its payload cannot be read; otherwise the log either gains one entry at its end with every earlier entry kept, or keeps its length |
| Signals.LogSaveAppends | microsys/signals.py:186-240 | a save that is not skipped and whose target and payload are readable is logged, and it adds an entry exactly when no same-second entry of the actor exists for a user or profile target and `safe_log` finds no duplicate of its request |
| Signals.FirstCreateIsLogged | microsys/signals.py:84-240 | an authenticated actor creating a record of an ordinary model on an empty log gets exactly one entry |
| Signals.LogSaveRewritesOnlyMergedEntry | microsys/signals.py:186-208 | a save that adds no entry rewrites at most the one same-second entry of the actor and the user, merging the save's payload and action into it, and leaves every other entry as it was |
| Signals.LogSaveNewEntry | microsys/signals.py:116-240 | a save that adds an entry was not skipped, and the entry carries the actor, the time, the right action, the client address and agent, the target and the payload; for user entries no same-second entry existed |
| Signals.ProfileSaveLoggedAgainstUser | microsys/signals.py:165-169 | a logged profile save is recorded as `User Profile` with the profile owner's user key |
| Signals.SameSecondSaveIsMerged | microsys/signals.py:186-208 | a user or profile save in the same second as an earlier entry for that user adds no entry and merges its non-empty payload into that entry |
| Signals.UserThenProfileShareOneEntry | microsys/signals.py:160-208 | saving a user and then its profile in the same second yields one entry whose payload holds the keys of both diffs |
| Signals.LogDelete | microsys/signals.py:242-308 | deletions of the log model, of excluded models and by anonymous actors are not logged; any other deletion raises exactly when the user key cannot be read; a logged deletion keeps every earlier entry and adds at most one at the end |
| Signals.LogDeleteAppends | microsys/signals.py:278-308 | a deletion that is not skipped and has a readable target is logged, and it adds an entry exactly when no same-second DELETE of the actor exists for a user or profile target and `safe_log` finds no duplicate of its request |
| Signals.LogDeleteNewEntry | microsys/signals.py:257-308 | a logged deletion is a DELETE entry with an empty payload, the actor, the time, the target and the actor's scope |
| Signals.SameSecondDeleteIsSkipped | microsys/signals.py:278-288 | a user or profile deletion is not logged again when a DELETE for that user was logged in the same second |
| Signals.LogAuthEvent | microsys/signals.py:31-57 | a login or logout appends exactly one entry under model `auth` with no object, no number, no scope and no details, carrying the user (none for a logout without a user), time, client address and user agent (empty when the header is missing), and keeps every earlier entry |
| Models.TwoFactorEnabled | microsys/models.py:88-91 | two-factor is enabled exactly when one of e-mail, phone or TOTP is switched on |
| Models.FullName | microsys/models.py:93-95 | the full name is the first and last name joined by a space with the whitespace at both ends removed, and only that: it is the slice left after dropping whitespace at each end |
| Models.FullNameOfTrimmedParts | microsys/models.py:93-95 | for names without outer whitespace the full name is first name, space, last name |
| Models.FullNameOfFirstNameOnly | microsys/models.py:93-95 | a user with a first name and no last name is called by the first name, the joining space dropped |
| Models.SaveSettings | microsys/models.py:26-28 | saving always writes row 1, so the table stays a single row, and no other row changes |
| Models.LoadSettings | microsys/models.py:30-33 | loading returns row 1, creating it switched off when missing; the table gains row 1 at most and no other row changes |
| Models.LoadAfterSave | microsys/models.py:26-33 | loading after saving returns the saved flag |
| Translations.MergeApp | microsys/translations.py:712-736 | an app with a translation module contributes each of its languages key by key, its values winning; other apps change nothing |
| Translations.DiscoveredKeys | microsys/translations.py:702-738 | after discovery a key exists for a language exactly when the core table or some app defines it |
| Translations.LastAppWins | microsys/translations.py:726-729 | a key defined by several apps takes the value of the last one discovered |
| Translations.CoreValueKept | microsys/translations.py:702-738 | a core key no app defines keeps its core value |
| Translations.SilentAppsChangeNothing | microsys/translations.py:712-736 | apps without translation tables leave the core tables as they are |
| Translations.GetStrings | microsys/translations.py:740-762 | the strings of a language are the Arabic base, overlaid by that language's table, overlaid by project overrides, each key from the topmost layer defining it |
| Translations.ArabicKeysAlwaysPresent | microsys/translations.py:750 | every key of the Arabic base is present in every language |
| Translations.UnknownLanguageFallsBack | microsys/translations.py:750-755 | an unknown language without overrides gets the Arabic table |
| Translations.OverridesWin | microsys/translations.py:758-760 | a project override always wins for its language |
| Otp.Lookup | microsys/views.py:188-192 | a code is found exactly when one is cached for the user and purpose and has not expired |
| Otp.Issue | microsys/views.py:157-160 | sending a code caches it for five minutes with no attempts, replacing only that user and purpose's earlier code |
| Otp.OtpEmail | microsys/views.py:162-167 | the subject depends on the purpose, with an English default, and a body template without a code placeholder is sent as it is |
| Otp.DefaultBodyCarriesCode | microsys/views.py:166-167 | without a body template the mail says `Your code is` followed by the code |
| Otp.Verify | microsys/views.py:183-205 | a code is accepted exactly when a live cached code equals it, and is then removed; a wrong code counts an attempt and renews the entry, or deletes it at the third failure; other entries are untouched |
| Otp.IssuedCodeAccepted | microsys/views.py:157-196 | a code sent less than five minutes ago is accepted |
| Otp.NoReplay | microsys/views.py:193-196 | an accepted code cannot be used a second time |
| Otp.ThreeStrikes | microsys/views.py:198-205 | after three wrong guesses even the right code is refused |
| Views.RenameDeletedUser | microsys/views.py:607-617 | a deleted user's new name is not taken, and is the first free one of `name_del`, `name_del2`, `name_del3`, … |
| Views.CandidateInjective | microsys/views.py:610-615 | the successive candidate names are all different, so the search ends |
| Views.Completeness | microsys/views.py:844-861 | profile completeness is 25 points per criterion met (name, e-mail, phone, picture), and 100 exactly when all four are met |
| Views.CompletenessMonotone | microsys/views.py:844-861 | meeting more criteria never lowers the score |
| Views.AccountHealth | microsys/views.py:864 | an account is "good" exactly when it is active, else "attention" |
| Views.ToggleScopes | microsys/views.py:973-1002 | the toggle goes to the requested state, or flips it when none is requested; switching scopes off is refused, changing nothing, exactly when users are still scoped |
| Views.ScopedUsersKeepScopesOn | microsys/views.py:987-997 | while a user has a scope, scopes stay enabled whatever is requested |
| Views.DoubleToggleRestores | microsys/views.py:979-1000 | two successful plain toggles restore the original setting |
| Views.CurrentPrefs | microsys/views.py:757-768 | a stored object is used as it is; blank or unparsable text and non-text values read as `{}`; other text is decoded and passed through `dict(...)`, which accepts an object, a list of pairs or the empty JSON text and fails on anything else |
| Views.DictOfPairs | microsys/views.py:768 | `dict()` of a list succeeds exactly when every item is a pair, and then has exactly the keys of the pairs |
| Views.DictOfPairsLastWins | microsys/views.py:768 | a key takes the value of its last pair |
| Views.DictOf | microsys/views.py:768 | `dict()` of a decoded value: an object is copied, a list read as pairs, the empty text gives `{}`, other text and scalars fail |
| Views.ListsOfPairsAreRead | microsys/views.py:757-768 | stored text decoding to `[]`, to `""` or to one key and value pair reads as `{}`, `{}` and that one key; text decoding to a number is an error |
| Views.MergePosted | microsys/views.py:767-776 | the posted fields, except the CSRF token, overwrite the stored preferences; other stored keys are kept |
| Views.MergePostedIdempotent | microsys/views.py:767-776 | posting the same preferences twice stores what posting once stores |
| Views.UpdatePreferences | microsys/views.py:742-797 | the update fails exactly when the stored preferences cannot be read, and otherwise stores the merge of the posted fields |
| Views.UpdatePreferencesIdempotent | microsys/views.py:757-787 | re-submitting the same form to the updated preferences changes nothing |
| Views.CsrfTokenNeverStored | microsys/views.py:775 | the CSRF token is never stored among the preferences |
| Views.PreferencesSaveNotLogged | microsys/views.py:786-787 | the preference save is one the activity log skips |
| Views.MissingRequired | microsys/views.py:96-106 | the missing fields are exactly the required fields (no key, not auto, no default, not blank, not nullable) absent from the post |
| Views.AssignFields | microsys/views.py:111-121 | every assignable posted field is set; a foreign key naming no record is reported as a bad reference |
| Views.CreateMinimalInstance | microsys/views.py:87-123 | inline creation reports missing fields exactly when a required field is absent, and a built record has every required field |
| Views.FullPostIsNeverMissing | microsys/views.py:96-109 | a post with every field never reports missing fields |
| Views.InlineScope | microsys/views.py:126-137 | with scopes on and a scope field, a scoped non-superuser's records get their own scope, a superuser's keep any existing scope, and otherwise nothing changes |
| Views.SuperuserKeepsExistingScope | microsys/views.py:132-137 | a superuser never overrides a record's existing scope |
| Fetcher.SanitizeFilename | microsys/fetcher.py:181-183 | sanitising keeps the length and replaces exactly the unsafe characters (slashes, colon, space) |
| Fetcher.SanitizeIdempotent | microsys/fetcher.py:181-183 | sanitising twice is sanitising once |
| Fetcher.SanitizeKeepsSafeNames | microsys/fetcher.py:181-183 | a name without unsafe characters is left as it is |
| Fetcher.Identifier | microsys/fetcher.py:109-123 | the identifier is the text of the first truthy one of number, code, serial, reference, ref; the key when none is truthy or that text is empty |
| Fetcher.NumberComesFirst | microsys/fetcher.py:112-120 | a truthy `number` is always the identifier |
| Fetcher.RefComesLast | microsys/fetcher.py:112-123 | `ref` is used only when the other four names are absent or falsy |
| Fetcher.FirstDay | microsys/fetcher.py:133-170 | a date search step finds a day exactly when one of the fields it accepts holds a date, and returns the day of the first such field in field order |
| Fetcher.NoDayIffNoDates | microsys/fetcher.py:125-172 | the date is unknown exactly when no date or datetime field holds a date |
| Fetcher.DateFieldWins | microsys/fetcher.py:133-141 | a date field named `date` decides the record's date |
| Fetcher.DownloadName | microsys/fetcher.py:63-70 | a download name never holds an unsafe character |
| Fetcher.DownloadNameShape | microsys/fetcher.py:63-70 | a download name starts with the sanitised model name and `_`, and ends with a dot and the sanitised extension of the stored file |
| Fetcher.RecordFiles | microsys/fetcher.py:52-75 | every selected file field holding a file is collected, and only those, each with its sanitised download name |
| Fetcher.RecordFilesIndices | microsys/fetcher.py:53-75 | a record's entries are exactly its qualifying fields (file field, selected by the type filter, holding a file), one entry each, in field order: the positions of the entries' fields increase and cover every qualifying field |
| Fetcher.RecordFilesCount | microsys/fetcher.py:53-75 | a record gives as many entries as it has qualifying fields |
| Fetcher.RecordFilesOrdered | microsys/fetcher.py:58-75 | of two qualifying fields, the earlier one's entry comes first |
| Fetcher.RecordFilesFromFileFields | microsys/fetcher.py:53-56 | every entry names a file field of the record |
| Fetcher.OneEntryPerField | microsys/fetcher.py:58-75 | with distinct field names, no field is collected twice |
| Fetcher.CollectFilesAppend | microsys/fetcher.py:45-75 | collecting from two lists of records is collecting from each in turn, so the total is the sum per record and records keep their order |
| Fetcher.CollectFilesOfOne | microsys/fetcher.py:45-75 | for one record, the collected list is that record's entries |
| Fetcher.OneFileServedDirectly | microsys/fetcher.py:77-85 | one record with exactly one qualifying field is served as that single file, under its download name |
| Fetcher.TwoFilesAreZipped | microsys/fetcher.py:77-98 | one record with two qualifying fields is served as an archive |
| Fetcher.CollectFiles | microsys/fetcher.py:42-75 | every collected file passes the type filter, has a safe name and is a stored file of one of the records under its download name; every selected non-empty file field of every record is collected |
| Fetcher.FileTypeRestricts | microsys/fetcher.py:58-61 | a specific file type collects only files of that field |
| Fetcher.ZipName | microsys/fetcher.py:88-97 | the archive name never holds an unsafe character, starts with the sanitised model name and `_`, and ends in `.zip` |
| Fetcher.FetchFile | microsys/fetcher.py:28-98 | no records is an error, no files is an error, one file is served directly, and two or more go in one archive named after the first and last records |
| Fetcher.ZipEntryNamesAsWritten | microsys/fetcher.py:205-217 | the zip entry names as the source computes them: one name per file, a first unseen name kept as it is |
| Fetcher.ZipRenameCollides | microsys/fetcher.py:209-217 | with files `a.x`, `a_2.x`, `a.x` the renaming gives two entries the same name `a_2.x` |
| Fetcher.ZipEntryNames | microsys/fetcher.py:209-217 | the corrected renaming gives every file an entry whose name is distinct from all others, and keeps a first unseen name |
| Fetcher.ZipEntryNamesFailure | microsys/fetcher.py:213-215 | naming fails exactly when a name without an extension repeats |
| Fetcher.DistinctNamesKept | microsys/fetcher.py:209-217 | distinct names are kept as they are, by both renamings |
| Fetcher.ColumnOf | microsys/fetcher.py:274-293 | a column is hidden exactly when the caller hides it or it is a file or automatic timestamp field, and its header has the verbose name's length |
| Fetcher.ExcelColumns | microsys/fetcher.py:268-293 | export columns come from the model's fields and never include an excluded one |
| Fetcher.ExcelColumnsIndices | microsys/fetcher.py:270-293 | the columns are exactly the fields not excluded, one each, in field order: their positions increase and cover every field not excluded |
| Fetcher.ExcelColumnsCount | microsys/fetcher.py:270-293 | there are as many columns as fields not excluded |
| Fetcher.ExcelColumnsOrdered | microsys/fetcher.py:270-293 | of two fields not excluded, the earlier one's column comes first |
| Fetcher.ExcelColumnsComplete | microsys/fetcher.py:270-293 | every field not excluded has its column |
| Fetcher.ExcludedNeverExported | microsys/fetcher.py:270-272 | an excluded field never has a column |
| Fetcher.ExcelCellAsWritten | microsys/fetcher.py:309-320 | the cell as the source computes it fails exactly for an empty file field |
| Fetcher.ExcelCell | microsys/fetcher.py:309-320 | the corrected cell agrees with the source wherever that succeeds, and shows an empty file as empty text |
| Fetcher.ExcelRow | microsys/fetcher.py:304-321 | the corrected row: one cell per column, each the corrected cell of that column's attribute |
| Fetcher.ExcelRowAsWritten | microsys/fetcher.py:304-321 | the row as the source builds it fails exactly when some column holds an empty file, and otherwise equals the corrected row |
| Fetcher.ExcelRowsAsWritten | microsys/fetcher.py:303-321 | the data rows as the source writes them fail exactly when some record has a failing row, and otherwise are the corrected rows, one per record |
| Fetcher.FetchExcel | microsys/fetcher.py:245-332 | the corrected export: no records is an error; otherwise one header and hidden flag per column, one row per record whose cells are the record's values of the columns (an empty file as empty text), the given sheet title or `Export` when it is empty, and `model_export_N.xlsx` as the file name |
| Fetcher.FetchExcelAsWritten | microsys/fetcher.py:245-332 | the export as the source runs it fails exactly when some record has an empty file in an exported column |
| Fetcher.FetchExcelAgrees | microsys/fetcher.py:245-332 | wherever the source's export succeeds, the corrected export gives the same sheet |
| Fetcher.EmptyFileAbortsExport | microsys/fetcher.py:313-314 | one record whose only column is an empty file field: the source's export fails, the corrected one writes an empty cell |
| Tables.StringsOrDefault | microsys/tables.py:147 | a non-empty translation table is used as it is, otherwise the default strings |
| Tables.UserActions | microsys/tables.py:59-105 | a row menu opens with the double-click view action, and ends with a divider and a delete action exactly for non-superusers; every action targets the row |
| Tables.DeleteNamesTheUser | microsys/tables.py:102 | the delete confirmation names the user's full name, or the username when there is none |
| Tables.LogActions | microsys/tables.py:170-183 | a log row has exactly the double-click view action for that entry |
| Tables.RenderAction | microsys/tables.py:191-197 | an action shows its translation when the table has one, itself otherwise, and `-` when empty |
| Tables.RenderActionCaseInsensitive | microsys/tables.py:197 | actions differing only in case render the same |
| Tables.RenderModelName | microsys/tables.py:199-215 | a model name shows the translation of its full dotted key, else of its last part, else itself, and `-` when empty |
| Tables.UndottedNameHasOneKey | microsys/tables.py:206-209 | for a name without a dot both lookups use the same key |
| Tables.DottedNameFallsBackToModel | microsys/tables.py:206-215 | an `app.model` name without its own translation shows the model's translation |
| LogDisplay.TranslateLog | microsys/templatetags/microsys_translation.py:7-44 | the unfinished filter gives empty text for a falsy value and nothing otherwise |
| LogDisplay.TranslateLogValue | microsys/templatetags/microsys_translation.py:47-63 | empty for no value, the value without a translation table, else the prefixed lower-case key's translation, falling back to the value |
| LogDisplay.TagAgreesWithTable | microsys/templatetags/microsys_translation.py:60-63 | the tag with the `action` prefix shows what the log table's action column shows |
| LogDisplay.DisplayHidesEveryMaskedField | microsys/templatetags/microsys_translation.py:86 | every field the capture engine masks is hidden by the display too |
| LogDisplay.Shown | microsys/templatetags/microsys_translation.py:95-96 | a truthy value longer than 20 characters shows its first 20 and `...`; anything else shows in full |
| LogDisplay.ShownIsStable | microsys/templatetags/microsys_translation.py:95-96 | truncating an already truncated text changes nothing |
| LogDisplay.BadgeFor | microsys/templatetags/microsys_translation.py:84-109 | hidden fields show only the mask; an old/new pair is a set, unset or change badge by the truthiness of its sides; anything else is shown as it is |
| LogDisplay.FormatLogDetails | microsys/templatetags/microsys_translation.py:66-111 | empty or non-object details show nothing, a download shows its file name and count (1 by default), and a diff shows one badge per field |
| LogDisplay.SecretsNeverShown | microsys/templatetags/microsys_translation.py:86-88 | the badge of a hidden field is always the mask |
| LogDisplay.CapturedPasswordChangeIsMasked | microsys/templatetags/microsys_translation.py:86-88 | a password change as the log records it displays as the masked badge |
| PermissionLabel.CustomPermissionStr | microsys/apps.py:7-23 | the label never starts or ends with whitespace, and a name with no keyword is only stripped |
| PermissionLabel.VerbTranslated | microsys/apps.py:12-23 | `Can add/change/delete/view X` becomes the Arabic verb followed by X whenever X holds none of the five keywords |
| PermissionLabel.CapitalisedWordKept | microsys/apps.py:17-21 | only the lower-case word `permission` is replaced, so a name without `C` or `p` is only stripped |
| Permissions.Classify | microsys/forms.py:162-167 | a codename is a view, add, change or delete permission exactly when it starts with that action's prefix, and other otherwise |
| Permissions.SelectionIgnoresValueType | microsys/forms.py:106-108 | a permission is selected whether the form holds its key as a number or as text |
| Permissions.ModelKey | microsys/forms.py:126-128 | the staff-management and log-view permissions of microsys are grouped under `staff_access`; every other permission under its model |
| Permissions.MakeOption | microsys/forms.py:169-194 | an option is selected exactly when its key is in the form value, carries its action and group, has the id `widget-id_key`, and has help text only for `manage_staff` |
| Permissions.OptionIdsDistinct | microsys/forms.py:190 | options of different permissions have different ids |
| Permissions.AddPermission | microsys/forms.py:196-208 | adding a permission creates its app group when missing, keeps that group's display name once set, and leaves every other app unchanged |
| Permissions.GroupPermissions | microsys/forms.py:121-208 | the grouping holds exactly the apps of the permissions, with each permission's option in its app and model group |
| Permissions.SortByAction | microsys/forms.py:210-215 | sorting orders options by action rank as a permutation, keeping each action's options in their order |
| Permissions.SortIdempotent | microsys/forms.py:210-215 | sorting a sorted list changes nothing |
| Permissions.SortGroups | microsys/forms.py:210-215 | sorting keeps every app and model group and their names, and sorts each model group's options by action |
| Permissions.AddExtraGroup | microsys/forms.py:87-94 | an extra option is appended to its app and model group, which is created when missing; every other group is kept |
| Permissions.MergeOptions | microsys/forms.py:241-248 | extra options are appended after the existing ones, skipping those whose id is already present |
| Permissions.MergeIdempotent | microsys/forms.py:241-248 | merging the same extras twice is merging once |
| Permissions.MergeKeepsIdsDistinct | microsys/forms.py:241-248 | merging keeps option ids distinct |
| Permissions.MergeExtras | microsys/forms.py:217-248 | the merged context holds the permission apps and the extra apps; apps without extras are unchanged |
| Permissions.MergeModels | microsys/forms.py:234-248 | an app's model groups after the merge are its own and the extras' ones; a model group with extras holds its options merged with them, the others are unchanged |
| Permissions.MergeApp | microsys/forms.py:219-248 | an app merged with its extra group takes the merged model groups and the overridden name |
| Permissions.ExtraOptionsPresent | microsys/forms.py:217-248 | every extra option ends up in its group, after the options already there |
| Permissions.GetContext | microsys/forms.py:101-252 | the widget shows exactly the apps of the permissions and of the extra groups |
| Permissions.ContextSorted | microsys/forms.py:210-248 | every model group that no extra option touches is ordered by action rank |
| Permissions.PermissionPlaced | microsys/forms.py:121-215 | every permission appears as an option in its app and model group |
| Permissions.OptionSurvivesMerge | microsys/forms.py:234-248 | merging extra groups never drops an option already in a model group |
| Permissions.PermissionInContext | microsys/forms.py:121-248 | every permission of the query is offered in its app and model group of the context the template receives, extra groups or not |
| Permissions.LegacyActionsBuckets | users/forms.py:82-96 | every bucket the legacy widget lists is non-empty and is the bucket of one of the actions, holding the app's permissions of that action |
| Permissions.LegacyActionsRanked | users/forms.py:90-96 | the legacy buckets come in the order view, add, change, delete, other |
| Permissions.LegacyActionsComplete | users/forms.py:82-96 | every action with a permission of the app gets its bucket |
| Permissions.LegacyGroups | users/forms.py:30-99 | the legacy widget has one group per app, with its display name and its ranked buckets |
| Permissions.LegacyPermissionPlaced | users/forms.py:50-88 | every permission appears in the bucket of its action under its app |
| Permissions.SavedScope | microsys/forms.py:424-427 | a scoped non-superuser's user forms always save the actor's own scope; otherwise the chosen scope |
| Permissions.ScopedActorCannotLeaveScope | microsys/forms.py:609-612 | the form's chosen scope has no effect exactly when the actor is a scoped non-superuser; for anyone else two different choices save differently |
| Autofill.ViewPermission | microsys/api.py:11 | the permission name is the app label, a dot, `view_` and the model name |
| Autofill.ViewPermissionIsView | microsys/api.py:11 | the permission checked is classified as a view permission |
| Autofill.ViewPermissionInjective | microsys/api.py:9-12 | different models (for app labels without dots) are checked against different permissions |
| Autofill.HasPerm | microsys/api.py:12 | inactive users have no permission, active superusers have all, others those granted |
| Autofill.CanViewModel | microsys/api.py:9-12 | a user may read a model's data exactly when active and either a superuser or granted that model's view permission |
| Autofill.OtherActionsDoNotGrantView | microsys/api.py:9-12 | add, change and delete permissions do not give an ordinary user autofill access |
| Autofill.Encode | microsys/api.py:49-85 | password, id, pk and auto-created fields are never sent; a null value is empty text, a relation its key, a date its ISO text; files, many-to-many fields and unreadable fields are left out |
| Autofill.MergeAbsent | microsys/api.py:39-43 | related data only adds keys not yet present, never `_pk`, and never overwrites |
| Autofill.Serialize | microsys/api.py:14-89 | beyond the second level the result is empty; otherwise it always carries `_pk` (the key, or empty text for a falsy key) and never a password, id or pk field |
| Autofill.SerializedKeysOfFlatRecord | microsys/api.py:49-89 | a record without reverse relations yields exactly its sendable fields and `_pk` |
| Autofill.FieldKept | microsys/api.py:39-82 | each sendable column is sent with its encoded value unless a later column of the same name replaces it |
| Autofill.RelatedKeysMerged | microsys/api.py:34-43 | a saved record's related one-to-one record contributes its keys (except `_pk`) to the top level |
| Autofill.SecondLevelIgnoresRelations | microsys/api.py:16-41 | at the second level reverse relations contribute nothing, so recursion stops there |
| Autofill.UnsavedRecordDiscoversRelated | microsys/api.py:28-43 | an unsaved record gets an empty `_pk` and the field names of a blank related record |

## Left out

- Database access through the ORM (querysets, `get_or_create`, `update_or_create`, `.exists()`): tables are sequences or maps passed in and returned.
- Thread locals (`get_current_user`, `get_current_request`): the actor and the request are parameters.
- Concurrency and the races between simultaneous requests or saves.
- The random generation of OTP codes, and e-mail and SMS sending: the code is a parameter, and only the subject and body of the mail are computed.
- Python's `str.format`: the mail body template is modelled as replacing every `{code}`, the only placeholder the source passes.
- File I/O, `openpyxl`, `zipfile`, `mimetypes` and HTTP responses: the model computes file names, entries, headers, cells and hidden flags, not bytes.
- The files that fail to open inside the zip loop: they are skipped after their name has been reserved, which does not change the names.
- The fetcher's dispatch on the type of its input (queryset, list, single record) and the "model cannot be determined" error: records arrive as a sequence.
- Column header text: `verbose_name.title()` is modelled only by its length.
- The JavaScript, templates and HTML markup: only which badge, menu entry or option is produced, and what it shows.
- Dictionary order: maps stand for Python dicts, and an order matters only for option lists, which are sequences.
- Case mapping is modelled for ASCII letters only.
- Primary keys held as text are treated as not numeric when a log entry's object id is taken.
- The staff-access branch at microsys/forms.py:133-136 that sets a profile verbose name: line 150 always overwrites it, so it has no effect.
- Translation discovery writes the core's nested dicts in place, because of a shallow copy; the merged result is modelled as a value.
- A `target_enabled` that is not a boolean is not modelled in the scope toggle.
- The session copy of the preferences (microsys/views.py:779-783).
- Views.CurrentPrefs: in a decoded list, a pair whose key is a number, a boolean or `null` is an error rather than a key, because stored preferences are keyed by text.
- Views.CurrentPrefs: an object inside a decoded list is an error rather than read as a sequence of its keys, because objects are modelled without key order.
- `filter_context_actions` and the permission filtering of row menus: the menus are modelled before filtering.
- `lru_cache` on the default strings of the tables.
- The `disabled` attribute of the extra staff option.
- Python's `str()` of a decoded JSON value is a parameter of the display helpers.
- Duplicate ids inside one list of extra options are taken as given and not removed.
- The older test script filters on `user` or `Profile` rather than `User Profile`; the model follows the signal handlers.
- The autofill views `get_last_entry` and `get_model_details` are ORM queries around the serializer and permission check.
- Autofill.Encode: a record held by a field that is not a relation is left out, which cannot happen in Django.
- Autofill.Serialize: an exception inside the serialization of a related record is modelled as there being no related record.
- Autofill.Serialize: model instances are taken to be always truthy.
- Signals.CreationDump: records backup codes in plain text, as the source does, rather than masking every sensitive field.
- ActivityLog.SafeLog: compares payloads only when the new one is non-empty, as the source does.
- Fetcher.FetchExcel: is the corrected export, which writes an empty file as empty text; the source's export fails on such a record, and Fetcher.FetchExcelAsWritten models that.

## Findings

| source | as written | input that shows it | evidently intended | confidence | as-written member | corrected member |
|---|---|---|---|---|---|---|
| microsys/fetcher.py:209-217 | a repeated name is renamed with the number of names seen so far, without checking that the new name is free | files named `a.x`, `a_2.x`, `a.x`: the third becomes `a_2.x`, the same as the second, and the archive gets two entries with one name | every entry in the archive has its own name | not executed | Fetcher.ZipEntryNamesAsWritten | Fetcher.ZipEntryNames |
| microsys/fetcher.py:313-314 | `hasattr(val, 'url')` is used to detect a file field; for a file field with no file, `url` raises `ValueError`, which `hasattr` does not catch | one record whose file column is empty: the export fails | an empty file field exports as an empty cell | not executed | Fetcher.ExcelCellAsWritten | Fetcher.ExcelCell |

=== FILE: activity_log.dfy ===
/** The activity log table (`UserActivityLog` in microsys/models.py) and its
    factory `safe_log`, which drops a write that repeats an entry made less
    than two seconds earlier. The table is a sequence of entries in insertion
    order; time is an integer count of microseconds. */
module ActivityLog {
  import opened Wrappers
  import opened JsonData
  import opened Models

  const CREATE := "CREATE"
  const UPDATE := "UPDATE"
  const DELETE := "DELETE"
  const LOGIN := "LOGIN"
  const LOGOUT := "LOGOUT"

  /** One microsecond-resolution second. */
  const MICROS_PER_SECOND: nat := 1_000_000

  /** Length of the duplicate-suppression window of `safe_log`. */
  const DEBOUNCE_MICROS: nat := 2 * MICROS_PER_SECOND

  /** Logical target name shared by user and profile writes. */
  const USER_PROFILE := "User Profile"

  datatype Entry = Entry(
    user: Option<nat>,
    action: string,
    modelName: Option<string>,
    objectId: Option<int>,
    number: Option<string>,
    details: map<string, Json>,
    ipAddress: Option<string>,
    userAgent: Option<string>,
    scope: Option<nat>,
    timestamp: nat)

  type Store = seq<Entry>

  /** Entries are stored in the order they were created, so timestamps never decrease. */
  predicate Chronological(store: Store) {
    forall i, j :: 0 <= i < j < |store| ==> store[i].timestamp <= store[j].timestamp
  }

  /** `now().replace(microsecond=0)`: the start of the current wall-clock second. */
  function SecondStart(now: nat): (r: nat)
    ensures r <= now < r + MICROS_PER_SECOND
    ensures r % MICROS_PER_SECOND == 0
  {
    now / MICROS_PER_SECOND * MICROS_PER_SECOND
  }

  /** `filter(...).exists()`: index of the first entry satisfying `p`. */
  function FirstMatch(store: Store, p: Entry -> bool): (r: Option<nat>)
    ensures r.Some? ==> r.value < |store| && p(store[r.value])
    ensures r.None? <==> forall j :: 0 <= j < |store| ==> !p(store[j])
  {
    if store == [] then None
    else if p(store[0]) then Some(0)
    else
      var rest := FirstMatch(store[1..], p);
      if rest.Some? then Some(rest.value + 1) else None
  }

  /** `filter(...).order_by('-timestamp').first()`: an entry satisfying `p`
      with the greatest timestamp; among equal timestamps the latest inserted. */
  function MostRecent(store: Store, p: Entry -> bool): (r: Option<nat>)
    ensures r.Some? ==> r.value < |store| && p(store[r.value])
    ensures r.Some? ==> forall j :: 0 <= j < |store| && p(store[j]) ==> store[j].timestamp <= store[r.value].timestamp
    ensures r.Some? ==> forall j :: r.value < j < |store| && p(store[j]) ==> store[j].timestamp < store[r.value].timestamp
    ensures r.None? <==> forall j :: 0 <= j < |store| ==> !p(store[j])
  {
    if store == [] then None
    else
      var n := |store| - 1;
      var before := MostRecent(store[..n], p);
      if p(store[n]) && (before.None? || store[before.value].timestamp <= store[n].timestamp) then Some(n)
      else before
  }

  /** The arguments of one `safe_log` call. */
  datatype LogRequest = LogRequest(
    user: Option<User>,
    action: string,
    modelName: Option<string>,
    objectId: Option<int>,
    number: Option<string>,
    details: Option<map<string, Json>>,
    ipAddress: Option<string>,
    userAgent: Option<string>,
    scope: Option<nat>)

  function UserId(u: Option<User>): Option<nat> {
    if u.Some? then Some(u.value.id) else None
  }

  /** The payload takes part in the duplicate test only when it is truthy. */
  predicate DetailsGiven(details: Option<map<string, Json>>) {
    details.Some? && details.value != map[]
  }

  /** An existing entry that makes `safe_log` drop the request at time `now`. */
  predicate IsDuplicate(e: Entry, req: LogRequest, now: nat) {
    && e.user == UserId(req.user)
    && e.action == req.action
    && e.modelName == req.modelName
    && e.objectId == req.objectId
    && e.timestamp >= now - DEBOUNCE_MICROS
    && (DetailsGiven(req.details) ==> e.details == req.details.value)
  }

  /** Scope of a new entry: the explicit one, else the actor's profile scope. */
  function EntryScope(req: LogRequest): (r: Option<nat>)
    ensures req.scope.Some? ==> r == req.scope
    ensures req.scope.None? && req.user.Some? ==> r == ProfileScope(req.user.value)
    ensures req.scope.None? && req.user.None? ==> r.None?
  {
    if req.scope.None? && req.user.Some? then ProfileScope(req.user.value) else req.scope
  }

  /** The entry `safe_log` creates for `req` at time `now`. */
  function NewEntry(req: LogRequest, now: nat): Entry {
    Entry(UserId(req.user), req.action, req.modelName, req.objectId, req.number,
          if DetailsGiven(req.details) then req.details.value else map[],
          req.ipAddress, req.userAgent, EntryScope(req), now)
  }

  /** `UserActivityLog.safe_log`: the new store and the created entry, or the
      unchanged store and `None` when a duplicate exists. */
  function SafeLog(store: Store, req: LogRequest, now: nat): (r: (Store, Option<Entry>))
    ensures r.1.None? <==> exists i :: 0 <= i < |store| && IsDuplicate(store[i], req, now)
    ensures r.1.None? ==> r.0 == store
    ensures r.1.Some? ==> r.0 == store + [r.1.value]
    ensures r.1.Some? ==> var e := r.1.value;
      && e.timestamp == now
      && e.user == UserId(req.user) && e.action == req.action
      && e.modelName == req.modelName && e.objectId == req.objectId
      && e.number == req.number && e.ipAddress == req.ipAddress && e.userAgent == req.userAgent
      && e.scope == EntryScope(req)
      && (DetailsGiven(req.details) ==> e.details == req.details.value)
      && (!DetailsGiven(req.details) ==> e.details == map[])
  {
    var dup := FirstMatch(store, e => IsDuplicate(e, req, now));
    if dup.Some? then (store, None)
    else
      var e := NewEntry(req, now);
      (store + [e], Some(e))
  }

  /** Chronological order is kept when entries are created with the current time. */
  lemma SafeLogKeepsOrder(store: Store, req: LogRequest, now: nat)
    requires Chronological(store)
    requires forall i :: 0 <= i < |store| ==> store[i].timestamp <= now
    ensures Chronological(SafeLog(store, req, now).0)
  {
  }

  /** Debounce: the same request repeated within two seconds of a successful
      write leaves exactly one new entry. */
  lemma {:induction false} RepeatWithinWindowIsDropped(store: Store, req: LogRequest, t1: nat, t2: nat)
    requires t1 <= t2 <= t1 + DEBOUNCE_MICROS
    requires SafeLog(store, req, t1).1.Some?
    ensures var s1 := SafeLog(store, req, t1).0;
      SafeLog(s1, req, t2) == (s1, None) && |s1| == |store| + 1
  {
    var s1 := SafeLog(store, req, t1).0;
    var e := SafeLog(store, req, t1).1.value;
    assert s1[|store|] == e;
    assert IsDuplicate(s1[|store|], req, t2);
  }

  /** Without a payload to compare, any recent entry for the same user, action
      and target suppresses the write, whatever details it holds. */
  lemma {:induction false} EmptyDetailsMatchAnyPayload(store: Store, req: LogRequest, now: nat, i: nat)
    requires !DetailsGiven(req.details)
    requires i < |store|
    requires store[i].user == UserId(req.user) && store[i].action == req.action
    requires store[i].modelName == req.modelName && store[i].objectId == req.objectId
    requires store[i].timestamp + DEBOUNCE_MICROS >= now
    ensures SafeLog(store, req, now) == (store, None)
  {
    assert IsDuplicate(store[i], req, now);
  }

  /** A write more than two seconds after every existing entry is never dropped. */
  lemma {:induction false} QuietStoreAcceptsWrite(store: Store, req: LogRequest, now: nat)
    requires forall i :: 0 <= i < |store| ==> store[i].timestamp + DEBOUNCE_MICROS < now
    ensures SafeLog(store, req, now).1.Some?
  {
    forall i | 0 <= i < |store|
      ensures !IsDuplicate(store[i], req, now)
    {
    }
  }
}

=== FILE: autofill.dfy ===
/** The autofill endpoints' helpers (microsys/api.py): the view permission
    a caller needs, and the flattening of a record into the dictionary a
    form is pre-filled from. A record is modelled as its primary key and its
    fields in the order `_meta.get_fields()` lists them (reverse relations
    ahead of concrete fields); what reading a field yields is part of the
    field, so the database and attribute access are not modelled. */
module Autofill {
  import opened Wrappers
  import opened Text
  import opened JsonData
  import Models
  import Permissions

  /** `_can_view_model`'s permission string, `<app>.view_<model>`. */
  function ViewPermission(appLabel: string, modelName: string): (perm: string)
    ensures |perm| == |appLabel| + 6 + |modelName|
    ensures perm[..|appLabel|] == appLabel && perm[|appLabel|] == '.'
    ensures perm[|appLabel| + 1..] == "view_" + modelName
  {
    appLabel + ".view_" + modelName
  }

  /** The codename part of the permission is one the permission widgets
      classify as a view permission. */
  lemma ViewPermissionIsView(appLabel: string, modelName: string)
    ensures Permissions.Classify(ViewPermission(appLabel, modelName)[|appLabel| + 1..]) == Permissions.View
  {
    var codename := ViewPermission(appLabel, modelName)[|appLabel| + 1..];
    assert codename[..5] == "view_";
  }

  /** For app labels without a dot, the permission string names exactly one
      app and model. */
  lemma ViewPermissionInjective(a1: string, m1: string, a2: string, m2: string)
    requires '.' !in a1 && '.' !in a2
    requires ViewPermission(a1, m1) == ViewPermission(a2, m2)
    ensures a1 == a2 && m1 == m2
  {
    var p := ViewPermission(a1, m1);
    AppLabelIsBeforeFirstDot(a1, "view_" + m1);
    AppLabelIsBeforeFirstDot(a2, "view_" + m2);
    assert "view_" + m1 == "view_" + m2;
    assert m1 == ("view_" + m1)[5..];
  }

  /** A dotless app label is what precedes the permission string's first dot. */
  lemma {:induction false} AppLabelIsBeforeFirstDot(appLabel: string, rest: string)
    requires '.' !in appLabel
    ensures BeforeFirst(appLabel + "." + rest, '.') == appLabel
    decreases |appLabel|
  {
    var s := appLabel + "." + rest;
    if appLabel != [] {
      assert s[0] == appLabel[0] != '.';
      assert s[1..] == appLabel[1..] + "." + rest;
      AppLabelIsBeforeFirstDot(appLabel[1..], rest);
      assert [appLabel[0]] + appLabel[1..] == appLabel;
    }
  }

  /** `user.has_perm(perm)` with Django's model backend: an active superuser
      holds every permission, an inactive user none, anyone else those they
      were granted (`granted`, directly or through a group). */
  function HasPerm(user: Models.User, granted: set<string>, perm: string): (r: bool)
    ensures !user.isActive ==> !r
    ensures user.isActive && user.isSuperuser ==> r
    ensures user.isActive && !user.isSuperuser ==> (r <==> perm in granted)
  {
    user.isActive && (user.isSuperuser || perm in granted)
  }

  /** `_can_view_model`. */
  function CanViewModel(user: Models.User, granted: set<string>, appLabel: string, modelName: string): (r: bool)
    ensures r <==> user.isActive && (user.isSuperuser || ViewPermission(appLabel, modelName) in granted)
  {
    HasPerm(user, granted, ViewPermission(appLabel, modelName))
  }

  /** A plain user may view a model exactly when they were granted its view
      permission and not merely another action on it. */
  lemma OtherActionsDoNotGrantView(user: Models.User, appLabel: string, modelName: string)
    requires user.isActive && !user.isSuperuser
    ensures !CanViewModel(user, {appLabel + ".change_" + modelName, appLabel + ".add_" + modelName,
                                 appLabel + ".delete_" + modelName}, appLabel, modelName)
  {
    var v := ViewPermission(appLabel, modelName);
    var n := |appLabel| + 1;
    assert v[n] == 'v';
    assert (appLabel + ".change_" + modelName)[n] == 'c';
    assert (appLabel + ".add_" + modelName)[n] == 'a';
    assert (appLabel + ".delete_" + modelName)[n] == 'd';
  }

  /** What reading a concrete field gives. */
  datatype Stored =
    /** `None`. */
    | NoValue
    /** Reading the field, or its related record's key, raises. */
    | Raises
    /** A related record (always truthy), by its primary key. */
    | Record(pk: Json)
    /** A `date` or `datetime`, by its ISO text. */
    | Moment(iso: string)
    /** Any other value. */
    | Plain(v: Json)

  datatype ColumnKind =
    | Scalar
    | ForeignKey
    | OneToOneKey
    | ManyToMany
    /** A `FileField` or `ImageField`. */
    | FileColumn

  predicate IsRelation(k: ColumnKind) {
    k.ForeignKey? || k.OneToOneKey? || k.ManyToMany?
  }

  datatype Field =
    /** A concrete field. */
    | Column(name: string, autoCreated: bool, kind: ColumnKind, value: Stored)
    /** The reverse side of a one-to-one relation: the record reached through
        the accessor (`None` when there is none), and the empty record of the
        related model an unsaved instance is given instead. */
    | ReverseOneToOne(related: Option<Instance>, blank: Instance)
    /** Any other field that is not concrete (reverse foreign keys, generic
        relations). */
    | OtherNonConcrete

  datatype Instance = Instance(pk: Json, fields: seq<Field>)

  /** Fields never sent to the form. */
  const SKIPPED_NAMES: set<string> := {"password", "id", "pk"}

  /** The key the record's own primary key is sent under. */
  const PK_KEY := "_pk"

  predicate Eligible(c: Field)
    requires c.Column?
  {
    c.name !in SKIPPED_NAMES && !c.autoCreated
  }

  /** The value a concrete field is sent as, or `None` when it is left out. */
  function Encode(c: Field): (r: Option<Json>)
    requires c.Column?
    ensures !Eligible(c) || c.value.Raises? ==> r.None?
    ensures Eligible(c) && c.value.NoValue? ==> r == Some(JStr(""))
    ensures r.Some? && !c.value.NoValue? ==>
      && (IsRelation(c.kind) ==> c.kind != ManyToMany && c.value.Record? && r.value == c.value.pk)
      && (!IsRelation(c.kind) ==> c.kind != FileColumn || c.value.Moment?)
      && (c.value.Moment? && !IsRelation(c.kind) ==> r.value == JStr(c.value.iso))
      && (c.value.Plain? ==> r.value == c.value.v)
    ensures c.kind == FileColumn && !c.value.NoValue? && !c.value.Moment? ==> r.None?
  {
    if !Eligible(c) || c.value.Raises? then None
    else if c.value.NoValue? then Some(JStr(""))
    else if IsRelation(c.kind) then
      // `value.pk` on anything but a record raises and the field is skipped.
      if c.kind != ManyToMany && c.value.Record? then Some(c.value.pk) else None
    else if c.value.Moment? then Some(JStr(c.value.iso))
    else if c.kind == FileColumn then None
    else if c.value.Plain? then Some(c.value.v)
    // A record held by a field that is not a relation cannot occur.
    else None
  }

  /** `if depth > 1` bounds the recursion: the measure falls at each level. */
  function Budget(depth: nat): nat {
    if depth <= 1 then 2 - depth else 0
  }

  /** The entries of `extra` whose keys are not yet in `data`, `_pk` excepted. */
  function MergeAbsent(data: map<string, Json>, extra: map<string, Json>): (r: map<string, Json>)
    ensures r.Keys == data.Keys + (extra.Keys - {PK_KEY})
    ensures forall k :: k in data ==> r[k] == data[k]
    ensures forall k :: k in extra && k !in data && k != PK_KEY ==> r[k] == extra[k]
  {
    map k | k in data.Keys + (extra.Keys - {PK_KEY}) :: if k in data then data[k] else extra[k]
  }

  predicate NoSkippedKey(data: map<string, Json>) {
    forall k :: k in SKIPPED_NAMES ==> k !in data
  }

  /** `_serialize_instance(instance, depth)`. */
  function Serialize(inst: Instance, depth: nat): (r: map<string, Json>)
    ensures depth > 1 ==> r == map[]
    ensures depth <= 1 ==> PK_KEY in r && r[PK_KEY] == (if Truthy(inst.pk) then inst.pk else JStr(""))
    ensures NoSkippedKey(r)
    decreases Budget(depth), 1
  {
    if depth > 1 then map[]
    else
      var data := Fields(inst, inst.fields, depth, map[]);
      data[PK_KEY := if Truthy(inst.pk) then inst.pk else JStr("")]
  }

  /** The loop over the fields, from the dictionary built so far. */
  function Fields(inst: Instance, fs: seq<Field>, depth: nat, data: map<string, Json>): (r: map<string, Json>)
    requires depth <= 1
    ensures data.Keys <= r.Keys
    ensures NoSkippedKey(data) ==> NoSkippedKey(r)
    decreases Budget(depth), 0, |fs|
  {
    if fs == [] then data
    else Fields(inst, fs[1..], depth, Step(inst, fs[0], depth, data))
  }

  /** One iteration of the loop. */
  function Step(inst: Instance, f: Field, depth: nat, data: map<string, Json>): (r: map<string, Json>)
    requires depth <= 1
    ensures data.Keys <= r.Keys
    ensures NoSkippedKey(data) ==> NoSkippedKey(r)
    decreases Budget(depth), 0, 0
  {
    match f
      case OtherNonConcrete => data
      case ReverseOneToOne(related, blank) =>
        var obj := if inst.pk == JNull then Some(blank) else related;
        if obj.None? then data else MergeAbsent(data, Serialize(obj.value, depth + 1))
      case Column(name, _, _, _) =>
        var e := Encode(f);
        if e.None? then data else data[name := e.value]
  }

  /** The names of the concrete fields that are sent. */
  function EncodedNames(fs: seq<Field>): set<string> {
    set i | 0 <= i < |fs| && fs[i].Column? && Encode(fs[i]).Some? :: fs[i].name
  }

  predicate NoReverse(fs: seq<Field>) {
    forall i :: 0 <= i < |fs| ==> !fs[i].ReverseOneToOne?
  }

  /** A record with no reverse one-to-one relations is sent as its primary
      key and exactly the fields `Encode` keeps. */
  lemma SerializedKeysOfFlatRecord(inst: Instance, depth: nat)
    requires depth <= 1 && NoReverse(inst.fields)
    ensures Serialize(inst, depth).Keys == EncodedNames(inst.fields) + {PK_KEY}
  {
    FieldsKeys(inst, inst.fields, depth, map[]);
  }

  lemma {:induction false} FieldsKeys(inst: Instance, fs: seq<Field>, depth: nat, data: map<string, Json>)
    requires depth <= 1 && NoReverse(fs)
    ensures Fields(inst, fs, depth, data).Keys == data.Keys + EncodedNames(fs)
    decreases |fs|
  {
    if fs != [] {
      var next := Step(inst, fs[0], depth, data);
      assert next.Keys == data.Keys + EncodedNames([fs[0]]) by {
        assert !fs[0].ReverseOneToOne?;
        EncodedNamesSingle(fs[0]);
      }
      assert NoReverse(fs[1..]) by {
        forall i | 0 <= i < |fs[1..]|
          ensures !fs[1..][i].ReverseOneToOne?
        {
          assert fs[1..][i] == fs[i + 1];
        }
      }
      FieldsKeys(inst, fs[1..], depth, next);
      EncodedNamesCons(fs);
    }
  }

  lemma EncodedNamesSingle(f: Field)
    ensures EncodedNames([f]) == if f.Column? && Encode(f).Some? then {f.name} else {}
  {
    assert [f][0] == f;
  }

  lemma EncodedNamesCons(fs: seq<Field>)
    requires fs != []
    ensures EncodedNames(fs) == EncodedNames([fs[0]]) + EncodedNames(fs[1..])
  {
    forall n | n in EncodedNames(fs)
      ensures n in EncodedNames([fs[0]]) + EncodedNames(fs[1..])
    {
      var i :| 0 <= i < |fs| && fs[i].Column? && Encode(fs[i]).Some? && fs[i].name == n;
      if i > 0 {
        assert fs[1..][i - 1] == fs[i];
      } else {
        assert [fs[0]][0] == fs[0];
      }
    }
    forall n | n in EncodedNames(fs[1..])
      ensures n in EncodedNames(fs)
    {
      var i :| 0 <= i < |fs[1..]| && fs[1..][i].Column? && Encode(fs[1..][i]).Some? && fs[1..][i].name == n;
      assert fs[1..][i] == fs[i + 1];
    }
    forall n | n in EncodedNames([fs[0]])
      ensures n in EncodedNames(fs)
    {
      assert [fs[0]][0] == fs[0];
    }
  }

  /** A field that is sent, and that no later field of the same name
      replaces, is sent as `Encode` gives it: the merged data of a related
      record never replaces a key that is already there. */
  lemma FieldKept(inst: Instance, depth: nat, i: nat)
    requires depth <= 1 && i < |inst.fields|
    requires inst.fields[i].Column? && Encode(inst.fields[i]).Some?
    requires inst.fields[i].name != PK_KEY
    requires forall j :: i < j < |inst.fields| && inst.fields[j].Column? ==> inst.fields[j].name != inst.fields[i].name
    ensures inst.fields[i].name in Serialize(inst, depth)
    ensures Serialize(inst, depth)[inst.fields[i].name] == Encode(inst.fields[i]).value
  {
    var fs := inst.fields;
    var name := fs[i].name;
    assert fs == fs[..i] + fs[i..];
    FieldsSplit(inst, fs[..i], fs[i..], depth, map[]);
    var before := Fields(inst, fs[..i], depth, map[]);
    var after := Step(inst, fs[i], depth, before);
    assert fs[i..][1..] == fs[i + 1..];
    assert fs[i..][0] == fs[i];
    assert after[name] == Encode(fs[i]).value;
    var rest := fs[i + 1..];
    forall j | 0 <= j < |rest| && rest[j].Column?
      ensures rest[j].name != name
    {
      assert rest[j] == fs[i + 1 + j];
    }
    KeyKept(inst, rest, depth, after, name);
  }

  /** The loop over `a + b` is the loop over `b` after the loop over `a`. */
  lemma {:induction false} FieldsSplit(inst: Instance, a: seq<Field>, b: seq<Field>, depth: nat, data: map<string, Json>)
    requires depth <= 1
    ensures Fields(inst, a + b, depth, data) == Fields(inst, b, depth, Fields(inst, a, depth, data))
    decreases |a|
  {
    if a == [] {
      assert a + b == b;
    } else {
      assert (a + b)[0] == a[0];
      assert (a + b)[1..] == a[1..] + b;
      FieldsSplit(inst, a[1..], b, depth, Step(inst, a[0], depth, data));
    }
  }

  /** A key already present keeps its value through fields none of which is
      a concrete field of that name. */
  lemma {:induction false} KeyKept(inst: Instance, fs: seq<Field>, depth: nat, data: map<string, Json>, k: string)
    requires depth <= 1 && k in data
    requires forall j :: 0 <= j < |fs| && fs[j].Column? ==> fs[j].name != k
    ensures k in Fields(inst, fs, depth, data) && Fields(inst, fs, depth, data)[k] == data[k]
    decreases |fs|
  {
    if fs != [] {
      var next := Step(inst, fs[0], depth, data);
      assert next[k] == data[k] by {
        assert fs[0].Column? ==> fs[0].name != k;
      }
      forall j | 0 <= j < |fs[1..]| && fs[1..][j].Column?
        ensures fs[1..][j].name != k
      {
        assert fs[1..][j] == fs[j + 1];
      }
      KeyKept(inst, fs[1..], depth, next, k);
    }
  }

  /** A saved record's related record is merged in: every key it sends other
      than `_pk` is sent for the record too. */
  lemma RelatedKeysMerged(inst: Instance, i: nat, k: string)
    requires i < |inst.fields| && inst.pk != JNull
    requires inst.fields[i].ReverseOneToOne? && inst.fields[i].related.Some?
    requires k in Serialize(inst.fields[i].related.value, 1) && k != PK_KEY
    ensures k in Serialize(inst, 0)
  {
    var fs := inst.fields;
    assert fs == fs[..i] + fs[i..];
    FieldsSplit(inst, fs[..i], fs[i..], 0, map[]);
    var before := Fields(inst, fs[..i], 0, map[]);
    assert fs[i..][0] == fs[i];
    var after := Step(inst, fs[i], 0, before);
    assert k in after;
  }

  /** At depth 1 the related records contribute nothing: nesting stops after
      one level. */
  lemma SecondLevelIgnoresRelations(inst: Instance)
    ensures Serialize(inst, 1) == Serialize(Instance(inst.pk, Concrete(inst.fields)), 1)
  {
    FieldsAtDepthOne(inst, inst.pk, inst.fields, map[]);
  }

  /** The fields without the reverse relations. */
  function Concrete(fs: seq<Field>): (r: seq<Field>)
    ensures NoReverse(r)
    ensures |r| <= |fs|
  {
    if fs == [] then []
    else if fs[0].ReverseOneToOne? then Concrete(fs[1..])
    else [fs[0]] + Concrete(fs[1..])
  }

  lemma {:induction false} FieldsAtDepthOne(inst: Instance, pk: Json, fs: seq<Field>, data: map<string, Json>)
    ensures Fields(inst, fs, 1, data) == Fields(Instance(pk, Concrete(fs)), Concrete(fs), 1, data)
    decreases |fs|
  {
    if fs != [] {
      var flat := Instance(pk, Concrete(fs));
      if fs[0].ReverseOneToOne? {
        assert Step(inst, fs[0], 1, data) == data by {
          var obj := if inst.pk == JNull then Some(fs[0].blank) else fs[0].related;
          if obj.Some? {
            assert Serialize(obj.value, 2) == map[];
          }
        }
        FieldsAtDepthOne(inst, pk, fs[1..], data);
        FieldsAnyInstance(Instance(pk, Concrete(fs[1..])), flat, Concrete(fs[1..]), 1, data);
      } else {
        var next := Step(inst, fs[0], 1, data);
        assert Step(flat, fs[0], 1, data) == next;
        FieldsAtDepthOne(inst, pk, fs[1..], next);
        FieldsAnyInstance(Instance(pk, Concrete(fs[1..])), flat, Concrete(fs[1..]), 1, next);
        assert Concrete(fs)[1..] == Concrete(fs[1..]);
      }
    }
  }

  /** Without reverse relations the loop does not look at the record. */
  lemma {:induction false} FieldsAnyInstance(a: Instance, b: Instance, fs: seq<Field>, depth: nat, data: map<string, Json>)
    requires depth <= 1 && NoReverse(fs)
    ensures Fields(a, fs, depth, data) == Fields(b, fs, depth, data)
    decreases |fs|
  {
    if fs != [] {
      assert !fs[0].ReverseOneToOne?;
      assert NoReverse(fs[1..]) by {
        forall i | 0 <= i < |fs[1..]|
          ensures !fs[1..][i].ReverseOneToOne?
        {
          assert fs[1..][i] == fs[i + 1];
        }
      }
      FieldsAnyInstance(a, b, fs[1..], depth, Step(a, fs[0], depth, data));
    }
  }

  /** An unsaved record is sent with an empty `_pk`, and the fields of its
      related models are discovered from their empty records. */
  lemma UnsavedRecordDiscoversRelated(inst: Instance, i: nat, k: string)
    requires inst.pk == JNull && i < |inst.fields|
    requires inst.fields[i].ReverseOneToOne?
    requires k in Serialize(inst.fields[i].blank, 1) && k != PK_KEY
    ensures Serialize(inst, 0)[PK_KEY] == JStr("")
    ensures k in Serialize(inst, 0)
  {
    var fs := inst.fields;
    assert fs == fs[..i] + fs[i..];
    FieldsSplit(inst, fs[..i], fs[i..], 0, map[]);
    var before := Fields(inst, fs[..i], 0, map[]);
    assert fs[i..][0] == fs[i];
    var after := Step(inst, fs[i], 0, before);
    assert k in after;
  }
}

=== FILE: fetcher.dfy ===
/** The universal downloader and the Excel exporter (microsys/fetcher.py):
    file-name sanitising, the identifier and date chosen for a record, which
    stored files are collected and how they are served, the names of the zip
    entries, and the columns and cells of the exported sheet. Opening files,
    building the archive and the workbook bytes are outside the model. */
module Fetcher {
  import opened Wrappers
  import opened Text
  import opened Values

  // ---------------------------------------------------------------------
  // File names

  predicate UnsafeChar(c: char) {
    c == '/' || c == '\\' || c == ':' || c == ' '
  }

  /** What `_sanitize_filename` turns one character into. */
  function SafeChar(c: char): (d: char)
    ensures !UnsafeChar(d)
    ensures !UnsafeChar(c) ==> d == c
  {
    if c == '/' || c == '\\' || c == ' ' then '_' else if c == ':' then '-' else c
  }

  /** `_sanitize_filename`: the four replacements, in the source's order. */
  function SanitizeFilename(s: string): (r: string)
    ensures |r| == |s|
    ensures forall i :: 0 <= i < |s| ==> r[i] == SafeChar(s[i])
    ensures forall i :: 0 <= i < |r| ==> !UnsafeChar(r[i])
  {
    var s1 := ReplaceAll(s, "/", "_");
    var s2 := ReplaceAll(s1, "\\", "_");
    var s3 := ReplaceAll(s2, ":", "-");
    ReplaceAllSingleChar(s, '/', '_');
    ReplaceAllSingleChar(s1, '\\', '_');
    ReplaceAllSingleChar(s2, ':', '-');
    ReplaceAllSingleChar(s3, ' ', '_');
    ReplaceAll(s3, " ", "_")
  }

  lemma SanitizeIdempotent(s: string)
    ensures SanitizeFilename(SanitizeFilename(s)) == SanitizeFilename(s)
  {
  }

  /** A name that is already safe is left alone. */
  lemma SanitizeKeepsSafeNames(s: string)
    requires forall i :: 0 <= i < |s| ==> !UnsafeChar(s[i])
    ensures SanitizeFilename(s) == s
  {
  }

  // ---------------------------------------------------------------------
  // Records

  datatype FieldKind =
    | DateField
    /** `auto_now` or `auto_now_add` set. */
    | DateTimeField(autoNow: bool)
    /** A `FileField` or `ImageField`. */
    | FileField
    | OtherField

  datatype FieldInfo = FieldInfo(name: string, kind: FieldKind, verboseName: string)

  /** An attribute of a record. */
  datatype Attr =
    | Plain(v: Value)
    /** A date or datetime: its `%Y-%m-%d` form and its `str()` form. */
    | Moment(day: string, text: string)
    /** A file field's value; the empty name means no file. */
    | StoredFile(fileName: string)

  predicate AttrTruthy(a: Attr) {
    match a
    case Plain(v) => Values.Truthy(v)
    case Moment(_, _) => true
    case StoredFile(n) => n != ""
  }

  /** `str()` of an attribute. */
  function AttrText(a: Attr): string {
    match a
    case Plain(v) => Display(v)
    case Moment(_, text) => text
    case StoredFile(n) => n
  }

  /** A model instance: its model name, key, concrete fields in declaration
      order, and readable attributes (`hasattr` is membership). */
  datatype Record = Record(modelName: string, pk: Value, fields: seq<FieldInfo>, attrs: map<string, Attr>)

  // ---------------------------------------------------------------------
  // Identifier and date of a record

  const IDENTIFIER_NAMES: seq<string> := ["number", "code", "serial", "reference", "ref"]

  const UNKNOWN_DATE := "unknown_date"

  predicate HasTruthy(rec: Record, name: string) {
    name in rec.attrs && AttrTruthy(rec.attrs[name])
  }

  /** Position of the first name in `names` the record has a truthy attribute for. */
  function FirstTruthy(rec: Record, names: seq<string>): (r: Option<nat>)
    ensures r.Some? ==> r.value < |names| && HasTruthy(rec, names[r.value])
    ensures r.Some? ==> forall j :: 0 <= j < r.value ==> !HasTruthy(rec, names[j])
    ensures r.None? <==> forall j :: 0 <= j < |names| ==> !HasTruthy(rec, names[j])
  {
    if names == [] then None
    else if HasTruthy(rec, names[0]) then Some(0)
    else
      var rest := FirstTruthy(rec, names[1..]);
      if rest.Some? then Some(rest.value + 1) else None
  }

  /** The identifier of `_get_record_metadata`: `str()` of the first truthy
      attribute among the candidate names, else `str(pk)`. */
  function Identifier(rec: Record): (r: string)
    ensures var i := FirstTruthy(rec, IDENTIFIER_NAMES);
      && (i.Some? && AttrText(rec.attrs[IDENTIFIER_NAMES[i.value]]) != "" ==> r == AttrText(rec.attrs[IDENTIFIER_NAMES[i.value]]))
      && (i.Some? && AttrText(rec.attrs[IDENTIFIER_NAMES[i.value]]) == "" ==> r == Display(rec.pk))
      && (i.None? ==> r == Display(rec.pk))
  {
    var i := FirstTruthy(rec, IDENTIFIER_NAMES);
    var id := if i.Some? then AttrText(rec.attrs[IDENTIFIER_NAMES[i.value]]) else "";
    if id == "" then Display(rec.pk) else id
  }

  /** A truthy `number` wins over every other candidate. */
  lemma NumberComesFirst(rec: Record)
    requires HasTruthy(rec, "number") && AttrText(rec.attrs["number"]) != ""
    ensures Identifier(rec) == AttrText(rec.attrs["number"])
  {
    assert IDENTIFIER_NAMES[0] == "number";
  }

  /** `ref` is used only when none of the other four is truthy. */
  lemma RefComesLast(rec: Record)
    requires !HasTruthy(rec, "number") && !HasTruthy(rec, "code") && !HasTruthy(rec, "serial") && !HasTruthy(rec, "reference")
    requires HasTruthy(rec, "ref") && AttrText(rec.attrs["ref"]) != ""
    ensures Identifier(rec) == AttrText(rec.attrs["ref"])
  {
    var r := FirstTruthy(rec, IDENTIFIER_NAMES);
    assert IDENTIFIER_NAMES[0] == "number" && IDENTIFIER_NAMES[1] == "code" && IDENTIFIER_NAMES[2] == "serial";
    assert IDENTIFIER_NAMES[3] == "reference" && IDENTIFIER_NAMES[4] == "ref";
    assert r.Some?;
    assert r.value == 4;
  }

  predicate IsDateKind(k: FieldKind) {
    k.DateField? || k.DateTimeField?
  }

  /** The day of a date-valued attribute. */
  function DayOf(rec: Record, name: string): Option<string> {
    if name in rec.attrs && rec.attrs[name].Moment? then Some(rec.attrs[name].day) else None
  }

  /** Which fields a step of the date search looks at. */
  datatype DateStep = AnyDate | CreatedStamp | AnyStamp

  predicate Accepts(step: DateStep, f: FieldInfo) {
    match step
    case AnyDate => f.kind.DateField?
    case CreatedStamp => f.kind.DateTimeField? && (Contains(f.name, "created") || Contains(f.name, "joined") || Contains(f.name, "applied"))
    case AnyStamp => f.kind.DateTimeField?
  }

  predicate Dated(rec: Record, step: DateStep, f: FieldInfo) {
    Accepts(step, f) && DayOf(rec, f.name).Some?
  }

  /** Field `i` is the first field the step accepts that holds a date. */
  predicate FirstDatedAt(rec: Record, fields: seq<FieldInfo>, step: DateStep, i: int) {
    && 0 <= i < |fields|
    && Dated(rec, step, fields[i])
    && forall j :: 0 <= j < i ==> !Dated(rec, step, fields[j])
  }

  /** The day of the first field the step accepts that holds a date. */
  function FirstDay(rec: Record, fields: seq<FieldInfo>, step: DateStep): (r: Option<string>)
    ensures r.None? <==> forall i :: 0 <= i < |fields| && Accepts(step, fields[i]) ==> DayOf(rec, fields[i].name).None?
    ensures r.Some? ==> exists i :: FirstDatedAt(rec, fields, step, i) && DayOf(rec, fields[i].name) == r
  {
    if fields == [] then None
    else if Accepts(step, fields[0]) && DayOf(rec, fields[0].name).Some? then DayOf(rec, fields[0].name)
    else
      var r := FirstDay(rec, fields[1..], step);
      assert forall i :: 1 <= i < |fields| ==> fields[i] == fields[1..][i - 1];
      r
  }

  /** `meta.get_field('date')`. */
  function FieldNamed(fields: seq<FieldInfo>, name: string): (r: Option<FieldInfo>)
    ensures r.Some? ==> r.value in fields && r.value.name == name
  {
    if fields == [] then None
    else if fields[0].name == name then Some(fields[0])
    else FieldNamed(fields[1..], name)
  }

  /** The date strategy: a date-typed field named `date`, then any date field,
      then a creation-like timestamp, then any timestamp. `NoDayIffNoDates`
      and `DateFieldWins` state its outcome. */
  function BestDay(rec: Record): Option<string> {
    var named := FieldNamed(rec.fields, "date");
    var explicit := if named.Some? && IsDateKind(named.value.kind) then DayOf(rec, "date") else None;
    if explicit.Some? then explicit
    else
      var d := FirstDay(rec, rec.fields, AnyDate);
      if d.Some? then d
      else
        var c := FirstDay(rec, rec.fields, CreatedStamp);
        if c.Some? then c else FirstDay(rec, rec.fields, AnyStamp)
  }

  /** The date part of a download name; a helper of `DownloadName`. */
  function DateString(rec: Record): string {
    var best := BestDay(rec);
    if best.Some? then best.value else UNKNOWN_DATE
  }

  /** No day is found exactly when no date or datetime field holds a date. */
  lemma {:induction false} NoDayIffNoDates(rec: Record)
    ensures BestDay(rec).None? <==>
      forall i :: 0 <= i < |rec.fields| && IsDateKind(rec.fields[i].kind) ==> DayOf(rec, rec.fields[i].name).None?
  {
    var named := FieldNamed(rec.fields, "date");
    if named.Some? && IsDateKind(named.value.kind) && DayOf(rec, "date").Some? {
      var i :| 0 <= i < |rec.fields| && rec.fields[i] == named.value;
      assert DayOf(rec, rec.fields[i].name).Some?;
    }
    if BestDay(rec).None? {
      forall i | 0 <= i < |rec.fields| && IsDateKind(rec.fields[i].kind)
        ensures DayOf(rec, rec.fields[i].name).None?
      {
        assert Accepts(AnyDate, rec.fields[i]) || Accepts(AnyStamp, rec.fields[i]);
      }
    }
  }

  /** A date-typed field named `date` that holds a date decides the day. */
  lemma DateFieldWins(rec: Record, day: string, text: string)
    requires FieldNamed(rec.fields, "date").Some? && IsDateKind(FieldNamed(rec.fields, "date").value.kind)
    requires "date" in rec.attrs && rec.attrs["date"] == Moment(day, text)
    ensures DateString(rec) == day
  {
  }

  // ---------------------------------------------------------------------
  // Collecting files

  /** A file picked for download: its archive name, its field, its stored name. */
  datatype Collected = Collected(filename: string, fieldName: string, fileName: string)

  /** `file_type` restricts the fields only when it is truthy and not `all`. */
  predicate Selected(fileType: Option<string>, fieldName: string) {
    fileType.None? || fileType.value == "" || fileType.value == "all" || fieldName == fileType.value
  }

  predicate HasFile(rec: Record, name: string) {
    name in rec.attrs && rec.attrs[name].StoredFile? && rec.attrs[name].fileName != ""
  }

  /** `model_id_day_field.ext`, sanitised; the layout of a download name. */
  function NameOfParts(model: string, id: string, day: string, field: string, ext: string): string {
    SanitizeFilename(model + "_" + id + "_" + day + "_" + field + "." + ext)
  }

  /** `Model_Identifier_Date_Field.ext`, sanitised. */
  function DownloadName(rec: Record, fieldName: string, fileName: string): (r: string)
    ensures forall i :: 0 <= i < |r| ==> !UnsafeChar(r[i])
  {
    NameOfParts(rec.modelName, Identifier(rec), DateString(rec), fieldName, AfterLast(fileName, '.'))
  }

  /** `r` ends with a dot and then `ext`. */
  predicate EndsWithExtension(r: string, ext: string) {
    |r| > |ext| && r[|r| - |ext| - 1..] == "." + ext
  }

  /** `r` opens with `head` and then an underscore. */
  predicate OpensWithPrefix(r: string, head: string) {
    |r| > |head| && r[..|head| + 1] == head + "_"
  }

  /** A download name starts with the model name and keeps the stored file's
      extension. */
  lemma DownloadNameShape(rec: Record, fieldName: string, fileName: string)
    ensures EndsWithExtension(DownloadName(rec, fieldName, fileName), SanitizeFilename(AfterLast(fileName, '.')))
    ensures OpensWithPrefix(DownloadName(rec, fieldName, fileName), SanitizeFilename(rec.modelName))
  {
    DownloadNameParts(rec.modelName, Identifier(rec), DateString(rec), fieldName, AfterLast(fileName, '.'));
  }

  lemma DownloadNameParts(model: string, id: string, day: string, field: string, ext: string)
    ensures EndsWithExtension(NameOfParts(model, id, day, field, ext), SanitizeFilename(ext))
    ensures OpensWithPrefix(NameOfParts(model, id, day, field, ext), SanitizeFilename(model))
  {
    var stem := model + "_" + id + "_" + day + "_" + field;
    SanitizedEnding(stem, ext);
    var whole := stem + "." + ext;
    assert model + "_" <= whole by {
      assert model + "_" <= model + "_" + id;
      assert model + "_" + id <= model + "_" + id + "_";
      assert model + "_" + id + "_" <= model + "_" + id + "_" + day;
      assert model + "_" + id + "_" + day <= model + "_" + id + "_" + day + "_";
      assert model + "_" + id + "_" + day + "_" <= stem;
      assert stem <= stem + ".";
      assert stem + "." <= whole;
    }
    SanitizedOpening(model, '_', whole);
  }

  /** After sanitising, `stem.ext` still ends in a dot and the sanitised extension. */
  lemma SanitizedEnding(stem: string, ext: string)
    ensures EndsWithExtension(SanitizeFilename(stem + "." + ext), SanitizeFilename(ext))
  {
    var whole := stem + "." + ext;
    var r := SanitizeFilename(whole);
    var tail := "." + SanitizeFilename(ext);
    forall i | 0 <= i < |tail|
      ensures r[|stem| + i] == tail[i]
    {
      if i == 0 {
        assert whole[|stem|] == '.';
      } else {
        assert whole[|stem| + i] == ext[i - 1];
      }
    }
  }

  /** After sanitising, `head` followed by a safe separator still opens with the
      sanitised head and the separator. */
  lemma SanitizedOpening(head: string, sep: char, whole: string)
    requires !UnsafeChar(sep)
    requires head + [sep] <= whole
    ensures var r := SanitizeFilename(whole);
      |r| > |head| && r[..|head| + 1] == SanitizeFilename(head) + [sep]
  {
    var r := SanitizeFilename(whole);
    forall i | 0 <= i < |head| + 1
      ensures r[i] == (SanitizeFilename(head) + [sep])[i]
    {
      if i < |head| {
        assert whole[i] == (head + [sep])[i] == head[i];
      } else {
        assert whole[i] == (head + [sep])[i] == sep;
      }
    }
  }


  /** `c` is one of `rec`'s stored files, named as a download of it. */
  predicate CollectedFrom(c: Collected, rec: Record) {
    && HasFile(rec, c.fieldName)
    && c.fileName == rec.attrs[c.fieldName].fileName
    && c.filename == DownloadName(rec, c.fieldName, c.fileName)
  }

  /** A field `fetch_file` takes a file from: a file field the type filter
      selects, holding a file. */
  predicate Qualifies(rec: Record, fileType: Option<string>, f: FieldInfo) {
    f.kind.FileField? && Selected(fileType, f.name) && HasFile(rec, f.name)
  }

  /** The entry appended for a field holding a file (an empty stored name
      otherwise, which the collection never uses). */
  function EntryFor(rec: Record, f: FieldInfo): (e: Collected)
    ensures e.fieldName == f.name
    ensures HasFile(rec, f.name) ==> CollectedFrom(e, rec)
  {
    var n := if f.name in rec.attrs && rec.attrs[f.name].StoredFile? then rec.attrs[f.name].fileName else "";
    Collected(DownloadName(rec, f.name, n), f.name, n)
  }

  function QualifiesIn(rec: Record, fileType: Option<string>): FieldInfo -> bool {
    f => Qualifies(rec, fileType, f)
  }

  function EntryIn(rec: Record): FieldInfo -> Collected {
    f => EntryFor(rec, f)
  }

  /** The files of one record, in field order. */
  function RecordFiles(rec: Record, fields: seq<FieldInfo>, fileType: Option<string>): (r: seq<Collected>)
    ensures |r| <= |fields|
    ensures forall c :: c in r ==> Selected(fileType, c.fieldName) && CollectedFrom(c, rec)
    ensures forall f :: f in fields && f.kind.FileField? && Selected(fileType, f.name) && HasFile(rec, f.name) ==>
      exists c :: c in r && c.fieldName == f.name && CollectedFrom(c, rec)
  {
    if fields == [] then []
    else
      var f := fields[0];
      var rest := RecordFiles(rec, fields[1..], fileType);
      assert forall g :: g in fields ==> g == f || g in fields[1..];
      if Qualifies(rec, fileType, f) then
        var e := EntryFor(rec, f);
        assert CollectedFrom(e, rec) && e in [e] + rest;
        [e] + rest
      else rest
  }

  /** `r` is `xs` filtered by `keep` and mapped by `entry`: `idx` gives,
      in increasing order, the position in `xs` of each element of `r`, and
      every kept position is among them. */
  predicate FilteredAt<A, B(==)>(xs: seq<A>, keep: A -> bool, entry: A -> B, r: seq<B>, idx: seq<nat>) {
    && |idx| == |r|
    && (forall j :: 0 <= j < |idx| ==> idx[j] < |xs| && keep(xs[idx[j]]) && r[j] == entry(xs[idx[j]]))
    && Increasing(idx)
    && (forall i :: 0 <= i < |xs| && keep(xs[i]) ==> i in idx)
  }

  /** One more element in front: the positions move on by one, and position
      0 joins them when that element is kept. */
  lemma FilterStep<A, B>(xs: seq<A>, keep: A -> bool, entry: A -> B, rr: seq<B>, rest: seq<nat>) returns (idx: seq<nat>)
    requires |xs| > 0 && FilteredAt(xs[1..], keep, entry, rr, rest)
    ensures FilteredAt(xs, keep, entry, if keep(xs[0]) then [entry(xs[0])] + rr else rr, idx)
  {
    var shifted := ShiftPositions(xs, keep, entry, rr, rest);
    if keep(xs[0]) {
      idx := FilterKept(xs, keep, entry, rr, shifted);
    } else {
      idx := shifted;
    }
  }

  lemma FilterKept<A, B>(xs: seq<A>, keep: A -> bool, entry: A -> B, rr: seq<B>, shifted: seq<nat>) returns (idx: seq<nat>)
    requires |xs| > 0 && keep(xs[0])
    requires |shifted| == |rr| && Increasing(shifted)
    requires forall j :: 0 <= j < |shifted| ==>
      0 < shifted[j] < |xs| && keep(xs[shifted[j]]) && rr[j] == entry(xs[shifted[j]])
    requires forall i :: 1 <= i < |xs| && keep(xs[i]) ==> i in shifted
    ensures FilteredAt(xs, keep, entry, [entry(xs[0])] + rr, idx)
  {
    idx := [0] + shifted;
    var r := [entry(xs[0])] + rr;
    PrependZero(shifted);
    forall j | 0 <= j < |idx|
      ensures idx[j] < |xs| && keep(xs[idx[j]]) && r[j] == entry(xs[idx[j]])
    {
      if j > 0 {
        assert idx[j] == shifted[j - 1] && r[j] == rr[j - 1];
      }
    }
  }

  /** The positions of the kept elements of `xs[1..]`, read in `xs`. */
  lemma ShiftPositions<A, B>(xs: seq<A>, keep: A -> bool, entry: A -> B, rr: seq<B>, rest: seq<nat>) returns (shifted: seq<nat>)
    requires |xs| > 0 && FilteredAt(xs[1..], keep, entry, rr, rest)
    ensures |shifted| == |rr| && Increasing(shifted)
    ensures forall j :: 0 <= j < |shifted| ==>
      0 < shifted[j] < |xs| && keep(xs[shifted[j]]) && rr[j] == entry(xs[shifted[j]])
    ensures forall i :: 1 <= i < |xs| && keep(xs[i]) ==> i in shifted
  {
    var tail := xs[1..];
    shifted := Shifted(rest);
    forall j | 0 <= j < |shifted|
      ensures shifted[j] < |xs| && xs[shifted[j]] == tail[rest[j]]
    {
    }
    forall i | 1 <= i < |xs| && keep(xs[i])
      ensures i in shifted
    {
      assert tail[i - 1] == xs[i];
      var j :| 0 <= j < |rest| && rest[j] == i - 1;
      assert shifted[j] == i;
    }
  }

  /** `RecordFiles` is the filter of the qualifying fields, kept in field
      order: its entries correspond, one for one and in increasing position,
      to exactly the qualifying fields. */
  lemma {:induction false} RecordFilesIndices(rec: Record, fields: seq<FieldInfo>, fileType: Option<string>) returns (idx: seq<nat>)
    ensures FilteredAt(fields, QualifiesIn(rec, fileType), EntryIn(rec), RecordFiles(rec, fields, fileType), idx)
    decreases |fields|
  {
    if fields == [] {
      return [];
    }
    var rest := RecordFilesIndices(rec, fields[1..], fileType);
    idx := FilterStep(fields, QualifiesIn(rec, fileType), EntryIn(rec), RecordFiles(rec, fields[1..], fileType), rest);
  }

  /** One entry per qualifying field. */
  lemma RecordFilesCount(rec: Record, fields: seq<FieldInfo>, fileType: Option<string>)
    ensures |RecordFiles(rec, fields, fileType)| == |set i | 0 <= i < |fields| && Qualifies(rec, fileType, fields[i])|
  {
    var idx := RecordFilesIndices(rec, fields, fileType);
    FilteredCount(fields, QualifiesIn(rec, fileType), EntryIn(rec), RecordFiles(rec, fields, fileType), idx);
    QualifyingPositions(rec, fields, fileType);
  }

  lemma QualifyingPositions(rec: Record, fields: seq<FieldInfo>, fileType: Option<string>)
    ensures KeptPositions(fields, QualifiesIn(rec, fileType)) == set i | 0 <= i < |fields| && Qualifies(rec, fileType, fields[i])
  {
    forall i | 0 <= i < |fields|
      ensures QualifiesIn(rec, fileType)(fields[i]) == Qualifies(rec, fileType, fields[i])
    {
    }
  }

  /** The entries of a record come in the order of its fields. */
  lemma RecordFilesOrdered(rec: Record, fields: seq<FieldInfo>, fileType: Option<string>, i: nat, j: nat)
    requires i < j < |fields| && Qualifies(rec, fileType, fields[i]) && Qualifies(rec, fileType, fields[j])
    ensures exists k1, k2 ::
              && 0 <= k1 < k2 < |RecordFiles(rec, fields, fileType)|
              && RecordFiles(rec, fields, fileType)[k1] == EntryFor(rec, fields[i])
              && RecordFiles(rec, fields, fileType)[k2] == EntryFor(rec, fields[j])
  {
    var idx := RecordFilesIndices(rec, fields, fileType);
    assert QualifiesIn(rec, fileType)(fields[i]) && QualifiesIn(rec, fileType)(fields[j]);
    var j1, j2 := FilteredOrder(fields, QualifiesIn(rec, fileType), EntryIn(rec), RecordFiles(rec, fields, fileType), idx, i, j);
    var r := RecordFiles(rec, fields, fileType);
    assert 0 <= j1 < j2 < |r|;
    assert r[j1] == EntryFor(rec, fields[i]) && r[j2] == EntryFor(rec, fields[j]);
  }

  predicate Increasing(idx: seq<nat>) {
    forall j1, j2 :: 0 <= j1 < j2 < |idx| ==> idx[j1] < idx[j2]
  }

  /** Every index moved one place on. */
  function Shifted(idx: seq<nat>): (r: seq<nat>)
    ensures |r| == |idx|
    ensures forall j :: 0 <= j < |idx| ==> r[j] == idx[j] + 1
    ensures Increasing(idx) ==> Increasing(r)
  {
    seq(|idx|, j requires 0 <= j < |idx| => idx[j] + 1)
  }

  /** Putting position 0 in front of positive increasing indices keeps them
      increasing and keeps every index. */
  lemma PrependZero(idx: seq<nat>)
    requires Increasing(idx) && forall j :: 0 <= j < |idx| ==> idx[j] > 0
    ensures Increasing([0] + idx)
    ensures forall v :: v in idx ==> v in [0] + idx
  {
    forall j1, j2 | 0 <= j1 < j2 < |[0] + idx|
      ensures ([0] + idx)[j1] < ([0] + idx)[j2]
    {
      if j1 > 0 {
        assert ([0] + idx)[j1] == idx[j1 - 1];
      }
      assert ([0] + idx)[j2] == idx[j2 - 1];
    }
  }

  /** Every collected file comes from a file field of the record's fields,
      the one its entry names. */
  /** A filter keeps the order of what it keeps. */
  lemma FilteredOrder<A, B>(xs: seq<A>, keep: A -> bool, entry: A -> B, r: seq<B>, idx: seq<nat>, i: nat, j: nat) returns (j1: nat, j2: nat)
    requires FilteredAt(xs, keep, entry, r, idx)
    requires i < j < |xs| && keep(xs[i]) && keep(xs[j])
    ensures j1 < j2 < |r| && r[j1] == entry(xs[i]) && r[j2] == entry(xs[j])
  {
    j1 :| 0 <= j1 < |idx| && idx[j1] == i;
    j2 :| 0 <= j2 < |idx| && idx[j2] == j;
  }

  /** A filter keeps exactly one element per kept position. */
  lemma FilteredCount<A, B>(xs: seq<A>, keep: A -> bool, entry: A -> B, r: seq<B>, idx: seq<nat>)
    requires FilteredAt(xs, keep, entry, r, idx)
    ensures |r| == |KeptPositions(xs, keep)|
  {
    assert KeptPositions(xs, keep) == Positions(idx);
    PositionsCount(idx);
  }

  ghost function KeptPositions<A>(xs: seq<A>, keep: A -> bool): set<nat> {
    set i | 0 <= i < |xs| && keep(xs[i])
  }

  function Positions(idx: seq<nat>): set<nat> {
    set j | 0 <= j < |idx| :: idx[j]
  }

  lemma {:induction false} PositionsCount(idx: seq<nat>)
    requires Increasing(idx)
    ensures |Positions(idx)| == |idx|
    decreases |idx|
  {
    if idx != [] {
      var tail := idx[1..];
      PositionsCount(tail);
      assert Positions(idx) == {idx[0]} + Positions(tail) by {
        forall v | v in Positions(idx) ensures v in {idx[0]} + Positions(tail) {
          var j :| 0 <= j < |idx| && idx[j] == v;
          if j > 0 { assert tail[j - 1] == v; }
        }
        forall v | v in Positions(tail) ensures v in Positions(idx) {
          var j :| 0 <= j < |tail| && tail[j] == v;
          assert idx[j + 1] == v;
        }
      }
      assert idx[0] !in Positions(tail) by {
        forall j | 0 <= j < |tail| ensures tail[j] != idx[0] {
          assert tail[j] == idx[j + 1];
        }
      }
    }
  }

  lemma RecordFilesFromFileFields(rec: Record, fields: seq<FieldInfo>, fileType: Option<string>)
    ensures forall c :: c in RecordFiles(rec, fields, fileType) ==>
      exists f :: f in fields && f.kind.FileField? && f.name == c.fieldName
  {
    var r := RecordFiles(rec, fields, fileType);
    var idx := RecordFilesIndices(rec, fields, fileType);
    forall c | c in r
      ensures exists f :: f in fields && f.kind.FileField? && f.name == c.fieldName
    {
      var j :| 0 <= j < |r| && r[j] == c;
      assert QualifiesIn(rec, fileType)(fields[idx[j]]);
    }
  }

  /** Django field names are unique, so each field yields at most one file. */
  lemma OneEntryPerField(rec: Record, fields: seq<FieldInfo>, fileType: Option<string>)
    requires forall i1, i2 :: 0 <= i1 < i2 < |fields| ==> fields[i1].name != fields[i2].name
    ensures var r := RecordFiles(rec, fields, fileType);
      forall j1, j2 :: 0 <= j1 < j2 < |r| ==> r[j1].fieldName != r[j2].fieldName
  {
    var idx := RecordFilesIndices(rec, fields, fileType);
  }

  /** The collection loop of `fetch_file`, record by record. */
  function CollectFiles(records: seq<Record>, fileType: Option<string>): (r: seq<Collected>)
    ensures forall k :: 0 <= k < |r| ==> Selected(fileType, r[k].fieldName)
    ensures forall k :: 0 <= k < |r| ==> forall i :: 0 <= i < |r[k].filename| ==> !UnsafeChar(r[k].filename[i])
    ensures forall c :: c in r ==> exists k :: 0 <= k < |records| && CollectedFrom(c, records[k])
    ensures forall k, f ::
      (0 <= k < |records| && f in records[k].fields && f.kind.FileField? &&
       Selected(fileType, f.name) && HasFile(records[k], f.name)) ==>
      exists c :: c in r && c.fieldName == f.name && CollectedFrom(c, records[k])
  {
    if records == [] then []
    else
      var own := RecordFiles(records[0], records[0].fields, fileType);
      var rest := CollectFiles(records[1..], fileType);
      assert forall k :: 1 <= k < |records| ==> records[1..][k - 1] == records[k];
      own + rest
  }

  /** The files of consecutive selections are concatenated: records keep
      their order, and the count is the sum of the records' counts. */
  lemma {:induction false} CollectFilesAppend(a: seq<Record>, b: seq<Record>, fileType: Option<string>)
    ensures CollectFiles(a + b, fileType) == CollectFiles(a, fileType) + CollectFiles(b, fileType)
    decreases |a|
  {
    if a == [] {
      assert a + b == b;
    } else {
      assert (a + b)[0] == a[0];
      assert (a + b)[1..] == a[1..] + b;
      CollectFilesAppend(a[1..], b, fileType);
    }
  }

  /** One record contributes exactly its own files. */
  lemma CollectFilesOfOne(rec: Record, fileType: Option<string>)
    ensures CollectFiles([rec], fileType) == RecordFiles(rec, rec.fields, fileType)
  {
    assert [rec][1..] == [];
  }

  /** A record with a single qualifying field is served as that file, not
      as an archive. */
  lemma OneFileServedDirectly(rec: Record, fileType: Option<string>, i0: nat)
    requires i0 < |rec.fields| && Qualifies(rec, fileType, rec.fields[i0])
    requires forall i :: 0 <= i < |rec.fields| && Qualifies(rec, fileType, rec.fields[i]) ==> i == i0
    ensures FetchFile([rec], fileType) == SingleFile(EntryFor(rec, rec.fields[i0]))
  {
    CollectFilesOfOne(rec, fileType);
    var idx := RecordFilesIndices(rec, rec.fields, fileType);
    assert i0 in idx;
    FirstTwoDiffer(idx);
    assert idx == [i0];
  }

  lemma FirstTwoDiffer(idx: seq<nat>)
    requires Increasing(idx)
    ensures |idx| >= 2 ==> idx[0] != idx[1]
  {
  }

  /** A record with two qualifying fields is served as an archive. */
  lemma TwoFilesAreZipped(rec: Record, fileType: Option<string>, i0: nat, i1: nat)
    requires i0 < i1 < |rec.fields|
    requires Qualifies(rec, fileType, rec.fields[i0]) && Qualifies(rec, fileType, rec.fields[i1])
    ensures FetchFile([rec], fileType).ZipArchive?
  {
    CollectFilesOfOne(rec, fileType);
    var idx := RecordFilesIndices(rec, rec.fields, fileType);
    var j0 :| 0 <= j0 < |idx| && idx[j0] == i0;
    var j1 :| 0 <= j1 < |idx| && idx[j1] == i1;
    assert j0 != j1;
    assert |CollectFiles([rec], fileType)| >= 2;
  }

  /** A specific `file_type` collects only the field of that name. */
  lemma FileTypeRestricts(records: seq<Record>, fileType: string)
    requires fileType != "" && fileType != "all"
    ensures forall c :: c in CollectFiles(records, Some(fileType)) ==> c.fieldName == fileType
  {
  }

  /** The outcome of `fetch_file`. */
  datatype Download =
    | NoRecords
    | NoFiles
    | SingleFile(file: Collected)
    | ZipArchive(files: seq<Collected>, zipName: string)

  /** The zip name: the first record's model, the first and last identifiers. */
  function ZipName(records: seq<Record>): (r: string)
    requires records != []
    ensures forall i :: 0 <= i < |r| ==> !UnsafeChar(r[i])
    ensures |r| >= 4 && r[|r| - 4..] == ".zip"
    ensures var model := SanitizeFilename(records[0].modelName);
      |r| > |model| && r[..|model| + 1] == model + "_"
  {
    var name := records[0].modelName + "_" + Identifier(records[0]) + "-" + Identifier(records[|records| - 1]) + ".zip";
    ZipNameEnding(records[0].modelName + "_" + Identifier(records[0]) + "-" + Identifier(records[|records| - 1]));
    ZipNameOpening(records[0].modelName, Identifier(records[0]), Identifier(records[|records| - 1]));
    SanitizeFilename(name)
  }

  lemma ZipNameEnding(stem: string)
    ensures var r := SanitizeFilename(stem + ".zip");
      |r| >= 4 && r[|r| - 4..] == ".zip"
  {
    var r := SanitizeFilename(stem + ".zip");
    assert EndsWithExtension(r, "zip") by {
      assert SanitizeFilename("zip") == "zip" by {
        SanitizeKeepsSafeNames("zip");
      }
      assert stem + ".zip" == stem + "." + "zip";
      SanitizedEnding(stem, "zip");
    }
  }

  lemma ZipNameOpening(model: string, first: string, last: string)
    ensures var r := SanitizeFilename(model + "_" + first + "-" + last + ".zip");
      |r| > |model| && r[..|model| + 1] == SanitizeFilename(model) + "_"
  {
    var stem := model + "_" + first + "-" + last;
    var whole := stem + ".zip";
    assert model + "_" <= whole by {
      assert model + "_" <= model + "_" + first;
      assert model + "_" + first <= model + "_" + first + "-";
      assert model + "_" + first + "-" <= stem;
      assert stem <= whole;
    }
    SanitizedOpening(model, '_', whole);
  }

  /** The decision of `fetch_file`: an error without records or without
      files, the file itself when there is one, an archive otherwise. */
  function FetchFile(records: seq<Record>, fileType: Option<string>): (r: Download)
    ensures r.NoRecords? <==> records == []
    ensures r.NoFiles? <==> records != [] && CollectFiles(records, fileType) == []
    ensures r.SingleFile? <==> records != [] && |CollectFiles(records, fileType)| == 1
    ensures r.SingleFile? ==> r.file == CollectFiles(records, fileType)[0]
    ensures r.ZipArchive? <==> records != [] && |CollectFiles(records, fileType)| >= 2
    ensures r.ZipArchive? ==> r.files == CollectFiles(records, fileType) && r.zipName == ZipName(records)
  {
    if records == [] then NoRecords
    else
      var files := CollectFiles(records, fileType);
      if files == [] then NoFiles
      else if |files| == 1 then SingleFile(files[0])
      else ZipArchive(files, ZipName(records))
  }

  // ---------------------------------------------------------------------
  // Names inside the archive

  /** `<base>_<n>.<ext>` for a name `<base>.<ext>` split at its last dot. */
  function Renamed(fname: string, n: nat): (r: string)
    requires '.' in fname
    ensures '.' in r
  {
    var parts := SplitLast(fname, '.');
    var r := parts.0 + "_" + NatToString(n) + "." + parts.1;
    assert r[|parts.0| + 1 + |NatToString(n)|] == '.';
    r
  }

  lemma RenamedInjective(fname: string, i: nat, j: nat)
    requires '.' in fname && i != j
    ensures Renamed(fname, i) != Renamed(fname, j)
  {
    var parts := SplitLast(fname, '.');
    var a, b := NatToString(i), NatToString(j);
    if Renamed(fname, i) == Renamed(fname, j) {
      var p := |parts.0| + 1;
      assert |a| == |b|;
      assert a == Renamed(fname, i)[p..p + |a|];
      assert b == Renamed(fname, j)[p..p + |b|];
      NatToStringInjective(i, j);
    }
  }

  /** `_serve_zip` as written: a name already used is renamed with the count
      of distinct names used so far, once, without checking the result; a
      repeated name without a dot makes the unpacking raise. */
  function ZipEntryNamesAsWritten(seen: set<string>, names: seq<string>): (r: Result<seq<string>, string>)
    ensures r.Success? ==> |r.value| == |names|
    ensures r.Success? && names != [] && names[0] !in seen ==> r.value[0] == names[0]
    decreases |names|
  {
    if names == [] then Success([])
    else
      var f := names[0];
      if f in seen && '.' !in f then Failure("ValueError")
      else
        var n := if f in seen then Renamed(f, |seen|) else f;
        var rest :- ZipEntryNamesAsWritten(seen + {n}, names[1..]);
        Success([n] + rest)
  }

  /** Two files of one record and a third file with the first one's name:
      the third is renamed onto the second. */
  lemma {:induction false} ZipRenameCollides()
    ensures ZipEntryNamesAsWritten({}, ["a.x", "a_2.x", "a.x"]) == Success(["a.x", "a_2.x", "a_2.x"])
  {
    var seen := {"a.x", "a_2.x"};
    var third := ZipEntryNamesAsWritten(seen, ["a.x"]);
    ThirdNameRenamed();
    // Second name: "a_2.x" is still free and kept.
    assert ["a_2.x", "a.x"][1..] == ["a.x"];
    assert {"a.x"} + {"a_2.x"} == seen;
    var second := ZipEntryNamesAsWritten({"a.x"}, ["a_2.x", "a.x"]);
    assert second.value == ["a_2.x"] + third.value == ["a_2.x", "a_2.x"];
    assert second == Success(second.value);
    // First name: kept.
    assert ["a.x", "a_2.x", "a.x"][1..] == ["a_2.x", "a.x"];
    assert {} + {"a.x"} == {"a.x"};
    var first := ZipEntryNamesAsWritten({}, ["a.x", "a_2.x", "a.x"]);
    assert first.value == ["a.x"] + second.value == ["a.x", "a_2.x", "a_2.x"];
    assert first == Success(first.value);
  }

  /** The third name: `a.x` is taken and two names have been used, so it
      becomes `a_2.x`, which is taken too. */
  lemma ThirdNameRenamed()
    ensures ZipEntryNamesAsWritten({"a.x", "a_2.x"}, ["a.x"]) == Success(["a_2.x"])
  {
    var seen := {"a.x", "a_2.x"};
    assert |seen| == 2;
    RenamedA2();
    assert ZipEntryNamesAsWritten(seen + {"a_2.x"}, ["a.x"][1..]) == Success([]);
    var third := ZipEntryNamesAsWritten(seen, ["a.x"]);
    assert third.value == ["a_2.x"] + [] == ["a_2.x"];
    assert third == Success(third.value);
  }

  lemma RenamedA2()
    ensures '.' in "a.x" && Renamed("a.x", 2) == "a_2.x"
  {
    assert "a.x"[..2] == "a." && "a."[..1] == "a";
    assert AfterLast("a.", '.') == [];
    assert AfterLast("a.x", '.') == "x";
    assert SplitLast("a.x", '.') == ("a", "x");
    assert '.' in "a.x" by { assert "a.x"[1] == '.'; }
  }

  /** The first free `Renamed(fname, k)` with k from `k0` up. */
  function FreeIndex(seen: set<string>, fname: string, k0: nat, k: nat): (r: nat)
    requires '.' in fname && k0 <= k
    requires forall j :: k0 <= j < k ==> Renamed(fname, j) in seen
    ensures r >= k && Renamed(fname, r) !in seen
    ensures forall j :: k0 <= j < r ==> Renamed(fname, j) in seen
    decreases |seen| - (k - k0)
  {
    forall i, j | k0 <= i < j < k + 1
      ensures Renamed(fname, i) != Renamed(fname, j)
    {
      RenamedInjective(fname, i, j);
    }
    InjectiveImageBound(n => Renamed(fname, n), k0, k, seen);
    if Renamed(fname, k) !in seen then k
    else
      InjectiveImageBound(n => Renamed(fname, n), k0, k + 1, seen);
      FreeIndex(seen, fname, k0, k + 1)
  }

  /** No name of `r` is among `seen`. */
  predicate Outside(r: seq<string>, seen: set<string>) {
    forall i :: 0 <= i < |r| ==> r[i] !in seen
  }

  predicate Distinct(r: seq<string>) {
    forall i, j :: 0 <= i < j < |r| ==> r[i] != r[j]
  }

  lemma ConsOutsideDistinct(n: string, rest: seq<string>, seen: set<string>)
    requires n !in seen && Outside(rest, seen + {n}) && Distinct(rest)
    ensures Outside([n] + rest, seen) && Distinct([n] + rest)
  {
    var r := [n] + rest;
    forall i | 1 <= i < |r|
      ensures r[i] == rest[i - 1] && r[i] !in seen && r[i] != n
    {
    }
  }

  /** The corrected renaming: the count of names used so far, raised until
      the name is free. Every name it gives is new and no two are equal. */
  function ZipEntryNames(seen: set<string>, names: seq<string>): (r: Result<seq<string>, string>)
    ensures r.Success? ==> |r.value| == |names| && Outside(r.value, seen) && Distinct(r.value)
    ensures r.Success? && names != [] && names[0] !in seen ==> r.value[0] == names[0]
    decreases |names|
  {
    if names == [] then Success([])
    else
      var f := names[0];
      if f in seen && '.' !in f then Failure("ValueError")
      else
        var n := if f in seen then Renamed(f, FreeIndex(seen, f, |seen|, |seen|)) else f;
        var rest :- ZipEntryNames(seen + {n}, names[1..]);
        ConsOutsideDistinct(n, rest, seen);
        Success([n] + rest)
  }

  /** Name `i` has no dot and repeats a name used before it. */
  predicate DotlessRepeatAt(names: seq<string>, seen: set<string>, i: nat)
    requires i < |names|
  {
    '.' !in names[i] && (names[i] in seen || names[i] in names[..i])
  }

  predicate HasDotlessRepeat(names: seq<string>, seen: set<string>) {
    exists i :: 0 <= i < |names| && DotlessRepeatAt(names, seen, i)
  }

  /** Once the first name is placed as `n`, a later name is a dotless
      repeat exactly when it was one before. */
  lemma ShiftRepeat(names: seq<string>, seen: set<string>, n: string, i: nat)
    requires 1 <= i < |names|
    requires !(names[0] in seen && '.' !in names[0])
    requires names[0] !in seen ==> n == names[0]
    requires names[0] in seen ==> '.' in n
    ensures DotlessRepeatAt(names, seen, i) <==> DotlessRepeatAt(names[1..], seen + {n}, i - 1)
  {
    var tail := names[1..];
    assert tail[i - 1] == names[i];
    assert names[..i] == [names[0]] + tail[..i - 1];
  }

  /** The corrected renaming fails exactly where the original does: on a
      repeated name without a dot. */
  lemma {:induction false} ZipEntryNamesFailure(seen: set<string>, names: seq<string>)
    ensures ZipEntryNames(seen, names).Failure? <==> HasDotlessRepeat(names, seen)
    decreases |names|
  {
    if names != [] {
      var f := names[0];
      if f in seen && '.' !in f {
        assert DotlessRepeatAt(names, seen, 0);
      } else {
        var n := if f in seen then Renamed(f, FreeIndex(seen, f, |seen|, |seen|)) else f;
        var tail := names[1..];
        ZipEntryNamesFailure(seen + {n}, tail);
        assert !DotlessRepeatAt(names, seen, 0);
        if HasDotlessRepeat(names, seen) {
          var i :| 0 <= i < |names| && DotlessRepeatAt(names, seen, i);
          ShiftRepeat(names, seen, n, i);
          assert DotlessRepeatAt(tail, seen + {n}, i - 1);
        }
        if HasDotlessRepeat(tail, seen + {n}) {
          var j :| 0 <= j < |tail| && DotlessRepeatAt(tail, seen + {n}, j);
          ShiftRepeat(names, seen, n, j + 1);
          assert DotlessRepeatAt(names, seen, j + 1);
        }
      }
    }
  }

  /** Without repeats both renamings keep every name. */
  lemma {:induction false} DistinctNamesKept(seen: set<string>, names: seq<string>)
    requires forall i :: 0 <= i < |names| ==> names[i] !in seen
    requires forall i, j :: 0 <= i < j < |names| ==> names[i] != names[j]
    ensures ZipEntryNamesAsWritten(seen, names) == Success(names)
    ensures ZipEntryNames(seen, names) == Success(names)
    decreases |names|
  {
    if names != [] {
      DistinctNamesKept(seen + {names[0]}, names[1..]);
      assert [names[0]] + names[1..] == names;
    }
  }

  // ---------------------------------------------------------------------
  // Excel export

  datatype Column = Column(name: string, header: string, hidden: bool)

  /** Hidden without being asked: file fields and automatic timestamps. */
  predicate AutoHidden(f: FieldInfo) {
    f.kind.FileField? || (f.kind.DateTimeField? && f.kind.autoNow)
  }

  function ColumnOf(f: FieldInfo, userHidden: set<string>): (c: Column)
    ensures c.name == f.name
    ensures c.hidden <==> f.name in userHidden || AutoHidden(f)
    ensures |c.header| == |f.verboseName|
  {
    Column(f.name, Title(f.verboseName), f.name in userHidden || AutoHidden(f))
  }

  /** The column list of `fetch_excel`: every field not excluded, in order. */
  function ExcelColumns(fields: seq<FieldInfo>, exclude: set<string>, userHidden: set<string>): (cols: seq<Column>)
    ensures |cols| <= |fields|
    ensures forall c :: c in cols ==> c.name !in exclude
    ensures forall c :: c in cols ==> exists f :: f in fields && c == ColumnOf(f, userHidden)
  {
    if fields == [] then []
    else
      var rest := ExcelColumns(fields[1..], exclude, userHidden);
      assert forall f :: f in fields[1..] ==> f in fields;
      if fields[0].name in exclude then rest
      else [ColumnOf(fields[0], userHidden)] + rest
  }

  /** Every field not excluded has its column. */
  lemma {:induction false} ExcelColumnsComplete(fields: seq<FieldInfo>, exclude: set<string>, userHidden: set<string>, f: FieldInfo)
    requires f in fields && f.name !in exclude
    ensures ColumnOf(f, userHidden) in ExcelColumns(fields, exclude, userHidden)
    decreases |fields|
  {
    if f != fields[0] {
      assert f in fields[1..];
      ExcelColumnsComplete(fields[1..], exclude, userHidden, f);
    }
  }

  function KeptIn(exclude: set<string>): FieldInfo -> bool {
    (f: FieldInfo) => f.name !in exclude
  }

  function ColumnIn(userHidden: set<string>): FieldInfo -> Column {
    f => ColumnOf(f, userHidden)
  }

  /** The columns are the fields not excluded, each at its field's place:
      `idx` lists the kept positions in increasing order. */
  lemma {:induction false} ExcelColumnsIndices(fields: seq<FieldInfo>, exclude: set<string>, userHidden: set<string>) returns (idx: seq<nat>)
    ensures FilteredAt(fields, KeptIn(exclude), ColumnIn(userHidden), ExcelColumns(fields, exclude, userHidden), idx)
    decreases |fields|
  {
    if fields == [] {
      return [];
    }
    var rest := ExcelColumnsIndices(fields[1..], exclude, userHidden);
    idx := FilterStep(fields, KeptIn(exclude), ColumnIn(userHidden), ExcelColumns(fields[1..], exclude, userHidden), rest);
  }

  /** One column per field not excluded. */
  lemma ExcelColumnsCount(fields: seq<FieldInfo>, exclude: set<string>, userHidden: set<string>)
    ensures |ExcelColumns(fields, exclude, userHidden)| == |set i | 0 <= i < |fields| && fields[i].name !in exclude|
  {
    var idx := ExcelColumnsIndices(fields, exclude, userHidden);
    FilteredCount(fields, KeptIn(exclude), ColumnIn(userHidden), ExcelColumns(fields, exclude, userHidden), idx);
    assert KeptPositions(fields, KeptIn(exclude)) == set i | 0 <= i < |fields| && fields[i].name !in exclude;
  }

  /** Columns come in the order of the model's fields. */
  lemma ExcelColumnsOrdered(fields: seq<FieldInfo>, exclude: set<string>, userHidden: set<string>, i: nat, j: nat)
    requires i < j < |fields| && fields[i].name !in exclude && fields[j].name !in exclude
    ensures exists k1, k2 ::
              && 0 <= k1 < k2 < |ExcelColumns(fields, exclude, userHidden)|
              && ExcelColumns(fields, exclude, userHidden)[k1] == ColumnOf(fields[i], userHidden)
              && ExcelColumns(fields, exclude, userHidden)[k2] == ColumnOf(fields[j], userHidden)
  {
    var idx := ExcelColumnsIndices(fields, exclude, userHidden);
    assert KeptIn(exclude)(fields[i]) && KeptIn(exclude)(fields[j]);
    var j1, j2 := FilteredOrder(fields, KeptIn(exclude), ColumnIn(userHidden), ExcelColumns(fields, exclude, userHidden), idx, i, j);
    var cols := ExcelColumns(fields, exclude, userHidden);
    assert 0 <= j1 < j2 < |cols|;
    assert cols[j1] == ColumnOf(fields[i], userHidden) && cols[j2] == ColumnOf(fields[j], userHidden);
  }

  /** One cell as written: a file field's value goes through `hasattr(val,
      'url')`, which raises for a file field holding no file. */
  function ExcelCellAsWritten(a: Option<Attr>): (r: Result<string, string>)
    ensures r.Failure? <==> a == Some(StoredFile(""))
  {
    if a.None? then Success("")
    else match a.value
      case StoredFile(n) => if n == "" then Failure("ValueError") else Success(n)
      case Plain(v) => Success(if v.Null? then "" else Display(v))
      case Moment(_, text) => Success(text)
  }

  /** One cell: `""` for a missing attribute, `None` or an empty file, the
      file name for a file, `str()` otherwise. */
  function ExcelCell(a: Option<Attr>): (r: string)
    ensures ExcelCellAsWritten(a).Success? ==> r == ExcelCellAsWritten(a).value
    ensures a == Some(StoredFile("")) ==> r == ""
  {
    if a.None? then ""
    else match a.value
      case StoredFile(n) => n
      case Plain(v) => if v.Null? then "" else Display(v)
      case Moment(_, text) => text
  }

  /** `getattr(obj, name, "")`: the attribute a column reads, when the record has it. */
  function CellOf(rec: Record, c: Column): Option<Attr> {
    if c.name in rec.attrs then Some(rec.attrs[c.name]) else None
  }

  /** Some column of the record is a file field holding no file. */
  predicate RowRaises(rec: Record, cols: seq<Column>) {
    exists j :: 0 <= j < |cols| && ExcelCellAsWritten(CellOf(rec, cols[j])).Failure?
  }

  /** A row as the source builds it, cell by cell: the first failing cell
      aborts it. */
  function ExcelRowAsWritten(rec: Record, cols: seq<Column>): (r: Result<seq<string>, string>)
    ensures r.Failure? <==> RowRaises(rec, cols)
    ensures r.Success? ==> r.value == ExcelRow(rec, cols)
    decreases |cols|
  {
    if cols == [] then Success([])
    else
      var cell := ExcelCellAsWritten(CellOf(rec, cols[0]));
      if cell.Failure? then Failure(cell.error)
      else
        var rest := ExcelRowAsWritten(rec, cols[1..]);
        if rest.Failure? then
          ghost var j :| 0 <= j < |cols[1..]| && ExcelCellAsWritten(CellOf(rec, cols[1..][j])).Failure?;
          assert ExcelCellAsWritten(CellOf(rec, cols[j + 1])).Failure?;
          Failure(rest.error)
        else
          assert forall j :: 0 < j < |cols| ==> cols[j] == cols[1..][j - 1];
          Success([cell.value] + rest.value)
  }

  /** The data rows as the source writes them: the first record with a
      failing row aborts the export. */
  function ExcelRowsAsWritten(records: seq<Record>, cols: seq<Column>): (r: Result<seq<seq<string>>, string>)
    ensures r.Failure? <==> exists k :: 0 <= k < |records| && RowRaises(records[k], cols)
    ensures r.Success? ==> |r.value| == |records| && forall k :: 0 <= k < |records| ==> r.value[k] == ExcelRow(records[k], cols)
    decreases |records|
  {
    if records == [] then Success([])
    else
      var row := ExcelRowAsWritten(records[0], cols);
      if row.Failure? then Failure(row.error)
      else
        var rest := ExcelRowsAsWritten(records[1..], cols);
        if rest.Failure? then
          ghost var k :| 0 <= k < |records[1..]| && RowRaises(records[1..][k], cols);
          assert RowRaises(records[k + 1], cols);
          Failure(rest.error)
        else
          assert forall k :: 0 < k < |records| ==> records[k] == records[1..][k - 1];
          Success([row.value] + rest.value)
  }

  function ExcelRow(rec: Record, cols: seq<Column>): (row: seq<string>)
    ensures |row| == |cols|
    ensures forall j :: 0 <= j < |cols| ==>
      row[j] == ExcelCell(CellOf(rec, cols[j]))
  {
    seq(|cols|, j requires 0 <= j < |cols| => ExcelCell(CellOf(rec, cols[j])))
  }

  datatype Export =
    | NothingToExport
    | Sheet(title: string, header: seq<string>, hidden: seq<bool>, rows: seq<seq<string>>, filename: string)

  /** `fetch_excel` for a non-empty selection of one model. */
  function FetchExcel(records: seq<Record>, modelName: string, fields: seq<FieldInfo>,
                      exclude: set<string>, userHidden: set<string>, sheetTitle: string): (r: Export)
    ensures r.NothingToExport? <==> records == []
    ensures r.Sheet? ==>
      var cols := ExcelColumns(fields, exclude, userHidden);
      && |r.header| == |cols| && |r.hidden| == |cols|
      && (forall j :: 0 <= j < |cols| ==> r.header[j] == cols[j].header && r.hidden[j] == cols[j].hidden)
      && |r.rows| == |records|
      && (forall k :: 0 <= k < |records| ==> |r.rows[k]| == |r.header|)
      && (forall k, j :: 0 <= k < |records| && 0 <= j < |cols| ==>
            r.rows[k][j] == ExcelCell(CellOf(records[k], cols[j])))
      && r.title == (if sheetTitle == "" then "Export" else sheetTitle)
      && r.filename == modelName + "_export_" + NatToString(|records|) + ".xlsx"
  {
    if records == [] then NothingToExport
    else
      var cols := ExcelColumns(fields, exclude, userHidden);
      Sheet(if sheetTitle == "" then "Export" else sheetTitle,
            seq(|cols|, j requires 0 <= j < |cols| => cols[j].header),
            seq(|cols|, j requires 0 <= j < |cols| => cols[j].hidden),
            seq(|records|, k requires 0 <= k < |records| => ExcelRow(records[k], cols)),
            modelName + "_export_" + NatToString(|records|) + ".xlsx")
  }

  /** `fetch_excel` as written: an empty selection is refused before any
      row is built; otherwise a record with an empty file column makes
      `hasattr(val, 'url')` raise and the export fails. */
  function FetchExcelAsWritten(records: seq<Record>, modelName: string, fields: seq<FieldInfo>,
                               exclude: set<string>, userHidden: set<string>, sheetTitle: string): (r: Result<Export, string>)
    ensures r.Failure? <==> exists k :: 0 <= k < |records| && RowRaises(records[k], ExcelColumns(fields, exclude, userHidden))
    ensures r.Success? && r.value.Sheet? ==> |r.value.rows| == |records|
  {
    if records == [] then Success(NothingToExport)
    else
      var cols := ExcelColumns(fields, exclude, userHidden);
      var rows :- ExcelRowsAsWritten(records, cols);
      Success(Sheet(if sheetTitle == "" then "Export" else sheetTitle,
                    seq(|cols|, j requires 0 <= j < |cols| => cols[j].header),
                    seq(|cols|, j requires 0 <= j < |cols| => cols[j].hidden),
                    rows,
                    modelName + "_export_" + NatToString(|records|) + ".xlsx"))
  }

  /** Wherever the source's export succeeds, the corrected export gives the
      same sheet. */
  lemma FetchExcelAgrees(records: seq<Record>, modelName: string, fields: seq<FieldInfo>,
                         exclude: set<string>, userHidden: set<string>, sheetTitle: string)
    requires FetchExcelAsWritten(records, modelName, fields, exclude, userHidden, sheetTitle).Success?
    ensures FetchExcelAsWritten(records, modelName, fields, exclude, userHidden, sheetTitle).value ==
            FetchExcel(records, modelName, fields, exclude, userHidden, sheetTitle)
  {
  }

  /** One record whose only column is an empty file field: the source's
      export fails, the corrected one writes an empty cell. */
  lemma EmptyFileAbortsExport(pk: Value, name: string, verbose: string)
    ensures var f := FieldInfo(name, FileField, verbose);
      var rec := Record("doc", pk, [f], map[name := StoredFile("")]);
      && FetchExcelAsWritten([rec], "doc", [f], {}, {}, "").Failure?
      && FetchExcel([rec], "doc", [f], {}, {}, "").rows == [[""]]
  {
    var f := FieldInfo(name, FileField, verbose);
    var rec := Record("doc", pk, [f], map[name := StoredFile("")]);
    var cols := ExcelColumns([f], {}, {});
    assert cols == [ColumnOf(f, {})];
    assert ExcelCellAsWritten(CellOf(rec, cols[0])).Failure?;
    assert RowRaises([rec][0], cols);
    var sheet := FetchExcel([rec], "doc", [f], {}, {}, "");
    assert |sheet.rows| == 1 && |sheet.rows[0]| == 1;
    assert sheet.rows[0][0] == ExcelCell(CellOf(rec, cols[0])) == "";
    assert sheet.rows[0] == [""];
  }

  /** An excluded field never shows up, hidden or not. */
  lemma ExcludedNeverExported(fields: seq<FieldInfo>, exclude: set<string>, userHidden: set<string>, name: string)
    requires name in exclude
    ensures forall c :: c in ExcelColumns(fields, exclude, userHidden) ==> c.name != name
  {
  }
}

=== FILE: json_data.dfy ===
/** JSON-shaped values: the `details` payload of a log entry, stored user
    preferences, posted form data and the autofill API output. Objects are
    maps, so the insertion order of Python dictionaries is not represented. */
module JsonData {

  datatype Json =
    | JNull
    | JBool(b: bool)
    | JInt(i: int)
    | JStr(s: string)
    | JList(items: seq<Json>)
    | JObj(fields: map<string, Json>)

  /** Python truthiness of the decoded value. */
  predicate Truthy(j: Json) {
    match j
    case JNull => false
    case JBool(b) => b
    case JInt(i) => i != 0
    case JStr(s) => s != []
    case JList(xs) => xs != []
    case JObj(m) => m != map[]
  }
}

=== FILE: log_display.dfy ===
/** The template helpers that display activity-log entries
    (microsys/templatetags/microsys_translation.py): the translation of an
    action or model name through the page's translation table, and the
    badges a log entry's `details` payload is rendered as. Python's `str()`
    of a decoded JSON value is a parameter (`text`), so the properties hold
    whatever rendering it gives containers. The HTML markup itself is not
    modelled, only which badge is produced and what it shows. */
module LogDisplay {
  import opened Wrappers
  import opened Text
  import opened JsonData
  import Translations
  import Signals
  import Tables

  /** The `translate_log` filter, left unfinished in the source: the empty
      text for a falsy value and `None` otherwise. */
  function TranslateLog(value: Json, prefix: string): (r: Option<string>)
    ensures r.Some? <==> !JsonData.Truthy(value)
    ensures r.Some? ==> r.value == ""
  {
    if !JsonData.Truthy(value) then Some("") else None
  }

  /** The translation key `translate_log_value` looks up. */
  function LogKey(value: string, prefix: string): string {
    if prefix != "" then prefix + "_" + Lower(value) else Lower(value)
  }

  /** `translate_log_value` for a text value (an action or model name):
      empty for no value, the value itself without a translation table,
      else its translation, falling back to the value. */
  function TranslateLogValue(value: Option<string>, prefix: string, msTrans: Option<Translations.Table>): (r: string)
    ensures value.None? || value.value == "" ==> r == ""
    ensures value.Some? && value.value != "" && (msTrans.None? || msTrans.value == map[]) ==> r == value.value
    ensures value.Some? && value.value != "" && msTrans.Some? && msTrans.value != map[] ==>
      var key := LogKey(value.value, prefix);
      (key in msTrans.value ==> r == msTrans.value[key]) && (key !in msTrans.value ==> r == value.value)
  {
    if value.None? || value.value == "" then ""
    else if msTrans.None? || msTrans.value == map[] then value.value
    else Get(msTrans.value, LogKey(value.value, prefix), value.value)
  }

  /** With the `action` prefix the tag shows what the log table's action
      column shows. */
  lemma TagAgreesWithTable(action: string, s: Translations.Table)
    requires action != "" && s != map[]
    ensures TranslateLogValue(Some(action), "action", Some(s)) == Tables.RenderAction(action, s)
  {
    assert LogKey(action, "action") == "action_" + Lower(action);
  }

  /** Fields whose values are never displayed. */
  const HIDDEN_VALUE_FIELDS: set<string> := {"password", "backup_codes", "token", "secret"}

  /** Every field the capture engine masks is also hidden by the display. */
  lemma DisplayHidesEveryMaskedField()
    ensures Signals.MASKED_FIELDS <= HIDDEN_VALUE_FIELDS
  {
  }

  const MAX_SHOWN := 20

  /** A truthy value whose text is longer than 20 characters is shown as its
      first 20 characters and `...`. */
  function Shown(v: Json, text: Json -> string): (r: string)
    ensures JsonData.Truthy(v) && |text(v)| > MAX_SHOWN ==> |r| == MAX_SHOWN + 3 && r == text(v)[..MAX_SHOWN] + "..."
    ensures !(JsonData.Truthy(v) && |text(v)| > MAX_SHOWN) ==> r == text(v)
    ensures |r| <= MAX_SHOWN + 3 || !JsonData.Truthy(v)
  {
    if JsonData.Truthy(v) && |text(v)| > MAX_SHOWN then text(v)[..MAX_SHOWN] + "..." else text(v)
  }

  /** Truncating a shown text again changes nothing. */
  lemma ShownIsStable(s: string)
    requires |s| > MAX_SHOWN
    ensures var once := s[..MAX_SHOWN] + "...";
      |once| > MAX_SHOWN && once[..MAX_SHOWN] + "..." == once
  {
  }

  datatype Badge =
    /** `field: ********`. */
    | Masked
    /** A value set where there was none: the new value. */
    | SetBadge(after: string)
    /** A value removed: the old value. */
    | UnsetBadge(before: string)
    | ChangeBadge(before: string, after: string)
    /** Anything that is not an `{'old', 'new'}` pair, shown as it is. */
    | Generic(shown: string)

  predicate IsDiff(changes: Json) {
    changes.JObj? && "old" in changes.fields && "new" in changes.fields
  }

  /** The badge of one entry of an update diff. */
  function BadgeFor(field: string, changes: Json, text: Json -> string): (b: Badge)
    ensures b.Masked? <==> field in HIDDEN_VALUE_FIELDS
    ensures b.Generic? <==> field !in HIDDEN_VALUE_FIELDS && !IsDiff(changes)
    ensures b.Generic? ==> b.shown == text(changes)
    ensures field !in HIDDEN_VALUE_FIELDS && IsDiff(changes) ==>
      var before := changes.fields["old"];
      var after := changes.fields["new"];
      && (b.SetBadge? <==> !JsonData.Truthy(before))
      && (b.UnsetBadge? <==> JsonData.Truthy(before) && !JsonData.Truthy(after))
      && (b.ChangeBadge? <==> JsonData.Truthy(before) && JsonData.Truthy(after))
      && (b.SetBadge? ==> b.after == Shown(after, text))
      && (b.UnsetBadge? ==> b.before == Shown(before, text))
      && (b.ChangeBadge? ==> b.before == Shown(before, text) && b.after == Shown(after, text))
  {
    if field in HIDDEN_VALUE_FIELDS then Masked
    else if IsDiff(changes) then
      var before := changes.fields["old"];
      var after := changes.fields["new"];
      if !JsonData.Truthy(before) then SetBadge(Shown(after, text))
      else if !JsonData.Truthy(after) then UnsetBadge(Shown(before, text))
      else ChangeBadge(Shown(before, text), Shown(after, text))
    else Generic(text(changes))
  }

  datatype LogDetails =
    /** The empty text. */
    | NoDetails
    /** One download badge: the file name and the item count. */
    | DownloadBadge(filename: string, count: string)
    /** One badge per field of the payload. */
    | Badges(badges: map<string, Badge>)

  /** `format_log_details`. */
  function FormatLogDetails(details: Json, text: Json -> string): (r: LogDetails)
    ensures r.NoDetails? <==> !details.JObj? || details.fields == map[]
    ensures r.DownloadBadge? <==> details.JObj? && "filename" in details.fields
    ensures r.DownloadBadge? ==>
      && r.filename == text(details.fields["filename"])
      && r.count == (if "count" in details.fields then text(details.fields["count"]) else "1")
    ensures r.Badges? ==>
      && r.badges.Keys == details.fields.Keys
      && (forall f :: f in r.badges ==> r.badges[f] == BadgeFor(f, details.fields[f], text))
  {
    if !details.JObj? || details.fields == map[] then NoDetails
    else if "filename" in details.fields then
      DownloadBadge(text(details.fields["filename"]),
                    if "count" in details.fields then text(details.fields["count"]) else "1")
    else Badges(map f | f in details.fields :: BadgeFor(f, details.fields[f], text))
  }

  /** No badge ever shows the value of a hidden field. */
  lemma {:induction false} SecretsNeverShown(details: Json, text: Json -> string, f: string)
    requires f in HIDDEN_VALUE_FIELDS
    requires FormatLogDetails(details, text).Badges?
    requires f in FormatLogDetails(details, text).badges
    ensures FormatLogDetails(details, text).badges[f] == Masked
  {
  }

  /** A diff the capture engine records for a password change renders as
      the masked badge. */
  lemma CapturedPasswordChangeIsMasked(text: Json -> string)
    ensures var details := JObj(map["password" := Signals.MaskedChange()]);
      FormatLogDetails(details, text) == Badges(map["password" := Masked])
  {
    var details := JObj(map["password" := Signals.MaskedChange()]);
    assert "password" in details.fields && "filename" !in details.fields;
    var r := FormatLogDetails(details, text);
    assert r.Badges? && r.badges.Keys == {"password"};
  }
}

=== FILE: models.dfy ===
/** Accounts and scope settings (microsys/models.py): the user record with its
    optional one-to-one profile, the two profile properties, and the
    single-row scope settings table. */
module Models {
  import opened Wrappers
  import opened Text

  datatype Profile = Profile(
    phone: Option<string>,
    /** Name of the stored picture file; the empty name means no picture. */
    picture: string,
    scope: Option<nat>,
    emailTwoFactor: bool,
    phoneTwoFactor: bool,
    totpTwoFactor: bool)

  datatype User = User(
    id: nat,
    username: string,
    firstName: string,
    lastName: string,
    email: string,
    isActive: bool,
    isSuperuser: bool,
    isAuthenticated: bool,
    profile: Option<Profile>)

  /** `user.profile.scope` when the user has a profile, `None` otherwise. */
  function ProfileScope(u: User): Option<nat> {
    if u.profile.Some? then u.profile.value.scope else None
  }

  /** `Profile.is_2fa_enabled`: some second factor is switched on. */
  function TwoFactorEnabled(p: Profile): (r: bool)
    ensures r <==> true in TwoFactorMethods(p)
    ensures !r ==> !p.emailTwoFactor && !p.phoneTwoFactor && !p.totpTwoFactor
  {
    p.emailTwoFactor || p.phoneTwoFactor || p.totpTwoFactor
  }

  function TwoFactorMethods(p: Profile): seq<bool> {
    [p.emailTwoFactor, p.phoneTwoFactor, p.totpTwoFactor]
  }

  /** `Profile.full_name`: first and last name joined by a space, whitespace
      at both ends removed. */
  function FullName(u: User): (r: string)
    ensures StripsTo(u.firstName + " " + u.lastName, r)
    ensures r == [] || (!IsWhitespace(r[0]) && !IsWhitespace(r[|r| - 1]))
    ensures |r| <= |u.firstName| + 1 + |u.lastName|
  {
    Strip(u.firstName + " " + u.lastName)
  }

  /** A user with only a first name, unpadded, is called by that name. */
  lemma FullNameOfFirstNameOnly(u: User)
    requires u.lastName == []
    requires u.firstName == [] || (!IsWhitespace(u.firstName[0]) && !IsWhitespace(u.firstName[|u.firstName| - 1]))
    ensures FullName(u) == u.firstName
  {
    var s := u.firstName + " " + u.lastName;
    assert s == u.firstName + " ";
    assert TrimmedAt(s, u.firstName, 0);
    StripsToUnique(s, FullName(u), u.firstName);
  }

  /** A name with neither part padded and both parts present is the two
      parts with one space between them. */
  lemma FullNameOfTrimmedParts(u: User)
    requires u.firstName != [] && !IsWhitespace(u.firstName[0])
    requires u.lastName != [] && !IsWhitespace(u.lastName[|u.lastName| - 1])
    ensures FullName(u) == u.firstName + " " + u.lastName
  {
    var s := u.firstName + " " + u.lastName;
    assert s[0] == u.firstName[0];
    assert s[|s| - 1] == u.lastName[|u.lastName| - 1];
  }

  /** The scope settings table, primary key to `is_enabled`. */
  type SettingsTable = map<nat, bool>

  const SETTINGS_PK: nat := 1

  /** At most one row, and that row has key 1. */
  predicate SingleRow(t: SettingsTable) {
    t.Keys <= {SETTINGS_PK}
  }

  /** `ScopeSettings.save`: whatever key the object had, it is written as row 1. */
  function SaveSettings(t: SettingsTable, isEnabled: bool): (t': SettingsTable)
    ensures SingleRow(t) ==> SingleRow(t')
    ensures SETTINGS_PK in t' && t'[SETTINGS_PK] == isEnabled
    ensures forall k :: k in t && k != SETTINGS_PK ==> k in t' && t'[k] == t[k]
  {
    t[SETTINGS_PK := isEnabled]
  }

  /** `ScopeSettings.load`: row 1, created switched off when absent. */
  function LoadSettings(t: SettingsTable): (r: (bool, SettingsTable))
    ensures SingleRow(t) ==> SingleRow(r.1)
    ensures SETTINGS_PK in r.1 && r.1[SETTINGS_PK] == r.0
    ensures SETTINGS_PK in t ==> r == (t[SETTINGS_PK], t)
    ensures SETTINGS_PK !in t ==> !r.0
    ensures r.1.Keys == t.Keys + {SETTINGS_PK}
    ensures forall k :: k in t ==> r.1[k] == t[k]
  {
    if SETTINGS_PK in t then (t[SETTINGS_PK], t) else (false, t[SETTINGS_PK := false])
  }

  /** Loading what was just saved returns the saved state. */
  lemma LoadAfterSave(t: SettingsTable, isEnabled: bool)
    ensures LoadSettings(SaveSettings(t, isEnabled)).0 == isEnabled
  {
  }
}

=== FILE: otp.dfy ===
/** One-time codes for two-factor login and enrolment (`send_otp` and
    `verify_otp_logic` in microsys/views.py). The cache is a map from the
    `otp_<pk>_<intent>` key to the pending code, its failed-attempt count and
    its expiry time in seconds. The code itself is an input: random generation
    and e-mail delivery are outside the model. */
module Otp {
  import opened Wrappers
  import opened Text
  import Translations

  const MAX_ATTEMPTS: nat := 3

  /** Lifetime of a cache entry, in seconds. */
  const TTL: nat := 300

  const INVALID_CODE := "2fa_invalid_code"

  datatype CacheKey = CacheKey(userPk: nat, intent: string)

  datatype Pending = Pending(code: string, attempts: nat, expires: nat)

  type Cache = map<CacheKey, Pending>

  /** `cache.get`: an entry is visible until its expiry time. */
  function Lookup(c: Cache, k: CacheKey, now: nat): (r: Option<Pending>)
    ensures r.Some? <==> k in c && now < c[k].expires
    ensures r.Some? ==> r.value == c[k]
  {
    if k in c && now < c[k].expires then Some(c[k]) else None
  }

  /** Every stored entry still has attempts left. */
  predicate AttemptsBelowLimit(c: Cache) {
    forall k :: k in c ==> c[k].attempts < MAX_ATTEMPTS
  }

  /** The cache write of `send_otp`: a fresh entry with no attempts, replacing
      any earlier code for the same user and intent. */
  function Issue(c: Cache, userPk: nat, intent: string, code: string, now: nat): (c': Cache)
    ensures var k := CacheKey(userPk, intent);
      && Lookup(c', k, now) == Some(Pending(code, 0, now + TTL))
      && (forall k' :: k' != k ==> (k' in c' <==> k' in c) && (k' in c ==> c'[k'] == c[k']))
    ensures AttemptsBelowLimit(c) ==> AttemptsBelowLimit(c')
  {
    c[CacheKey(userPk, intent) := Pending(code, 0, now + TTL)]
  }

  /** The e-mail `send_otp` composes: subject and body looked up in the
      request's translation table, with `{code}` in the body filled in. */
  function OtpEmail(strings: Translations.Table, intent: string, code: string): (r: (string, string))
    ensures var subjectKey := if intent == "login" then "2fa_login_email_subject" else "2fa_setup_email_subject";
      r.0 == Get(strings, subjectKey, "Authentication Code")
    ensures "2fa_email_body" in strings && !Contains(strings["2fa_email_body"], "{code}") ==> r.1 == strings["2fa_email_body"]
  {
    var subjectKey := if intent == "login" then "2fa_login_email_subject" else "2fa_setup_email_subject";
    var template := Get(strings, "2fa_email_body", "Your code is {code}");
    ReplaceAllAbsentOnTemplate(template, code);
    (Get(strings, subjectKey, "Authentication Code"), ReplaceAll(template, "{code}", code))
  }

  lemma ReplaceAllAbsentOnTemplate(template: string, code: string)
    ensures !Contains(template, "{code}") ==> ReplaceAll(template, "{code}", code) == template
  {
    if !Contains(template, "{code}") {
      ReplaceAllAbsent(template, "{code}", code);
    }
  }

  /** Without a translated body the mail says `Your code is <code>`. */
  lemma DefaultBodyCarriesCode(strings: Translations.Table, intent: string, code: string)
    requires "2fa_email_body" !in strings
    ensures OtpEmail(strings, intent, code).1 == "Your code is " + code
  {
    var t := "Your code is {code}";
    assert t == "Your code is " + "{code}";
    ReplaceAllPrefix("Your code is ", code);
  }

  /** Filling the placeholder at the end of a template with no other
      placeholder in front of it. */
  lemma {:induction false} ReplaceAllPrefix(prefix: string, code: string)
    requires forall i :: 0 <= i < |prefix| ==> prefix[i] != '{'
    ensures ReplaceAll(prefix + "{code}", "{code}", code) == prefix + code
    decreases |prefix|
  {
    var s := prefix + "{code}";
    if prefix == [] {
      assert s[|"{code}"|..] == [];
      assert ReplaceAll([], "{code}", code) == [];
    } else {
      assert s[..|"{code}"|] != "{code}" by {
        assert s[0] == prefix[0] != '{';
      }
      assert s[1..] == prefix[1..] + "{code}";
      ReplaceAllPrefix(prefix[1..], code);
    }
  }

  /** What `verify_otp_logic` returns, with the cache it leaves behind. */
  datatype Verdict = Verdict(ok: bool, error: Option<string>, cache: Cache)

  /** `verify_otp_logic`: a matching code consumes the entry; a mismatch
      counts an attempt, and the third one destroys the entry. An expired
      entry is dropped by the lookup, as the cache does on access. */
  function Verify(c: Cache, userPk: nat, intent: string, code: string, now: nat): (r: Verdict)
    ensures var k := CacheKey(userPk, intent);
      && (r.ok <==> Lookup(c, k, now).Some? && c[k].code == code)
      && (r.ok ==> r.error.None? && k !in r.cache)
      && (Lookup(c, k, now).None? ==> k !in r.cache)
      && (!r.ok ==> r.error == Some(INVALID_CODE))
      && (forall k' :: k' != k ==> (k' in r.cache <==> k' in c) && (k' in c ==> r.cache[k'] == c[k']))
    ensures var k := CacheKey(userPk, intent);
      Lookup(c, k, now).Some? && c[k].code != code ==>
        if c[k].attempts + 1 >= MAX_ATTEMPTS then k !in r.cache
        else k in r.cache && r.cache[k] == Pending(c[k].code, c[k].attempts + 1, now + TTL)
    ensures AttemptsBelowLimit(c) ==> AttemptsBelowLimit(r.cache)
  {
    var k := CacheKey(userPk, intent);
    var data := Lookup(c, k, now);
    if data.None? then Verdict(false, Some(INVALID_CODE), c - {k})
    else if data.value.code == code then Verdict(true, None, c - {k})
    else
      var attempts := data.value.attempts + 1;
      if attempts >= MAX_ATTEMPTS then Verdict(false, Some(INVALID_CODE), c - {k})
      else Verdict(false, Some(INVALID_CODE), c[k := Pending(data.value.code, attempts, now + TTL)])
  }

  /** A freshly issued code is accepted before it expires. */
  lemma IssuedCodeAccepted(c: Cache, userPk: nat, intent: string, code: string, t0: nat, t1: nat)
    requires t0 <= t1 < t0 + TTL
    ensures Verify(Issue(c, userPk, intent, code, t0), userPk, intent, code, t1).ok
  {
  }

  /** A code cannot be used twice: the first success consumes it. */
  lemma {:induction false} NoReplay(c: Cache, userPk: nat, intent: string, code: string, t1: nat, t2: nat)
    requires Verify(c, userPk, intent, code, t1).ok
    ensures !Verify(Verify(c, userPk, intent, code, t1).cache, userPk, intent, code, t2).ok
  {
    assert CacheKey(userPk, intent) !in Verify(c, userPk, intent, code, t1).cache;
  }

  /** Three wrong codes after issuing destroy the entry: even the right code
      fails afterwards, whenever the attempts are made. */
  lemma {:induction false} ThreeStrikes(c: Cache, userPk: nat, intent: string, code: string,
                                        w1: string, w2: string, w3: string,
                                        t0: nat, t1: nat, t2: nat, t3: nat, t4: nat)
    requires w1 != code && w2 != code && w3 != code
    ensures var c0 := Issue(c, userPk, intent, code, t0);
      var c1 := Verify(c0, userPk, intent, w1, t1).cache;
      var c2 := Verify(c1, userPk, intent, w2, t2).cache;
      var c3 := Verify(c2, userPk, intent, w3, t3).cache;
      !Verify(c3, userPk, intent, code, t4).ok
  {
    var k := CacheKey(userPk, intent);
    var c0 := Issue(c, userPk, intent, code, t0);
    var c1 := Verify(c0, userPk, intent, w1, t1).cache;
    var c2 := Verify(c1, userPk, intent, w2, t2).cache;
    var c3 := Verify(c2, userPk, intent, w3, t3).cache;
    // The stored code never changes, and a live entry loses a life per mismatch.
    assert k in c1 ==> c1[k].code == code && c1[k].attempts == 1;
    assert k in c2 ==> c2[k].code == code && c2[k].attempts == 2;
    assert k !in c3;
  }
}

=== FILE: permission_label.dfy ===
/** The Arabic display name of a permission (`custom_permission_str` in
    microsys/apps.py, installed as the permission model's `__str__`): the
    English verbs of Django's generated names and the word `permission`
    replaced by their Arabic counterparts, then the ends stripped. */
module PermissionLabel {
  import opened Text

  /** The substitutions, in the order they are applied. */
  const REPLACEMENTS: seq<(string, string)> := [
    ("Can add", "إضافة"),
    ("Can change", "تعديل"),
    ("Can delete", "حذف"),
    ("Can view", "عرض"),
    ("permission", "الصلاحيات")
  ]

  predicate NonEmptyPatterns(reps: seq<(string, string)>) {
    forall i :: 0 <= i < |reps| ==> |reps[i].0| > 0
  }

  /** Each `replace` in turn, on the output of the previous one. */
  function ReplaceEach(s: string, reps: seq<(string, string)>): string
    requires NonEmptyPatterns(reps)
    decreases |reps|
  {
    if reps == [] then s else ReplaceEach(ReplaceAll(s, reps[0].0, reps[0].1), reps[1..])
  }

  /** `custom_permission_str`: the result never starts or ends with
      whitespace, and a name that is already trimmed and free of keywords
      comes back unchanged. */
  function CustomPermissionStr(name: string): (r: string)
    ensures r == [] || (!IsWhitespace(r[0]) && !IsWhitespace(r[|r| - 1]))
    ensures (forall i :: 0 <= i < |REPLACEMENTS| ==> !Contains(name, REPLACEMENTS[i].0)) ==> r == Strip(name)
  {
    ReplaceEachAbsent(name, REPLACEMENTS);
    Strip(ReplaceEach(name, REPLACEMENTS))
  }

  lemma {:induction false} ReplaceEachAbsent(s: string, reps: seq<(string, string)>)
    requires NonEmptyPatterns(reps)
    ensures (forall i :: 0 <= i < |reps| ==> !Contains(s, reps[i].0)) ==> ReplaceEach(s, reps) == s
    decreases |reps|
  {
    if reps != [] && forall i :: 0 <= i < |reps| ==> !Contains(s, reps[i].0) {
      assert !Contains(s, reps[0].0);
      ReplaceAllAbsent(s, reps[0].0, reps[0].1);
      assert forall i :: 0 <= i < |reps[1..]| ==> !Contains(s, reps[1..][i].0) by {
        forall i | 0 <= i < |reps[1..]|
          ensures !Contains(s, reps[1..][i].0)
        {
          assert reps[1..][i] == reps[i + 1];
        }
      }
      ReplaceEachAbsent(s, reps[1..]);
    }
  }

  /** A pattern whose first character does not occur in `s`. */
  lemma AbsentFirstChar(s: string, pat: string)
    requires |pat| > 0 && pat[0] !in s
    ensures !Contains(s, pat)
  {
    forall i | 0 <= i <= |s| - |pat|
      ensures !OccursAt(s, pat, i)
    {
      assert s[i..i + |pat|][0] == s[i] != pat[0];
    }
  }

  /** A pattern absent from `b` is absent from `a + b` when it cannot start
      inside `a`: not at its first character, and nowhere after it because
      its own first character does not occur there. */
  lemma AbsentInJoin(a: string, b: string, pat: string)
    requires |pat| > 0 && |a| > 0 && pat[0] !in a[1..] && !Contains(b, pat)
    requires !OccursAt(a + b, pat, 0)
    ensures !Contains(a + b, pat)
  {
    var s := a + b;
    forall i | 0 <= i <= |s| - |pat|
      ensures !OccursAt(s, pat, i)
    {
      if 0 < i < |a| {
        assert s[i..i + |pat|][0] == s[i] == a[1..][i - 1];
      } else if |a| <= i {
        assert s[i..i + |pat|] == b[i - |a|..i - |a| + |pat|];
        assert !OccursAt(b, pat, i - |a|);
      }
    }
  }

  /** The pattern at the start of a text that does not otherwise hold it is
      replaced once. */
  lemma ReplaceAtStart(pat: string, u: string, rep: string)
    requires |pat| > 0 && !Contains(u, pat)
    ensures ReplaceAll(pat + u, pat, rep) == rep + u
  {
    var s := pat + u;
    assert s[..|pat|] == pat && s[|pat|..] == u;
    ReplaceAllAbsent(u, pat, rep);
  }

  /** The shape of the keyword table the proofs below rely on: every
      keyword starts with `C` or `p`, only at its start does a verb keyword
      hold a `C`, the verbs differ in their fifth character, and no Arabic
      replacement holds a `C` or `p` or starts with whitespace. */
  predicate KeywordShaped(i: nat)
    requires i < |REPLACEMENTS|
  {
    var (pat, rep) := REPLACEMENTS[i];
    && |pat| > 4 && (pat[0] == 'C' || pat[0] == 'p')
    && (i < 4 ==> pat[0] == 'C' && 'C' !in pat[1..])
    && rep != [] && !IsWhitespace(rep[0]) && 'C' !in rep && 'p' !in rep
  }

  lemma KeywordShapes()
    ensures |REPLACEMENTS| == 5
    ensures forall i :: 0 <= i < 5 ==> KeywordShaped(i)
    ensures forall j, k :: 0 <= j < k < 4 ==> REPLACEMENTS[j].0[4] != REPLACEMENTS[k].0[4]
  {
    AddShaped();
    ChangeShaped();
    DeleteShaped();
    ViewShaped();
    PermissionShaped();
    forall i | 0 <= i < 5
      ensures KeywordShaped(i)
    {
    }
  }

  lemma AddShaped()
    ensures KeywordShaped(0) && REPLACEMENTS[0].0[4] == 'a'
  {
    assert REPLACEMENTS[0].0 == ['C'] + "an add";
  }

  lemma ChangeShaped()
    ensures KeywordShaped(1) && REPLACEMENTS[1].0[4] == 'c'
  {
    assert REPLACEMENTS[1].0 == ['C'] + "an change";
  }

  lemma DeleteShaped()
    ensures KeywordShaped(2) && REPLACEMENTS[2].0[4] == 'd'
  {
    assert REPLACEMENTS[2].0 == ['C'] + "an delete";
  }

  lemma ViewShaped()
    ensures KeywordShaped(3) && REPLACEMENTS[3].0[4] == 'v'
  {
    assert REPLACEMENTS[3].0 == ['C'] + "an view";
  }

  lemma PermissionShaped()
    ensures KeywordShaped(4)
  {
  }

  /** No keyword of the table occurs in `t`. */
  predicate KeywordFree(t: string) {
    forall i :: 0 <= i < |REPLACEMENTS| ==> !Contains(t, REPLACEMENTS[i].0)
  }

  /** Django's generated `Can <verb> <model>` names: the verb becomes its
      Arabic counterpart and the rest is kept, provided the rest holds no
      keyword of its own. */
  lemma {:induction false} VerbTranslated(k: nat, t: string)
    requires k < 4
    requires KeywordFree(t)
    requires t != [] && !IsWhitespace(t[|t| - 1])
    ensures CustomPermissionStr(REPLACEMENTS[k].0 + " " + t) == REPLACEMENTS[k].1 + " " + t
  {
    KeywordShapes();
    assert KeywordShaped(k);
    var (pat, rep) := REPLACEMENTS[k];
    var name := pat + " " + t;
    var out := rep + " " + t;
    assert ReplaceEach(name, REPLACEMENTS) == out by {
      ReplaceSteps(k, 0, name, t);
      assert REPLACEMENTS[0..] == REPLACEMENTS;
    }
    assert !IsWhitespace(out[0]) && !IsWhitespace(out[|out| - 1]) by {
      assert out[0] == rep[0];
      assert out[|out| - 1] == t[|t| - 1];
    }
  }

  /** The replacement pipeline from step `j` on, for a name starting with
      keyword `k`: steps before `k` find nothing, step `k` replaces the verb,
      later steps find nothing in the result. */
  lemma {:induction false} ReplaceSteps(k: nat, j: nat, name: string, t: string)
    requires k < 4 && j <= k
    requires KeywordFree(t)
    requires name == REPLACEMENTS[k].0 + " " + t
    ensures ReplaceEach(name, REPLACEMENTS[j..]) == REPLACEMENTS[k].1 + " " + t
    decreases k - j
  {
    if j < k {
      var reps := REPLACEMENTS[j..];
      assert reps[0] == REPLACEMENTS[j];
      assert reps[1..] == REPLACEMENTS[j + 1..];
      EarlierKeywordAbsent(k, j, name, t);
      ReplaceSteps(k, j + 1, name, t);
    } else {
      KeywordReplaced(k, name, t);
    }
  }

  /** A verb keyword before the name's own finds nothing. */
  lemma EarlierKeywordAbsent(k: nat, j: nat, name: string, t: string)
    requires j < k < 4
    requires name == REPLACEMENTS[k].0 + " " + t
    requires KeywordFree(t)
    ensures ReplaceAll(name, REPLACEMENTS[j].0, REPLACEMENTS[j].1) == name
  {
    KeywordShapes();
    var pat := REPLACEMENTS[j].0;
    var head := REPLACEMENTS[k].0 + " ";
    assert KeywordShaped(j) && KeywordShaped(k);
    assert name == head + t;
    assert name[4] == REPLACEMENTS[k].0[4] != pat[4];
    assert head[1..] == REPLACEMENTS[k].0[1..] + " ";
    AbsentInJoin(head, t, pat);
    ReplaceAllAbsent(name, pat, REPLACEMENTS[j].1);
  }

  /** The name's own keyword is replaced and nothing after it matches. */
  lemma KeywordReplaced(k: nat, name: string, t: string)
    requires k < 4
    requires name == REPLACEMENTS[k].0 + " " + t
    requires KeywordFree(t)
    ensures ReplaceEach(name, REPLACEMENTS[k..]) == REPLACEMENTS[k].1 + " " + t
  {
    KeywordShapes();
    var reps := REPLACEMENTS[k..];
    assert reps[0] == REPLACEMENTS[k];
    assert reps[1..] == REPLACEMENTS[k + 1..];
    var out := REPLACEMENTS[k].1 + " " + t;
    assert KeywordShaped(k);
    assert name == REPLACEMENTS[k].0 + (" " + t);
    AbsentInJoin(" ", t, REPLACEMENTS[k].0);
    ReplaceAtStart(REPLACEMENTS[k].0, " " + t, REPLACEMENTS[k].1);
    assert ReplaceAll(name, REPLACEMENTS[k].0, REPLACEMENTS[k].1) == out;
    var rest := REPLACEMENTS[k + 1..];
    forall i | 0 <= i < |rest|
      ensures !Contains(out, rest[i].0)
    {
      assert rest[i] == REPLACEMENTS[k + 1 + i];
      assert KeywordShaped(k + 1 + i);
      var head := REPLACEMENTS[k].1 + " ";
      assert out == head + t;
      assert out[0] == REPLACEMENTS[k].1[0];
      assert head[1..] == REPLACEMENTS[k].1[1..] + " ";
      AbsentInJoin(head, t, rest[i].0);
    }
    ReplaceEachAbsent(out, rest);
  }

  /** Only the lower-case word is replaced: a name such as `Delete
      Permission`, with no `C` and no lower-case `p`, is only stripped. */
  lemma CapitalisedWordKept(name: string)
    requires 'C' !in name && 'p' !in name
    ensures CustomPermissionStr(name) == Strip(name)
  {
    KeywordShapes();
    forall i | 0 <= i < |REPLACEMENTS|
      ensures !Contains(name, REPLACEMENTS[i].0)
    {
      assert KeywordShaped(i);
      AbsentFirstChar(name, REPLACEMENTS[i].0);
    }
  }
}

=== FILE: permissions.dfy ===
/** The grouped permission picker (`GroupedPermissionWidget` in
    microsys/forms.py and its older form in users/forms.py) and the scope a
    user form saves. Permissions arrive as the ordered query result; the
    widget groups them by application and model key, orders each model's
    options by action, and merges the extra groups other code registered.
    Dictionaries are maps here: the order in which applications and models
    are listed is not modelled, the order of options within a model is. */
module Permissions {
  import opened Wrappers
  import opened Text
  import Values
  import Models
  import PermissionLabel
  import Translations

  type Table = Translations.Table

  datatype Action = View | Add | Change | Delete | Other

  /** The action a codename grants, read from its prefix. */
  function Classify(codename: string): (a: Action)
    ensures a == View <==> StartsWith(codename, "view_")
    ensures a == Add <==> StartsWith(codename, "add_")
    ensures a == Change <==> StartsWith(codename, "change_")
    ensures a == Delete <==> StartsWith(codename, "delete_")
  {
    StartsWithFirst(codename, "view_");
    StartsWithFirst(codename, "add_");
    StartsWithFirst(codename, "change_");
    StartsWithFirst(codename, "delete_");
    if StartsWith(codename, "view_") then View
    else if StartsWith(codename, "add_") then Add
    else if StartsWith(codename, "change_") then Change
    else if StartsWith(codename, "delete_") then Delete
    else Other
  }

  lemma StartsWithFirst(s: string, prefix: string)
    requires prefix != []
    ensures StartsWith(s, prefix) ==> s[0] == prefix[0]
  {
    if StartsWith(s, prefix) {
      assert s[..|prefix|][0] == s[0];
    }
  }

  /** `action_order`: view, add, change, delete, other. */
  function Rank(a: Action): nat {
    match a
    case View => 1
    case Add => 2
    case Change => 3
    case Delete => 4
    case Other => 5
  }

  const ACTION_ORDER: seq<Action> := [View, Add, Change, Delete, Other]

  /** A permission row with its content type; `defaultVerbose` is the model's
      verbose name as the content type reports it. */
  datatype Permission = Permission(
    pk: int,
    appLabel: string,
    model: string,
    codename: string,
    name: string,
    defaultVerbose: string)

  /** One checkbox of the picker. */
  datatype PermOption = PermOption(
    fieldName: string,
    value: Values.Value,
    caption: string,
    codename: string,
    selected: bool,
    helpText: string,
    id: string,
    action: Action,
    modelKey: string)

  /** What `get_context` is called with, plus the application registry's
      verbose names. */
  datatype WidgetInput = WidgetInput(
    name: string,
    value: Option<seq<Values.Value>>,
    attrs: map<string, string>,
    strings: Table,
    appNames: map<string, string>)

  /** `str(v)` of every submitted or initial value; `None` selects nothing. */
  function SelectedStrings(value: Option<seq<Values.Value>>): set<string> {
    if value.None? then {} else set v | v in value.value :: Values.Display(v)
  }

  /** An option is ticked iff `str(pk)` is among the values. */
  predicate IsSelected(pk: int, value: Option<seq<Values.Value>>) {
    IntToString(pk) in SelectedStrings(value)
  }

  /** Initial values are primary keys, submitted ones are texts: both tick
      the option. */
  lemma SelectionIgnoresValueType(pk: int, vs: seq<Values.Value>)
    ensures Values.Int(pk) in vs ==> IsSelected(pk, Some(vs))
    ensures Values.Str(IntToString(pk)) in vs ==> IsSelected(pk, Some(vs))
    ensures !IsSelected(pk, None)
  {
    if Values.Int(pk) in vs {
      assert Values.Display(Values.Int(pk)) == IntToString(pk);
    }
    if Values.Str(IntToString(pk)) in vs {
      assert Values.Display(Values.Str(IntToString(pk))) == IntToString(pk);
    }
  }

  /** The two microsys permissions shown under the staff-access group. */
  function ModelKey(p: Permission): (key: string)
    ensures p.appLabel == "microsys" && p.codename in {"manage_staff", "view_activity_log"} ==> key == "staff_access"
    ensures !(p.appLabel == "microsys" && p.codename in {"manage_staff", "view_activity_log"}) ==> key == p.model
  {
    if p.appLabel == "microsys" && p.codename in {"manage_staff", "view_activity_log"} then "staff_access" else p.model
  }

  /** The application heading: its translation, else the registry's verbose
      name, else the title-cased label. */
  function AppVerbose(appLabel: string, w: WidgetInput): string {
    Get(w.strings, "app_" + appLabel, if appLabel in w.appNames then w.appNames[appLabel] else Title(appLabel))
  }

  /** The model heading before title-casing: the `model_<key>` translation,
      else the content type's verbose name. */
  function ModelVerbose(p: Permission, w: WidgetInput): string {
    Get(w.strings, "model_" + ModelKey(p), p.defaultVerbose)
  }

  const STAFF_HELP_DEFAULT := "Grants the user permission to assign other users as staff."

  /** The option dictionary built for one permission. */
  function MakeOption(p: Permission, w: WidgetInput): (o: PermOption)
    ensures o.selected <==> IsSelected(p.pk, w.value)
    ensures o.action == Classify(p.codename) && o.modelKey == ModelKey(p)
    ensures o.id == Get(w.attrs, "id", "id_permissions") + "_" + IntToString(p.pk)
    ensures o.helpText != "" ==> p.codename == "manage_staff"
  {
    var current := Get(w.attrs, "id", "id_permissions");
    PermOption(
      w.name, Values.Int(p.pk),
      Get(w.strings, "perm_" + p.codename, p.name),
      p.codename,
      IsSelected(p.pk, w.value),
      if p.codename == "manage_staff" then Get(w.strings, "help_perm_manage_staff", STAFF_HELP_DEFAULT) else "",
      current + "_" + IntToString(p.pk),
      Classify(p.codename),
      ModelKey(p))
  }

  /** Distinct permissions get distinct option ids. */
  lemma OptionIdsDistinct(p: Permission, q: Permission, w: WidgetInput)
    requires p.pk != q.pk
    ensures MakeOption(p, w).id != MakeOption(q, w).id
  {
    var current := Get(w.attrs, "id", "id_permissions");
    var a := IntToString(p.pk);
    var b := IntToString(q.pk);
    if current + "_" + a == current + "_" + b {
      assert a == (current + "_" + a)[|current| + 1..];
      assert b == (current + "_" + b)[|current| + 1..];
      IntToStringInjective(p.pk, q.pk);
    }
  }

  datatype ModelGroup = ModelGroup(name: string, permissions: seq<PermOption>)

  datatype AppGroup = AppGroup(name: string, models: map<string, ModelGroup>)

  type Grouped = map<string, AppGroup>

  /** The permissions of the query result that fall in one model group,
      in query order. */
  function Matching(perms: seq<Permission>, app: string, key: string): (r: seq<Permission>)
    ensures forall p :: p in r ==> p in perms && p.appLabel == app && ModelKey(p) == key
    ensures |r| <= |perms|
  {
    if perms == [] then []
    else
      var last := perms[|perms| - 1];
      assert perms == perms[..|perms| - 1] + [last];
      Matching(perms[..|perms| - 1], app, key) + (if last.appLabel == app && ModelKey(last) == key then [last] else [])
  }

  lemma {:induction false} MatchingHolds(perms: seq<Permission>, p: Permission)
    requires p in perms
    ensures p in Matching(perms, p.appLabel, ModelKey(p))
    decreases |perms|
  {
    var init := perms[..|perms| - 1];
    assert perms == init + [perms[|perms| - 1]];
    if p != perms[|perms| - 1] {
      MatchingHolds(init, p);
    }
  }

  /** One option per permission, in query order. */
  function Options(ps: seq<Permission>, w: WidgetInput): (r: seq<PermOption>)
    ensures |r| == |ps|
    ensures forall i :: 0 <= i < |ps| ==> r[i] == MakeOption(ps[i], w)
  {
    seq(|ps|, i requires 0 <= i < |ps| => MakeOption(ps[i], w))
  }

  /** The application group a permission goes to: the existing one, else a
      new one under the application's heading. */
  function AppOf(g: Grouped, p: Permission, w: WidgetInput): AppGroup {
    if p.appLabel in g then g[p.appLabel] else AppGroup(AppVerbose(p.appLabel, w), map[])
  }

  /** The option is appended to its model group, which is created under the
      permission's model heading when it is the first of its model. */
  function AddToModels(models: map<string, ModelGroup>, p: Permission, w: WidgetInput): (r: map<string, ModelGroup>)
    ensures r.Keys == models.Keys + {ModelKey(p)}
    ensures forall k :: k in models && k != ModelKey(p) ==> r[k] == models[k]
    ensures ModelKey(p) in models ==>
      r[ModelKey(p)] == models[ModelKey(p)].(permissions := models[ModelKey(p)].permissions + [MakeOption(p, w)])
    ensures ModelKey(p) !in models ==> r[ModelKey(p)] == ModelGroup(Title(ModelVerbose(p, w)), [MakeOption(p, w)])
  {
    var key := ModelKey(p);
    var group := if key in models then models[key] else ModelGroup(Title(ModelVerbose(p, w)), []);
    models[key := group.(permissions := group.permissions + [MakeOption(p, w)])]
  }

  /** One pass of the loop over the query result: only the permission's own
      application group changes. */
  function AddPermission(g: Grouped, p: Permission, w: WidgetInput): (r: Grouped)
    ensures r.Keys == g.Keys + {p.appLabel}
    ensures forall a :: a in g && a != p.appLabel ==> r[a] == g[a]
    ensures r[p.appLabel].name == AppOf(g, p, w).name
  {
    var app := AppOf(g, p, w);
    g[p.appLabel := app.(models := AddToModels(app.models, p, w))]
  }

  /** The application labels of a query result. */
  function Apps(perms: seq<Permission>): (r: set<string>)
    ensures forall p :: p in perms ==> p.appLabel in r
  {
    if perms == [] then {} else Apps(perms[..|perms| - 1]) + {perms[|perms| - 1].appLabel}
  }

  /** The model keys of one application in a query result. */
  function ModelKeysOf(perms: seq<Permission>, app: string): (r: set<string>)
    ensures forall p :: p in perms && p.appLabel == app ==> ModelKey(p) in r
  {
    if perms == [] then {}
    else
      var last := perms[|perms| - 1];
      ModelKeysOf(perms[..|perms| - 1], app) + (if last.appLabel == app then {ModelKey(last)} else {})
  }

  /** Every model key of an application comes from one of its permissions. */
  lemma {:induction false} KeysHaveMatches(perms: seq<Permission>, app: string, k: string)
    ensures k in ModelKeysOf(perms, app) <==> Matching(perms, app, k) != []
    ensures Matching(perms, app, k) != [] ==> app in Apps(perms)
    decreases |perms|
  {
    if perms != [] {
      KeysHaveMatches(perms[..|perms| - 1], app, k);
    }
  }

  /** The grouping of a query result: an application group for every
      application label, a model group for every model key, each holding
      exactly its options in query order and named after the first of its
      permissions. */
  predicate GroupedFrom(g: Grouped, perms: seq<Permission>, w: WidgetInput) {
    AppsFrom(g, perms, w) && ModelsFrom(g, perms, w)
  }

  predicate AppsFrom(g: Grouped, perms: seq<Permission>, w: WidgetInput) {
    && g.Keys == Apps(perms)
    && (forall a :: a in g ==> g[a].name == AppVerbose(a, w))
    && (forall a :: a in g ==> g[a].models.Keys == ModelKeysOf(perms, a))
  }

  predicate ModelsFrom(g: Grouped, perms: seq<Permission>, w: WidgetInput) {
    forall a, k :: a in g && k in g[a].models ==> ModelGroupFrom(g[a].models[k], Matching(perms, a, k), w)
  }

  predicate ModelGroupFrom(m: ModelGroup, ms: seq<Permission>, w: WidgetInput) {
    ms != [] && m.permissions == Options(ms, w) && m.name == Title(ModelVerbose(ms[0], w))
  }

  /** The grouping loop. */
  function GroupPermissions(perms: seq<Permission>, w: WidgetInput): (g: Grouped)
    ensures GroupedFrom(g, perms, w)
  {
    if perms == [] then map[]
    else
      var prefix := perms[..|perms| - 1];
      var last := perms[|perms| - 1];
      assert perms == prefix + [last];
      var g0 := GroupPermissions(prefix, w);
      GroupStep(g0, prefix, last, w);
      AddPermission(g0, last, w)
  }

  lemma GroupStep(g0: Grouped, prefix: seq<Permission>, last: Permission, w: WidgetInput)
    requires GroupedFrom(g0, prefix, w)
    ensures GroupedFrom(AddPermission(g0, last, w), prefix + [last], w)
  {
    var perms := prefix + [last];
    assert perms[..|perms| - 1] == prefix;
    var g := AddPermission(g0, last, w);
    assert g.Keys == Apps(perms);
    forall a | a in g
      ensures g[a].name == AppVerbose(a, w) && g[a].models.Keys == ModelKeysOf(perms, a)
    {
      GroupStepApp(g0, prefix, last, w, a);
    }
    forall a, k | a in g && k in g[a].models
      ensures ModelGroupFrom(g[a].models[k], Matching(perms, a, k), w)
    {
      GroupStepModel(g0, prefix, last, w, a, k);
    }
  }

  lemma GroupStepApp(g0: Grouped, prefix: seq<Permission>, last: Permission, w: WidgetInput, a: string)
    requires AppsFrom(g0, prefix, w)
    requires a in AddPermission(g0, last, w)
    ensures AddPermission(g0, last, w)[a].name == AppVerbose(a, w)
    ensures AddPermission(g0, last, w)[a].models.Keys == ModelKeysOf(prefix + [last], a)
  {
    ModelKeysSnoc(prefix, last, a);
    var g := AddPermission(g0, last, w);
    if a == last.appLabel {
      var app := AppOf(g0, last, w);
      assert g[a].models == AddToModels(app.models, last, w);
      if a !in g0 {
        NoAppNoKeys(prefix, a);
        assert app.models.Keys == ModelKeysOf(prefix, a);
      } else {
        assert app.models.Keys == ModelKeysOf(prefix, a);
      }
    } else {
      assert g[a] == g0[a];
    }
  }

  lemma ModelKeysSnoc(prefix: seq<Permission>, last: Permission, a: string)
    ensures ModelKeysOf(prefix + [last], a) ==
      ModelKeysOf(prefix, a) + (if last.appLabel == a then {ModelKey(last)} else {})
  {
    var perms := prefix + [last];
    assert perms[..|perms| - 1] == prefix;
  }

  lemma {:induction false} NoAppNoKeys(perms: seq<Permission>, app: string)
    requires app !in Apps(perms)
    ensures ModelKeysOf(perms, app) == {}
    decreases |perms|
  {
    if perms != [] {
      NoAppNoKeys(perms[..|perms| - 1], app);
    }
  }

  lemma OptionsSnoc(ms: seq<Permission>, p: Permission, w: WidgetInput)
    ensures Options(ms + [p], w) == Options(ms, w) + [MakeOption(p, w)]
  {
    assert (ms + [p])[..|ms|] == ms;
  }

  lemma GroupStepModel(g0: Grouped, prefix: seq<Permission>, last: Permission, w: WidgetInput, a: string, k: string)
    requires GroupedFrom(g0, prefix, w)
    requires a in AddPermission(g0, last, w) && k in AddPermission(g0, last, w)[a].models
    ensures ModelGroupFrom(AddPermission(g0, last, w)[a].models[k], Matching(prefix + [last], a, k), w)
  {
    var g := AddPermission(g0, last, w);
    if a == last.appLabel && k == ModelKey(last) {
      if a in g0 && k in g0[a].models {
        GroupStepModelExisting(g0, prefix, last, w);
      } else {
        KeysHaveMatches(prefix, a, k);
        GroupStepModelNew(g0, prefix, last, w);
      }
    } else {
      assert a in g0 && k in g0[a].models && g[a].models[k] == g0[a].models[k] by {
        if a == last.appLabel {
          assert g[a].models == AddToModels(AppOf(g0, last, w).models, last, w);
        }
      }
      MatchingOther(prefix, last, a, k);
    }
  }

  lemma MatchingOther(prefix: seq<Permission>, last: Permission, a: string, k: string)
    requires !(a == last.appLabel && k == ModelKey(last))
    ensures Matching(prefix + [last], a, k) == Matching(prefix, a, k)
  {
    var perms := prefix + [last];
    assert perms[..|perms| - 1] == prefix;
  }

  lemma MatchingSame(prefix: seq<Permission>, last: Permission)
    ensures Matching(prefix + [last], last.appLabel, ModelKey(last)) == Matching(prefix, last.appLabel, ModelKey(last)) + [last]
  {
    var perms := prefix + [last];
    assert perms[..|perms| - 1] == prefix;
  }

  /** The permission joins a model group that already exists. */
  lemma GroupStepModelExisting(g0: Grouped, prefix: seq<Permission>, last: Permission, w: WidgetInput)
    requires last.appLabel in g0 && ModelKey(last) in g0[last.appLabel].models
    requires ModelGroupFrom(g0[last.appLabel].models[ModelKey(last)], Matching(prefix, last.appLabel, ModelKey(last)), w)
    ensures var g := AddPermission(g0, last, w);
      ModelGroupFrom(g[last.appLabel].models[ModelKey(last)], Matching(prefix + [last], last.appLabel, ModelKey(last)), w)
  {
    var ms0 := Matching(prefix, last.appLabel, ModelKey(last));
    MatchingSame(prefix, last);
    OptionsSnoc(ms0, last, w);
    assert (ms0 + [last])[0] == ms0[0];
  }

  /** The permission opens a new model group. */
  lemma GroupStepModelNew(g0: Grouped, prefix: seq<Permission>, last: Permission, w: WidgetInput)
    requires Matching(prefix, last.appLabel, ModelKey(last)) == []
    requires !(last.appLabel in g0 && ModelKey(last) in g0[last.appLabel].models)
    ensures var g := AddPermission(g0, last, w);
      ModelGroupFrom(g[last.appLabel].models[ModelKey(last)], Matching(prefix + [last], last.appLabel, ModelKey(last)), w)
  {
    MatchingSame(prefix, last);
    assert [] + [last] == [last];
    OptionsSnoc([], last, w);
  }

  /** `action_order.get(data_action)`'s class of options, in their order. */
  function WithAction(os: seq<PermOption>, a: Action): seq<PermOption> {
    if os == [] then [] else WithAction(os[..|os| - 1], a) + (if os[|os| - 1].action == a then [os[|os| - 1]] else [])
  }

  /** A class holds exactly the options with that action. */
  lemma {:induction false} WithActionMembers(os: seq<PermOption>, a: Action)
    ensures forall o :: o in WithAction(os, a) <==> o in os && o.action == a
    decreases |os|
  {
    if os != [] {
      var init := os[..|os| - 1];
      assert os == init + [os[|os| - 1]];
      WithActionMembers(init, a);
    }
  }

  /** The classes for the given actions, one after the other. */
  function Classes(os: seq<PermOption>, acts: seq<Action>): (r: seq<PermOption>)
    ensures forall o :: o in r ==> o in os && o.action in acts
  {
    if acts == [] then []
    else
      WithActionMembers(os, acts[0]);
      WithAction(os, acts[0]) + Classes(os, acts[1..])
  }

  predicate SortedByRank(os: seq<PermOption>) {
    forall i, j :: 0 <= i < j < |os| ==> Rank(os[i].action) <= Rank(os[j].action)
  }

  /** Python's stable `sort` keyed on the action rank: the options of each
      action kept in their order, the actions in rank order. It is sorted, a
      permutation of its input, and keeps the order within every action. */
  function SortByAction(os: seq<PermOption>): (r: seq<PermOption>)
    ensures SortedByRank(r)
    ensures multiset(r) == multiset(os)
    ensures forall a :: WithAction(r, a) == WithAction(os, a)
  {
    ActionOrderRanks();
    ClassesSorted(os, ACTION_ORDER);
    ClassesPermutation(os);
    forall a
      ensures WithAction(Classes(os, ACTION_ORDER), a) == WithAction(os, a)
    {
      ClassesStable(os, ACTION_ORDER, a);
    }
    Classes(os, ACTION_ORDER)
  }

  lemma {:induction false} WithActionAppend(x: seq<PermOption>, y: seq<PermOption>, a: Action)
    ensures WithAction(x + y, a) == WithAction(x, a) + WithAction(y, a)
    decreases |y|
  {
    if y == [] {
      assert x + y == x;
    } else {
      var y0 := y[..|y| - 1];
      var last := y[|y| - 1];
      var tail := if last.action == a then [last] else [];
      var xy := x + y;
      assert xy[..|xy| - 1] == x + y0 && xy[|xy| - 1] == last;
      assert WithAction(xy, a) == WithAction(x + y0, a) + tail;
      assert WithAction(y, a) == WithAction(y0, a) + tail;
      WithActionAppend(x, y0, a);
      assert WithAction(x, a) + WithAction(y0, a) + tail == WithAction(x, a) + (WithAction(y0, a) + tail);
    }
  }

  lemma {:induction false} WithActionOfClass(os: seq<PermOption>, a: Action, b: Action)
    ensures WithAction(WithAction(os, b), a) == if a == b then WithAction(os, a) else []
    decreases |os|
  {
    if os != [] {
      var init := os[..|os| - 1];
      var last := os[|os| - 1];
      WithActionOfClass(init, a, b);
      WithActionAppend(WithAction(init, b), if last.action == b then [last] else [], a);
    }
  }

  /** Picking one action out of the classes gives that action's class. */
  lemma {:induction false} ClassesStable(os: seq<PermOption>, acts: seq<Action>, a: Action)
    requires forall i, j :: 0 <= i < j < |acts| ==> acts[i] != acts[j]
    ensures WithAction(Classes(os, acts), a) == if a in acts then WithAction(os, a) else []
    decreases |acts|
  {
    if acts != [] {
      WithActionAppend(WithAction(os, acts[0]), Classes(os, acts[1..]), a);
      WithActionOfClass(os, a, acts[0]);
      ClassesStable(os, acts[1..], a);
      if a in acts && a != acts[0] {
        var i :| 0 <= i < |acts| && acts[i] == a;
        assert acts[1..][i - 1] == a;
      }
      if a == acts[0] {
        assert a !in acts[1..] by {
          forall i | 0 <= i < |acts[1..]|
            ensures acts[1..][i] != a
          {
            assert acts[1..][i] == acts[i + 1];
          }
        }
      }
    }
  }

  lemma {:induction false} ClassesSorted(os: seq<PermOption>, acts: seq<Action>)
    requires forall i, j :: 0 <= i < j < |acts| ==> Rank(acts[i]) < Rank(acts[j])
    ensures SortedByRank(Classes(os, acts))
    decreases |acts|
  {
    if acts != [] {
      var head := WithAction(os, acts[0]);
      var tail := Classes(os, acts[1..]);
      WithActionMembers(os, acts[0]);
      ClassesSorted(os, acts[1..]);
      forall o | o in tail
        ensures Rank(o.action) > Rank(acts[0])
      {
        var k :| 0 <= k < |acts[1..]| && acts[1..][k] == o.action;
        assert acts[k + 1] == o.action;
      }
      var r := head + tail;
      forall i, j | 0 <= i < j < |r|
        ensures Rank(r[i].action) <= Rank(r[j].action)
      {
        if j < |head| {
          assert r[i] in head && r[j] in head;
        } else if i < |head| {
          assert r[i] in head && r[j] == tail[j - |head|] && r[j] in tail;
        } else {
          assert r[i] == tail[i - |head|] && r[j] == tail[j - |head|];
        }
      }
    }
  }

  /** Number of options with action `a`. */
  lemma {:induction false} WithActionCount(os: seq<PermOption>, a: Action, o: PermOption)
    ensures multiset(WithAction(os, a))[o] == if o.action == a then multiset(os)[o] else 0
    decreases |os|
  {
    if os != [] {
      var init := os[..|os| - 1];
      assert os == init + [os[|os| - 1]];
      WithActionCount(init, a, o);
    }
  }

  lemma {:induction false} ClassesCount(os: seq<PermOption>, acts: seq<Action>, o: PermOption)
    requires forall i, j :: 0 <= i < j < |acts| ==> acts[i] != acts[j]
    ensures multiset(Classes(os, acts))[o] == if o.action in acts then multiset(os)[o] else 0
    decreases |acts|
  {
    if acts != [] {
      WithActionCount(os, acts[0], o);
      ClassesCount(os, acts[1..], o);
      assert o.action in acts <==> o.action == acts[0] || o.action in acts[1..];
      if o.action == acts[0] {
        assert o.action !in acts[1..] by {
          forall i | 0 <= i < |acts[1..]|
            ensures acts[1..][i] != o.action
          {
            assert acts[1..][i] == acts[i + 1];
          }
        }
      }
    }
  }

  /** The `i`-th action of the order has rank `i + 1`. */
  lemma ActionOrderRanks()
    ensures |ACTION_ORDER| == 5
    ensures forall i :: 0 <= i < 5 ==> Rank(ACTION_ORDER[i]) == i + 1
    ensures forall i, j :: 0 <= i < j < |ACTION_ORDER| ==> Rank(ACTION_ORDER[i]) < Rank(ACTION_ORDER[j])
    ensures forall i, j :: 0 <= i < j < |ACTION_ORDER| ==> ACTION_ORDER[i] != ACTION_ORDER[j]
    ensures forall a :: ACTION_ORDER[Rank(a) - 1] == a
  {
  }

  lemma ClassesPermutation(os: seq<PermOption>)
    ensures multiset(Classes(os, ACTION_ORDER)) == multiset(os)
  {
    ActionOrderRanks();
    forall o
      ensures multiset(Classes(os, ACTION_ORDER))[o] == multiset(os)[o]
    {
      ClassesCount(os, ACTION_ORDER, o);
      assert o.action == ACTION_ORDER[Rank(o.action) - 1];
    }
  }

  /** Sorting an already sorted model group changes nothing. */
  lemma SortIdempotent(os: seq<PermOption>)
    ensures SortByAction(SortByAction(os)) == SortByAction(os)
  {
    var r := SortByAction(os);
    assert Classes(r, ACTION_ORDER) == Classes(os, ACTION_ORDER) by {
      assert forall a :: WithAction(r, a) == WithAction(os, a);
      ClassesCongruent(r, os, ACTION_ORDER);
    }
  }

  lemma {:induction false} ClassesCongruent(x: seq<PermOption>, y: seq<PermOption>, acts: seq<Action>)
    requires forall a :: WithAction(x, a) == WithAction(y, a)
    ensures Classes(x, acts) == Classes(y, acts)
    decreases |acts|
  {
    if acts != [] {
      ClassesCongruent(x, y, acts[1..]);
    }
  }

  /** The sorting loop over every model group. */
  function SortGroups(g: Grouped): (r: Grouped)
    ensures r.Keys == g.Keys
    ensures forall a :: a in r ==> r[a].name == g[a].name && r[a].models.Keys == g[a].models.Keys
    ensures forall a, k :: a in r && k in r[a].models ==>
      r[a].models[k] == g[a].models[k].(permissions := SortByAction(g[a].models[k].permissions))
  {
    map a | a in g ::
      g[a].(models := map k | k in g[a].models ::
        g[a].models[k].(permissions := SortByAction(g[a].models[k].permissions)))
  }

  /** `add_extra_group`: the option goes to the end of its model group, the
      application and model groups being created on first use. */
  function AddExtraGroup(extra: Grouped, appLabel: string, appName: string, modelKey: string,
                         modelName: string, o: PermOption): (r: Grouped)
    ensures appLabel in r && modelKey in r[appLabel].models
    ensures var before := if appLabel in extra && modelKey in extra[appLabel].models
                          then extra[appLabel].models[modelKey].permissions else [];
      r[appLabel].models[modelKey].permissions == before + [o]
    ensures appName != "" ==> r[appLabel].name != ""
    ensures appLabel in extra && extra[appLabel].name != "" ==> r[appLabel].name == extra[appLabel].name
    ensures forall a :: a != appLabel ==> (a in r <==> a in extra) && (a in extra ==> r[a] == extra[a])
    ensures forall k :: k != modelKey && appLabel in extra && k in extra[appLabel].models ==>
      k in r[appLabel].models && r[appLabel].models[k] == extra[appLabel].models[k]
  {
    var group := if appLabel in extra then extra[appLabel] else AppGroup(appName, map[]);
    var named := if appName != "" && group.name == "" then group.(name := appName) else group;
    var model := if modelKey in named.models then named.models[modelKey] else ModelGroup(modelName, []);
    extra[appLabel := named.(models := named.models[modelKey := model.(permissions := model.permissions + [o])])]
  }

  /** The ids already present in a model group. */
  function Ids(os: seq<PermOption>): set<string> {
    set o | o in os :: o.id
  }

  /** Extra options whose id is empty or not among `existing`, in order. */
  function Fresh(extra: seq<PermOption>, existing: set<string>): (r: seq<PermOption>)
    ensures forall o :: o in r <==> o in extra && (o.id == "" || o.id !in existing)
    ensures |r| <= |extra|
  {
    if extra == [] then []
    else
      var last := extra[|extra| - 1];
      assert extra == extra[..|extra| - 1] + [last];
      Fresh(extra[..|extra| - 1], existing) + (if last.id == "" || last.id !in existing then [last] else [])
  }

  /** The per-model merge: existing options stay first and unchanged, then
      the extra options whose id was not already there. The ids are taken
      once, before appending. */
  function MergeOptions(target: seq<PermOption>, extra: seq<PermOption>): (r: seq<PermOption>)
    ensures |r| >= |target| && r[..|target|] == target
    ensures forall o :: o in r[|target|..] <==> o in extra && (o.id == "" || o.id !in Ids(target))
    ensures forall o :: o in extra ==> o.id in Ids(r)
  {
    var r := target + Fresh(extra, Ids(target));
    assert r[|target|..] == Fresh(extra, Ids(target));
    forall o | o in extra
      ensures o.id in Ids(r)
    {
      if o.id == "" || o.id !in Ids(target) {
        assert o in r;
      } else {
        var p :| p in target && p.id == o.id;
        assert p in r;
      }
    }
    r
  }

  predicate DistinctIds(os: seq<PermOption>) {
    forall i, j :: 0 <= i < j < |os| ==> os[i].id != os[j].id
  }

  /** Merging extra options that all have ids, a second time, adds nothing. */
  lemma MergeIdempotent(target: seq<PermOption>, extra: seq<PermOption>)
    requires forall o :: o in extra ==> o.id != ""
    ensures MergeOptions(MergeOptions(target, extra), extra) == MergeOptions(target, extra)
  {
    var once := MergeOptions(target, extra);
    FreshOfKnownIds(extra, Ids(once));
    assert once + [] == once;
  }

  lemma {:induction false} FreshOfKnownIds(extra: seq<PermOption>, existing: set<string>)
    requires forall o :: o in extra ==> o.id != "" && o.id in existing
    ensures Fresh(extra, existing) == []
    decreases |extra|
  {
    if extra != [] {
      assert forall o :: o in extra[..|extra| - 1] ==> o in extra;
      FreshOfKnownIds(extra[..|extra| - 1], existing);
    }
  }

  /** Ids stay distinct when the existing ones and the extra ones are. */
  lemma MergeKeepsIdsDistinct(target: seq<PermOption>, extra: seq<PermOption>)
    requires DistinctIds(target) && DistinctIds(extra)
    requires forall o :: o in extra ==> o.id != ""
    ensures DistinctIds(MergeOptions(target, extra))
  {
    var r := MergeOptions(target, extra);
    var f := Fresh(extra, Ids(target));
    assert r == target + f;
    FreshDistinct(extra, Ids(target));
    forall i, j | 0 <= i < j < |r|
      ensures r[i].id != r[j].id
    {
      if j >= |target| {
        assert r[j] == f[j - |target|] && r[j] in f;
        if i < |target| {
          assert r[i] in target;
        } else {
          assert r[i] == f[i - |target|];
        }
      }
    }
  }

  lemma {:induction false} FreshDistinct(extra: seq<PermOption>, existing: set<string>)
    requires DistinctIds(extra)
    ensures DistinctIds(Fresh(extra, existing))
    decreases |extra|
  {
    if extra != [] {
      var init := extra[..|extra| - 1];
      var last := extra[|extra| - 1];
      FreshDistinct(init, existing);
      var f0 := Fresh(init, existing);
      forall o | o in f0
        ensures o.id != last.id
      {
        var k :| 0 <= k < |init| && init[k] == o;
      }
    }
  }

  /** The heading of an application that extra groups touch: the
      translated heading, else the extra group's name when it has one;
      otherwise the heading stays. */
  function MergedAppName(a: string, target: AppGroup, extra: AppGroup, s: Table): string {
    if extra.name != "" then
      (if Get(s, "app_" + a, "") != "" then s["app_" + a] else extra.name)
    else target.name
  }

  /** The model groups of one application after merging its extra groups. */
  function MergeModels(target: map<string, ModelGroup>, em: map<string, ModelGroup>): (r: map<string, ModelGroup>)
    ensures r.Keys == target.Keys + em.Keys
    ensures forall k :: k in target && k !in em ==> r[k] == target[k]
    ensures forall k :: k in em ==>
      var before := if k in target then target[k].permissions else [];
      r[k].permissions == MergeOptions(before, em[k].permissions)
  {
    map k | k in target.Keys + em.Keys ::
      if k !in em then target[k]
      else
        var tm := if k in target then target[k] else ModelGroup(em[k].name, []);
        tm.(permissions := MergeOptions(tm.permissions, em[k].permissions))
  }

  /** One application's extra groups merged into its group. */
  function MergeApp(a: string, target: AppGroup, extra: AppGroup, s: Table): (r: AppGroup)
    ensures r.models == MergeModels(target.models, extra.models)
    ensures r.name == MergedAppName(a, target, extra, s)
  {
    AppGroup(MergedAppName(a, target, extra, s), MergeModels(target.models, extra.models))
  }

  /** The extra-group loop of `get_context`. Applications and models are
      merged independently, so the order of the loop does not matter. */
  function MergeExtras(g: Grouped, extras: Grouped, s: Table): (r: Grouped)
    ensures r.Keys == g.Keys + extras.Keys
    ensures forall a :: a in g && a !in extras ==> r[a] == g[a]
    ensures forall a :: a in extras ==>
      r[a] == MergeApp(a, if a in g then g[a] else AppGroup(extras[a].name, map[]), extras[a], s)
  {
    map a | a in g.Keys + extras.Keys ::
      if a !in extras then g[a]
      else MergeApp(a, if a in g then g[a] else AppGroup(extras[a].name, map[]), extras[a], s)
  }

  /** After the merge every extra option's id is present in its model
      group, and the options grouped from the query result stay in front. */
  lemma ExtraOptionsPresent(g: Grouped, extras: Grouped, s: Table, a: string, k: string)
    requires a in extras && k in extras[a].models
    ensures var r := MergeExtras(g, extras, s);
      var before := if a in g && k in g[a].models then g[a].models[k].permissions else [];
      && a in r && k in r[a].models
      && r[a].models[k].permissions[..|before|] == before
      && forall o :: o in extras[a].models[k].permissions ==> o.id in Ids(r[a].models[k].permissions)
  {
  }

  /** The grouped permissions `get_context` hands to the template: one
      application group per application of the query result or of the extra
      groups. */
  function GetContext(perms: seq<Permission>, w: WidgetInput, extras: Option<Grouped>): (r: Grouped)
    ensures r.Keys == Apps(perms) + (if extras.Some? then extras.value.Keys else {})
  {
    var g := GroupPermissions(perms, w);
    assert AppsFrom(g, perms, w);
    var sorted := SortGroups(g);
    if extras.None? then sorted else MergeExtras(sorted, extras.value, w.strings)
  }

  /** Every model group the template receives is in action order, unless
      extra options were merged into it. */
  lemma ContextSorted(perms: seq<Permission>, w: WidgetInput, extras: Option<Grouped>, a: string, k: string)
    requires a in GetContext(perms, w, extras) && k in GetContext(perms, w, extras)[a].models
    requires extras.None? || a !in extras.value || k !in extras.value[a].models
    ensures SortedByRank(GetContext(perms, w, extras)[a].models[k].permissions)
  {
    var g := GroupPermissions(perms, w);
    var sorted := SortGroups(g);
    var r := GetContext(perms, w, extras);
    assert a in sorted && k in sorted[a].models && r[a].models[k] == sorted[a].models[k] by {
      if extras.Some? && a in extras.value {
        var target := if a in sorted then sorted[a] else AppGroup(extras.value[a].name, map[]);
        assert r[a].models == MergeModels(target.models, extras.value[a].models);
      }
    }
  }

  /** Every permission of the query result ends up in its model group. */
  lemma PermissionPlaced(perms: seq<Permission>, w: WidgetInput, p: Permission)
    requires p in perms
    ensures var g := SortGroups(GroupPermissions(perms, w));
      && p.appLabel in g && ModelKey(p) in g[p.appLabel].models
      && MakeOption(p, w) in g[p.appLabel].models[ModelKey(p)].permissions
  {
    var g0 := GroupPermissions(perms, w);
    PermissionGrouped(perms, w, p);
    SortingKeepsOption(g0, p.appLabel, ModelKey(p), MakeOption(p, w));
  }

  lemma PermissionGrouped(perms: seq<Permission>, w: WidgetInput, p: Permission)
    requires p in perms
    ensures var g := GroupPermissions(perms, w);
      && p.appLabel in g && ModelKey(p) in g[p.appLabel].models
      && MakeOption(p, w) in g[p.appLabel].models[ModelKey(p)].permissions
  {
    var a, key := p.appLabel, ModelKey(p);
    var g0 := GroupPermissions(perms, w);
    MatchingHolds(perms, p);
    var ms := Matching(perms, a, key);
    KeysHaveMatches(perms, a, key);
    assert a in g0 && key in g0[a].models;
    assert ModelGroupFrom(g0[a].models[key], ms, w);
    var i :| 0 <= i < |ms| && ms[i] == p;
    assert Options(ms, w)[i] == MakeOption(p, w);
  }

  lemma SortingKeepsOption(g: Grouped, a: string, k: string, o: PermOption)
    requires a in g && k in g[a].models && o in g[a].models[k].permissions
    ensures var r := SortGroups(g);
      a in r && k in r[a].models && o in r[a].models[k].permissions
  {
    var os := g[a].models[k].permissions;
    assert multiset(SortByAction(os))[o] == multiset(os)[o] > 0;
  }

  /** Merging extra groups never drops an option already in a model group. */
  lemma OptionSurvivesMerge(g: Grouped, extras: Grouped, s: Table, a: string, k: string, o: PermOption)
    requires a in g && k in g[a].models && o in g[a].models[k].permissions
    ensures var r := MergeExtras(g, extras, s);
      a in r && k in r[a].models && o in r[a].models[k].permissions
  {
    var r := MergeExtras(g, extras, s);
    var before := g[a].models[k].permissions;
    if a in extras && k in extras[a].models {
      ExtraOptionsPresent(g, extras, s, a, k);
      var after := r[a].models[k].permissions;
      var i :| 0 <= i < |before| && before[i] == o;
      assert after[..|before|][i] == o;
    } else if a in extras {
      assert r[a].models == MergeModels(g[a].models, extras[a].models);
    }
  }

  /** Every permission of the query result is offered in its model group of
      the context, whether or not extra options were merged into that group. */
  lemma PermissionInContext(perms: seq<Permission>, w: WidgetInput, extras: Option<Grouped>, p: Permission)
    requires p in perms
    ensures var r := GetContext(perms, w, extras);
      && p.appLabel in r && ModelKey(p) in r[p.appLabel].models
      && MakeOption(p, w) in r[p.appLabel].models[ModelKey(p)].permissions
  {
    var g := SortGroups(GroupPermissions(perms, w));
    PermissionPlaced(perms, w, p);
    if extras.None? {
      ContextWithoutExtras(perms, w);
    } else {
      ContextWithExtras(perms, w, extras.value);
      OptionSurvivesMerge(g, extras.value, w.strings, p.appLabel, ModelKey(p), MakeOption(p, w));
    }
  }

  lemma ContextWithoutExtras(perms: seq<Permission>, w: WidgetInput)
    ensures GetContext(perms, w, None) == SortGroups(GroupPermissions(perms, w))
  {
  }

  lemma ContextWithExtras(perms: seq<Permission>, w: WidgetInput, extras: Grouped)
    ensures GetContext(perms, w, Some(extras)) == MergeExtras(SortGroups(GroupPermissions(perms, w)), extras, w.strings)
  {
  }

  /** The older widget of users/forms.py: one checkbox per permission,
      labelled with the permission's Arabic display name. */
  datatype LegacyOption = LegacyOption(value: int, caption: string, selected: bool, id: string, action: Action)

  function LegacyOptionOf(p: Permission, w: WidgetInput): LegacyOption {
    LegacyOption(p.pk, PermissionLabel.CustomPermissionStr(p.name), IsSelected(p.pk, w.value),
                 Get(w.attrs, "id", "id_permissions") + "_" + IntToString(p.pk), Classify(p.codename))
  }

  /** One application of the older widget: the action buckets, listed in
      rank order. */
  datatype LegacyApp = LegacyApp(name: string, actions: seq<(Action, seq<LegacyOption>)>)

  /** The legacy application heading: the registry's verbose name, else the
      title-cased label. */
  function LegacyAppName(appLabel: string, w: WidgetInput): string {
    if appLabel in w.appNames then w.appNames[appLabel] else Title(appLabel)
  }

  /** An application's options with one action, in query order. */
  function LegacyBucket(perms: seq<Permission>, app: string, a: Action, w: WidgetInput): (r: seq<LegacyOption>)
    ensures forall o :: o in r ==> o.action == a
  {
    if perms == [] then []
    else
      var last := perms[|perms| - 1];
      LegacyBucket(perms[..|perms| - 1], app, a, w) +
        (if last.appLabel == app && Classify(last.codename) == a then [LegacyOptionOf(last, w)] else [])
  }

  lemma {:induction false} LegacyBucketHolds(perms: seq<Permission>, app: string, w: WidgetInput, p: Permission)
    requires p in perms && p.appLabel == app
    ensures LegacyOptionOf(p, w) in LegacyBucket(perms, app, Classify(p.codename), w)
    decreases |perms|
  {
    var init := perms[..|perms| - 1];
    assert perms == init + [perms[|perms| - 1]];
    if p != perms[|perms| - 1] {
      LegacyBucketHolds(init, app, w, p);
    }
  }

  /** The non-empty buckets among `acts`, in that order: what they hold is
      stated by `LegacyActionsBuckets`, their order by `LegacyActionsRanked`,
      and that none is missed by `LegacyActionsComplete`. */
  function LegacyActions(perms: seq<Permission>, app: string, acts: seq<Action>, w: WidgetInput): (r: seq<(Action, seq<LegacyOption>)>)
    ensures |r| <= |acts|
  {
    if acts == [] then []
    else
      var rest := LegacyActions(perms, app, acts[1..], w);
      var b := LegacyBucket(perms, app, acts[0], w);
      if b == [] then rest else [(acts[0], b)] + rest
  }

  predicate BucketsOf(r: seq<(Action, seq<LegacyOption>)>, perms: seq<Permission>, app: string, acts: seq<Action>, w: WidgetInput) {
    forall i :: 0 <= i < |r| ==> r[i].0 in acts && r[i].1 == LegacyBucket(perms, app, r[i].0, w) && r[i].1 != []
  }

  /** Every listed bucket is the non-empty bucket of one of the actions. */
  lemma {:induction false} LegacyActionsBuckets(perms: seq<Permission>, app: string, acts: seq<Action>, w: WidgetInput)
    ensures BucketsOf(LegacyActions(perms, app, acts, w), perms, app, acts, w)
    decreases |acts|
  {
    if acts != [] {
      LegacyActionsBuckets(perms, app, acts[1..], w);
      var rest := LegacyActions(perms, app, acts[1..], w);
      var b := LegacyBucket(perms, app, acts[0], w);
      assert forall x :: x in acts[1..] ==> x in acts;
      if b == [] {
        assert LegacyActions(perms, app, acts, w) == rest;
      } else {
        var r := [(acts[0], b)] + rest;
        assert LegacyActions(perms, app, acts, w) == r;
        forall i | 0 < i < |r|
          ensures r[i].0 in acts && r[i].1 == LegacyBucket(perms, app, r[i].0, w) && r[i].1 != []
        {
          assert r[i] == rest[i - 1];
        }
      }
    }
  }

  predicate Lists(r: seq<(Action, seq<LegacyOption>)>, a: Action) {
    exists i :: 0 <= i < |r| && r[i].0 == a
  }

  /** Listing is kept when a bucket is put in front. */
  lemma ListsInFront(x: (Action, seq<LegacyOption>), rest: seq<(Action, seq<LegacyOption>)>, a: Action)
    requires Lists(rest, a) || x.0 == a
    ensures Lists([x] + rest, a)
  {
    if x.0 == a {
      assert ([x] + rest)[0].0 == a;
    } else {
      var i :| 0 <= i < |rest| && rest[i].0 == a;
      assert ([x] + rest)[i + 1] == rest[i];
    }
  }

  /** Every non-empty bucket is listed. */
  lemma {:induction false} LegacyActionsComplete(perms: seq<Permission>, app: string, acts: seq<Action>, w: WidgetInput, a: Action)
    requires a in acts && LegacyBucket(perms, app, a, w) != []
    ensures Lists(LegacyActions(perms, app, acts, w), a)
    decreases |acts|
  {
    var rest := LegacyActions(perms, app, acts[1..], w);
    var b := LegacyBucket(perms, app, acts[0], w);
    if a != acts[0] {
      assert a in acts[1..];
      LegacyActionsComplete(perms, app, acts[1..], w, a);
    }
    if b != [] {
      ListsInFront((acts[0], b), rest, a);
    }
  }

  /** The older widget's grouping: application, then action bucket, the
      buckets reordered view, add, change, delete, other. */
  function LegacyGroups(perms: seq<Permission>, w: WidgetInput): (r: map<string, LegacyApp>)
    ensures r.Keys == set p | p in perms :: p.appLabel
    ensures forall a :: a in r ==> r[a].name == LegacyAppName(a, w)
    ensures forall a :: a in r ==> r[a].actions == LegacyActions(perms, a, ACTION_ORDER, w)
    ensures forall a :: a in r ==> RankedBuckets(r[a].actions)
  {
    ActionOrderRanks();
    forall a {
      LegacyActionsRanked(perms, a, ACTION_ORDER, w);
    }
    map a | a in (set p | p in perms :: p.appLabel) :: LegacyApp(LegacyAppName(a, w), LegacyActions(perms, a, ACTION_ORDER, w))
  }

  predicate RankedBuckets(r: seq<(Action, seq<LegacyOption>)>) {
    forall i, j :: 0 <= i < j < |r| ==> Rank(r[i].0) < Rank(r[j].0)
  }

  /** The legacy buckets come in rank order. */
  lemma {:induction false} LegacyActionsRanked(perms: seq<Permission>, app: string, acts: seq<Action>, w: WidgetInput)
    requires forall i, j :: 0 <= i < j < |acts| ==> Rank(acts[i]) < Rank(acts[j])
    ensures RankedBuckets(LegacyActions(perms, app, acts, w))
    decreases |acts|
  {
    if acts != [] {
      var tailActs := acts[1..];
      assert forall i, j :: 0 <= i < j < |tailActs| ==> Rank(tailActs[i]) < Rank(tailActs[j]) by {
        forall i, j | 0 <= i < j < |tailActs|
          ensures Rank(tailActs[i]) < Rank(tailActs[j])
        {
          assert tailActs[i] == acts[i + 1] && tailActs[j] == acts[j + 1];
        }
      }
      LegacyActionsRanked(perms, app, tailActs, w);
      LegacyActionsBuckets(perms, app, tailActs, w);
      var rest := LegacyActions(perms, app, tailActs, w);
      var b := LegacyBucket(perms, app, acts[0], w);
      if b != [] {
        forall i | 0 <= i < |rest|
          ensures Rank(rest[i].0) > Rank(acts[0])
        {
          var k :| 0 <= k < |tailActs| && tailActs[k] == rest[i].0;
          assert acts[k + 1] == rest[i].0;
        }
        BucketsRankedCons((acts[0], b), rest);
      }
    }
  }

  /** A bucket ranked below every bucket of a ranked list heads it. */
  lemma BucketsRankedCons(head: (Action, seq<LegacyOption>), rest: seq<(Action, seq<LegacyOption>)>)
    requires RankedBuckets(rest)
    requires forall i :: 0 <= i < |rest| ==> Rank(rest[i].0) > Rank(head.0)
    ensures RankedBuckets([head] + rest)
  {
    var r := [head] + rest;
    forall i, j | 0 <= i < j < |r|
      ensures Rank(r[i].0) < Rank(r[j].0)
    {
      assert r[j] == rest[j - 1];
      if i > 0 {
        assert r[i] == rest[i - 1];
      }
    }
  }

  /** Every permission of the legacy query result is listed under its
      application and action. */
  lemma LegacyPermissionPlaced(perms: seq<Permission>, w: WidgetInput, p: Permission)
    requires p in perms
    ensures p.appLabel in LegacyGroups(perms, w)
    ensures var acts := LegacyGroups(perms, w)[p.appLabel].actions;
      exists i :: 0 <= i < |acts| && acts[i].0 == Classify(p.codename) && LegacyOptionOf(p, w) in acts[i].1
  {
    var a := Classify(p.codename);
    ActionOrderRanks();
    assert a == ACTION_ORDER[Rank(a) - 1];
    LegacyBucketHolds(perms, p.appLabel, w, p);
    LegacyActionsComplete(perms, p.appLabel, ACTION_ORDER, w, a);
    LegacyActionsBuckets(perms, p.appLabel, ACTION_ORDER, w);
  }

  /** The profile scope the user forms save: a scoped, non-superuser actor
      imposes their own scope; otherwise the form's choice is kept. */
  function SavedScope(actor: Option<Models.User>, cleaned: Option<nat>): (r: Option<nat>)
    ensures actor.Some? && !actor.value.isSuperuser && Models.ProfileScope(actor.value).Some? ==>
      r == Models.ProfileScope(actor.value)
    ensures actor.None? || actor.value.isSuperuser || Models.ProfileScope(actor.value).None? ==> r == cleaned
  {
    if actor.Some? && !actor.value.isSuperuser && Models.ProfileScope(actor.value).Some?
    then Models.ProfileScope(actor.value) else cleaned
  }

  /** The form's scope field is ignored exactly for a scoped staff member
      who is not a superuser: every choice saves the same scope, their own. */
  lemma ScopedActorCannotLeaveScope(actor: Models.User)
    ensures (!actor.isSuperuser && Models.ProfileScope(actor).Some?) <==>
      forall c1, c2 :: SavedScope(Some(actor), c1) == SavedScope(Some(actor), c2)
  {
    if actor.isSuperuser || Models.ProfileScope(actor).None? {
      assert SavedScope(Some(actor), None) != SavedScope(Some(actor), Some(0));
    }
  }
}

=== FILE: signals.dfy ===
/** The activity-log capture engine (microsys/signals.py): the pre-save
    snapshot, the post-save handler that classifies the write, diffs the
    fields, folds user and profile writes of the same second into one entry and
    hands the rest to `safe_log`, and the post-delete and login/logout handlers.
    The acting user and the current request, which the source reads from
    thread-local state, are explicit parameters here. */
module Signals {
  import opened Wrappers
  import opened Text
  import opened JsonData
  import opened Values
  import opened Models
  import opened ActivityLog

  /** The request metadata the handlers read (`request.META`). */
  datatype Request = Request(meta: map<string, string>)

  /** `get_client_ip`: the first address of `X-Forwarded-For` when that header
      is non-empty, else `REMOTE_ADDR`; nothing without a request. */
  function ClientIp(request: Option<Request>): (r: Option<string>)
    ensures request.None? ==> r.None?
    ensures request.Some? && Get(request.value.meta, "HTTP_X_FORWARDED_FOR", "") != "" ==>
      var xff := request.value.meta["HTTP_X_FORWARDED_FOR"];
      r.Some? && |r.value| <= |xff| && r.value == xff[..|r.value|] && ',' !in r.value
      && (|r.value| == |xff| || xff[|r.value|] == ',')
    ensures request.Some? && Get(request.value.meta, "HTTP_X_FORWARDED_FOR", "") == "" ==>
      (r.Some? <==> "REMOTE_ADDR" in request.value.meta)
      && (r.Some? ==> r.value == request.value.meta["REMOTE_ADDR"])
  {
    if request.None? then None
    else
      var meta := request.value.meta;
      var xff := Get(meta, "HTTP_X_FORWARDED_FOR", "");
      if xff != "" then Some(BeforeFirst(xff, ','))
      else if "REMOTE_ADDR" in meta then Some(meta["REMOTE_ADDR"])
      else None
  }

  /** `request.META.get("HTTP_USER_AGENT", "")`, or `""` without a request. */
  function UserAgent(request: Option<Request>): string {
    if request.Some? then Get(request.value.meta, "HTTP_USER_AGENT", "") else ""
  }

  /** The sender of a save or delete notification. */
  datatype ModelClass =
    | ActivityLogModel
    | UserModel
    | ProfileModel
    /** Any other model, by module path and verbose name. */
    | OtherModel(path: string, verboseName: string)

  /** Models never logged. */
  const EXCLUDED_MODELS: set<string> := {"django.contrib.sessions.models.Session"}

  predicate Excluded(sender: ModelClass) {
    sender.OtherModel? && sender.path in EXCLUDED_MODELS
  }

  /** State attached by the pre-save handler: prior field values and whether the
      stored row was not soft-deleted. */
  datatype Snapshot = Snapshot(original: map<string, Value>, wasNotDeleted: bool)

  /** A record instance passing through the save/delete notifications. */
  datatype Instance = Instance(
    pk: Value,
    /** `user_id` of a profile; unused for other models. */
    userId: Value,
    /** The concrete field names in declaration order. */
    fieldNames: seq<string>,
    /** Readable attributes; a field name absent here raises on access. */
    values: map<string, Value>,
    skipSignalLogging: bool,
    /** `str(instance)`, `None` when `__str__` raises `TypeError`. */
    text: Option<string>,
    /** `getattr(instance, 'scope', None)`. */
    scope: Option<nat>,
    /** `instance.profile.scope` for a user that has a profile. */
    profileScope: Option<nat>,
    snapshot: Option<Snapshot>)

  /** `getattr(instance, name, None)`. */
  function Attr(inst: Instance, name: string): Value {
    Get(inst.values, name, Null)
  }

  /** `capture_original_state`: for an instance with a truthy key whose row is
      still stored (`stored`), remember every readable prior field value and
      whether the row's `deleted_at` was `None`. */
  function CaptureOriginalState(sender: ModelClass, inst: Instance, stored: Option<map<string, Value>>): (r: Instance)
    ensures sender.ActivityLogModel? || !Values.Truthy(inst.pk) || stored.None? ==> r == inst
    ensures !(sender.ActivityLogModel? || !Values.Truthy(inst.pk) || stored.None?) ==>
      && r == inst.(snapshot := r.snapshot)
      && r.snapshot.Some?
      && (forall f :: f in r.snapshot.value.original <==> f in inst.fieldNames && f in stored.value)
      && (forall f :: f in r.snapshot.value.original ==> r.snapshot.value.original[f] == stored.value[f])
      && (r.snapshot.value.wasNotDeleted <==> Get(stored.value, "deleted_at", Null) == Null)
  {
    if sender.ActivityLogModel? || !Values.Truthy(inst.pk) || stored.None? then inst
    else
      var row := stored.value;
      var original := map f | f in inst.fieldNames && f in row :: row[f];
      inst.(snapshot := Some(Snapshot(original, Get(row, "deleted_at", Null) == Null)))
  }

  /** Bookkeeping fields never diffed. */
  const VOLATILE_FIELDS: set<string> := {"last_login", "date_joined", "updated_at", "modified_at"}

  /** Fields whose values are replaced by the mask in a diff. */
  const MASKED_FIELDS: set<string> := {"password", "backup_codes"}

  /** Fields left out of the initial-state capture of a created user or profile. */
  const CREATION_SKIPPED_FIELDS: set<string> :=
    {"password", "last_login", "date_joined", "updated_at", "modified_at", "deleted_at", "preferences"}

  const MASK := "********"

  /** `{'old': old, 'new': new}`. */
  function Change(before: Json, after: Json): Json {
    JObj(map["old" := before, "new" := after])
  }

  function MaskedChange(): Json {
    Change(JStr(MASK), JStr(MASK))
  }

  /** A field whose new value differs from its prior one (`None` when unrecorded). */
  predicate Changed(values: map<string, Value>, original: map<string, Value>, f: string)
    requires f in values
  {
    !PyEq(values[f], Get(original, f, Null))
  }

  /** The diff of an update: one `{old, new}` pair of `str()` renderings per
      changed, readable, non-volatile field; masked for the sensitive fields. */
  function Diff(names: seq<string>, values: map<string, Value>, original: map<string, Value>): (d: map<string, Json>)
    ensures forall f :: f in d <==>
      (f in names && f !in VOLATILE_FIELDS && f in values && Changed(values, original, f))
    ensures forall f :: f in d && f in MASKED_FIELDS ==> d[f] == MaskedChange()
    ensures forall f :: f in d && f !in MASKED_FIELDS ==>
      d[f] == Change(JStr(Display(Get(original, f, Null))), JStr(Display(values[f])))
  {
    if names == [] then map[]
    else
      var f := names[|names| - 1];
      var d := Diff(names[..|names| - 1], values, original);
      assert names == names[..|names| - 1] + [f];
      if f in VOLATILE_FIELDS || f !in values || !Changed(values, original, f) then d
      else if f in MASKED_FIELDS then d[f := MaskedChange()]
      else d[f := Change(JStr(Display(Get(original, f, Null))), JStr(Display(values[f])))]
  }

  /** No sensitive value ever appears in an update diff. */
  lemma {:induction false} DiffNeverShowsSecrets(names: seq<string>, values: map<string, Value>, original: map<string, Value>, f: string)
    requires f in MASKED_FIELDS
    requires f in Diff(names, values, original)
    ensures Diff(names, values, original)[f] == JObj(map["old" := JStr("********"), "new" := JStr("********")])
  {
  }

  /** The initial state of a created user or profile: `{old: None, new: str(v)}`
      for each field outside the skipped set whose value is neither `None` nor
      `''`; `None` when a field cannot be read (the handler then raises). */
  function CreationDump(names: seq<string>, values: map<string, Value>): (r: Option<map<string, Json>>)
    ensures r.None? <==> exists f :: f in names && f !in CREATION_SKIPPED_FIELDS && f !in values
    ensures r.Some? ==> forall f :: f in r.value <==>
      (f in names && f !in CREATION_SKIPPED_FIELDS && values[f] != Null && values[f] != Str(""))
    ensures r.Some? ==> forall f :: f in r.value ==> r.value[f] == Change(JNull, JStr(Display(values[f])))
  {
    if names == [] then Some(map[])
    else
      var f := names[|names| - 1];
      var d := CreationDump(names[..|names| - 1], values);
      assert names == names[..|names| - 1] + [f];
      if d.None? then None
      else if f in CREATION_SKIPPED_FIELDS then d
      else if f !in values then None
      else if values[f] == Null || values[f] == Str("") then d
      else Some(d.value[f := Change(JNull, JStr(Display(values[f])))])
  }

  /** Only `password` is kept out of the initial-state capture: a created
      profile's `backup_codes` are recorded with their real value. */
  lemma CreationDumpRecordsBackupCodes()
    ensures var values := map["backup_codes" := Composite("['123456']", 1)];
      CreationDump(["backup_codes"], values) == Some(map["backup_codes" := Change(JNull, JStr("['123456']"))])
  {
  }

  /** The result of a notification handler. */
  datatype Outcome =
    | Done(store: Store)
    /** The handler raised (an unreadable field or key), writing nothing. */
    | Raised

  /** The saves the post-save handler ignores before looking at the instance. */
  predicate SaveSkipped(sender: ModelClass, inst: Instance, updateFields: Option<set<string>>, actor: Option<User>) {
    || sender.ActivityLogModel?
    || Excluded(sender)
    || inst.skipSignalLogging
    || actor.None? || !actor.value.isAuthenticated
    || updateFields == Some({"last_login"})
    || (sender.ProfileModel? && updateFields == Some({"preferences"}))
  }

  /** A soft delete: the stored row had no `deleted_at` and the saved one has a truthy one. */
  predicate SoftDeleted(inst: Instance) {
    inst.snapshot.Some? && inst.snapshot.value.wasNotDeleted && Values.Truthy(Attr(inst, "deleted_at"))
  }

  /** The action recorded for a save. */
  function SaveAction(inst: Instance, created: bool): (a: string)
    ensures a == CREATE <==> created
    ensures a == DELETE <==> !created && SoftDeleted(inst)
    ensures a == UPDATE <==> !created && !SoftDeleted(inst)
  {
    if created then CREATE else if SoftDeleted(inst) then DELETE else UPDATE
  }

  /** Logical model name and object id of a written or deleted record; `None`
      when the key of a user (or the user key of a profile) is not an integer. */
  datatype Target = Target(isUserEntry: bool, modelName: string, objectId: Option<int>)

  function TargetOf(sender: ModelClass, inst: Instance): (r: Option<Target>)
    ensures sender.UserModel? ==> r.Some? == IntOf(inst.pk).Some?
    ensures sender.ProfileModel? ==> r.Some? == IntOf(inst.userId).Some?
    ensures r.Some? && (sender.UserModel? || sender.ProfileModel?) ==>
      r.value.isUserEntry && r.value.modelName == USER_PROFILE
    ensures r.Some? && sender.UserModel? ==> r.value.objectId == IntOf(inst.pk)
    ensures r.Some? && sender.ProfileModel? ==> r.value.objectId == IntOf(inst.userId)
    ensures sender.OtherModel? ==> r == Some(Target(false, sender.verboseName, IntOf(inst.pk)))
  {
    match sender
    case UserModel => if IntOf(inst.pk).None? then None else Some(Target(true, USER_PROFILE, IntOf(inst.pk)))
    case ProfileModel => if IntOf(inst.userId).None? then None else Some(Target(true, USER_PROFILE, IntOf(inst.userId)))
    case OtherModel(_, verboseName) => Some(Target(false, verboseName, IntOf(inst.pk)))
    case ActivityLogModel => None
  }

  /** The same-second lookup for a user/profile target: an entry by the same
      actor for the same user, created in the current wall-clock second. */
  predicate SameSecondEntry(e: Entry, actor: User, objectId: Option<int>, now: nat) {
    && e.user == Some(actor.id)
    && e.modelName == Some(USER_PROFILE)
    && e.objectId == objectId
    && e.timestamp >= SecondStart(now)
  }

  /** Folding a payload into an existing entry: new keys win, a creation
      promotes the entry to CREATE, everything else is kept. */
  function MergeInto(e: Entry, details: map<string, Json>, action: string): (m: Entry)
    ensures m.details.Keys == e.details.Keys + details.Keys
    ensures forall k :: k in details ==> m.details[k] == details[k]
    ensures forall k :: k in e.details && k !in details ==> m.details[k] == e.details[k]
    ensures m.action == (if action == CREATE then CREATE else e.action)
    ensures m == e.(details := m.details, action := m.action)
  {
    e.(details := e.details + details, action := if action == CREATE then CREATE else e.action)
  }

  /** `str(instance)`, or `str(instance.pk)` when `__str__` raises `TypeError`. */
  function ObjText(inst: Instance): string {
    if inst.text.Some? then inst.text.value else Display(inst.pk)
  }

  /** `obj_str[:50] if obj_str else None`: the first 50 characters of the
      record's text, and nothing for an empty text. */
  function NumberOf(inst: Instance): (r: Option<string>)
    ensures r.None? <==> ObjText(inst) == []
    ensures r.Some? ==> |r.value| == (if |ObjText(inst)| < 50 then |ObjText(inst)| else 50)
    ensures r.Some? ==> r.value == ObjText(inst)[..|r.value|]
  {
    var s := ObjText(inst);
    if s == [] then None else Some(if |s| <= 50 then s else s[..50])
  }

  /** The scope passed to `safe_log` by the save handler; a helper of
      `LogSave`, whose appended entry `LogSaveNewEntry` describes. */
  function SaveScope(sender: ModelClass, inst: Instance, isUserEntry: bool): Option<nat> {
    if inst.scope.None? && isUserEntry && sender.UserModel? then inst.profileScope else inst.scope
  }

  /** The payload of a save: the diff of an update, the initial state of a
      created user or profile, nothing otherwise. */
  function SaveDetails(sender: ModelClass, inst: Instance, created: bool, isUserEntry: bool): (r: Option<map<string, Json>>)
    ensures !created && !SoftDeleted(inst) && inst.snapshot.Some? ==>
      r == Some(Diff(inst.fieldNames, inst.values, inst.snapshot.value.original))
    ensures created && isUserEntry ==> r == CreationDump(inst.fieldNames, inst.values)
    ensures (created && !isUserEntry) || (!created && SoftDeleted(inst)) || (!created && inst.snapshot.None?) ==>
      r == Some(map[])
  {
    if created then (if isUserEntry then CreationDump(inst.fieldNames, inst.values) else Some(map[]))
    else if !SoftDeleted(inst) && inst.snapshot.Some? then Some(Diff(inst.fieldNames, inst.values, inst.snapshot.value.original))
    else Some(map[])
  }

  /** The `safe_log` call of the save handler for target `t`. */
  function SaveRequest(sender: ModelClass, inst: Instance, created: bool, user: User, t: Target,
                       details: map<string, Json>, request: Option<Request>): LogRequest {
    LogRequest(Some(user), SaveAction(inst, created), Some(t.modelName), t.objectId, NumberOf(inst),
               Some(details), ClientIp(request), Some(UserAgent(request)), SaveScope(sender, inst, t.isUserEntry))
  }

  /** The deletions the post-delete handler ignores. */
  predicate DeleteSkipped(sender: ModelClass, actor: Option<User>) {
    sender.ActivityLogModel? || Excluded(sender) || actor.None? || !actor.value.isAuthenticated
  }

  /** The `safe_log` call of the delete handler for target `t`. */
  function DeleteRequest(inst: Instance, user: User, t: Target, request: Option<Request>): LogRequest {
    LogRequest(Some(user), DELETE, Some(t.modelName), t.objectId, NumberOf(inst),
               None, ClientIp(request), Some(UserAgent(request)), None)
  }

  /** `log_save`, the post-save handler. */
  function LogSave(store: Store, now: nat, sender: ModelClass, inst: Instance, created: bool,
                   updateFields: Option<set<string>>, actor: Option<User>, request: Option<Request>): (r: Outcome)
    ensures SaveSkipped(sender, inst, updateFields, actor) ==> r == Done(store)
    ensures !SaveSkipped(sender, inst, updateFields, actor) ==>
      (r.Raised? <==> TargetOf(sender, inst).None? ||
                      SaveDetails(sender, inst, created, TargetOf(sender, inst).value.isUserEntry).None?)
    ensures r.Done? ==> |store| <= |r.store| <= |store| + 1
    ensures r.Done? && |r.store| == |store| + 1 ==> r.store[..|store|] == store
  {
    if SaveSkipped(sender, inst, updateFields, actor) then Done(store)
    else
      var user := actor.value;
      var action := SaveAction(inst, created);
      var target := TargetOf(sender, inst);
      if target.None? then Raised
      else
        var t := target.value;
        var details := SaveDetails(sender, inst, created, t.isUserEntry);
        if details.None? then Raised
        else
          var recent := if t.isUserEntry then MostRecent(store, e => SameSecondEntry(e, user, t.objectId, now)) else None;
          if recent.Some? then
            var i := recent.value;
            Done(if details.value == map[] then store else store[i := MergeInto(store[i], details.value, action)])
          else
            Done(SafeLog(store, SaveRequest(sender, inst, created, user, t, details.value, request), now).0)
  }

  /** A save that adds no entry rewrites at most one earlier entry: the
      actor's same-second entry for the same user, into which the payload of
      the save is merged. */
  lemma {:induction false} LogSaveRewritesOnlyMergedEntry(store: Store, now: nat, sender: ModelClass, inst: Instance, created: bool,
                                                          updateFields: Option<set<string>>, actor: Option<User>,
                                                          request: Option<Request>, j: nat)
    requires LogSave(store, now, sender, inst, created, updateFields, actor, request).Done?
    requires |LogSave(store, now, sender, inst, created, updateFields, actor, request).store| == |store|
    requires j < |store| && LogSave(store, now, sender, inst, created, updateFields, actor, request).store[j] != store[j]
    ensures !SaveSkipped(sender, inst, updateFields, actor)
    ensures TargetOf(sender, inst).Some? && TargetOf(sender, inst).value.isUserEntry
    ensures SameSecondEntry(store[j], actor.value, TargetOf(sender, inst).value.objectId, now)
    ensures SaveDetails(sender, inst, created, true).Some?
    ensures var r := LogSave(store, now, sender, inst, created, updateFields, actor, request);
      && r.store[j] == MergeInto(store[j], SaveDetails(sender, inst, created, true).value, SaveAction(inst, created))
      && forall k :: 0 <= k < |store| && k != j ==> r.store[k] == store[k]
  {
    var r := LogSave(store, now, sender, inst, created, updateFields, actor, request);
    if SaveSkipped(sender, inst, updateFields, actor) {
      assert false;
    }
    var user := actor.value;
    var t := TargetOf(sender, inst).value;
    var details := SaveDetails(sender, inst, created, t.isUserEntry);
    var recent := if t.isUserEntry then MostRecent(store, e => SameSecondEntry(e, user, t.objectId, now)) else None;
    if recent.None? {
      assert false;
    }
    var i := recent.value;
    assert r.store == (if details.value == map[] then store else store[i := MergeInto(store[i], details.value, SaveAction(inst, created))]);
    assert i == j;
  }

  /** `log_delete`, the post-delete handler (hard deletes). */
  function LogDelete(store: Store, now: nat, sender: ModelClass, inst: Instance,
                     actor: Option<User>, request: Option<Request>): (r: Outcome)
    ensures DeleteSkipped(sender, actor) ==> r == Done(store)
    ensures !DeleteSkipped(sender, actor) ==> (r.Raised? <==> TargetOf(sender, inst).None?)
    ensures r.Done? ==> r.store == store || (|r.store| == |store| + 1 && r.store[..|store|] == store)
  {
    if DeleteSkipped(sender, actor) then Done(store)
    else
      var user := actor.value;
      var target := TargetOf(sender, inst);
      if target.None? then Raised
      else
        var t := target.value;
        var already := t.isUserEntry && FirstMatch(store, e => SameSecondEntry(e, user, t.objectId, now) && e.action == DELETE).Some?;
        if already then Done(store)
        else
          Done(SafeLog(store, DeleteRequest(inst, user, t, request), now).0)
  }

  /** When a save that is not skipped adds an entry: its target and payload
      are readable, no same-second entry of the actor exists for a user or
      profile target, and `safe_log` finds no duplicate of the request. */
  lemma {:induction false} LogSaveAppends(store: Store, now: nat, sender: ModelClass, inst: Instance, created: bool,
                                          updateFields: Option<set<string>>, user: User, request: Option<Request>)
    requires !SaveSkipped(sender, inst, updateFields, Some(user))
    requires TargetOf(sender, inst).Some?
    requires SaveDetails(sender, inst, created, TargetOf(sender, inst).value.isUserEntry).Some?
    ensures var t := TargetOf(sender, inst).value;
      var d := SaveDetails(sender, inst, created, t.isUserEntry).value;
      var r := LogSave(store, now, sender, inst, created, updateFields, Some(user), request);
      && r.Done?
      && (|r.store| == |store| + 1 <==>
            && (t.isUserEntry ==> forall i :: 0 <= i < |store| ==> !SameSecondEntry(store[i], user, t.objectId, now))
            && forall i :: 0 <= i < |store| ==> !IsDuplicate(store[i], SaveRequest(sender, inst, created, user, t, d, request), now))
  {
    var t := TargetOf(sender, inst).value;
    var d := SaveDetails(sender, inst, created, t.isUserEntry).value;
    var req := SaveRequest(sender, inst, created, user, t, d, request);
    var r := LogSave(store, now, sender, inst, created, updateFields, Some(user), request);
    var recent := if t.isUserEntry then MostRecent(store, e => SameSecondEntry(e, user, t.objectId, now)) else None;
    if recent.Some? {
      assert |r.store| == |store|;
      assert SameSecondEntry(store[recent.value], user, t.objectId, now);
    } else {
      assert r.store == SafeLog(store, req, now).0;
    }
  }

  /** When a deletion that is not skipped adds an entry: its target is
      readable, no same-second DELETE of the actor exists for a user or
      profile target, and `safe_log` finds no duplicate of the request. */
  lemma {:induction false} LogDeleteAppends(store: Store, now: nat, sender: ModelClass, inst: Instance,
                                            user: User, request: Option<Request>)
    requires !DeleteSkipped(sender, Some(user))
    requires TargetOf(sender, inst).Some?
    ensures var t := TargetOf(sender, inst).value;
      var r := LogDelete(store, now, sender, inst, Some(user), request);
      && r.Done?
      && (|r.store| == |store| + 1 <==>
            && (t.isUserEntry ==> forall i :: 0 <= i < |store| ==>
                  !(SameSecondEntry(store[i], user, t.objectId, now) && store[i].action == DELETE))
            && forall i :: 0 <= i < |store| ==> !IsDuplicate(store[i], DeleteRequest(inst, user, t, request), now))
  {
    var t := TargetOf(sender, inst).value;
    var req := DeleteRequest(inst, user, t, request);
    var r := LogDelete(store, now, sender, inst, Some(user), request);
    var p := e => SameSecondEntry(e, user, t.objectId, now) && e.action == DELETE;
    if t.isUserEntry && FirstMatch(store, p).Some? {
      assert p(store[FirstMatch(store, p).value]);
    } else {
      assert r.store == SafeLog(store, req, now).0;
    }
  }

  /** An authenticated create of an ordinary model, with no earlier entry,
      is logged. */
  lemma FirstCreateIsLogged(now: nat, name: string, verbose: string, inst: Instance, user: User, request: Option<Request>)
    requires user.isAuthenticated && !inst.skipSignalLogging
    requires !Excluded(OtherModel(name, verbose))
    ensures |LogSave([], now, OtherModel(name, verbose), inst, true, None, Some(user), request).store| == 1
  {
    LogSaveAppends([], now, OtherModel(name, verbose), inst, true, None, user, request);
  }

  /** `log_login` / `log_logout`: an entry written directly, without debounce.
      Django signals a logout with no user when nobody was logged in; the
      entry is still written, with no user. */
  function LogAuthEvent(store: Store, now: nat, action: string, user: Option<User>, request: Request): (r: Store)
    requires action == LOGIN || action == LOGOUT
    ensures |r| == |store| + 1 && r[..|store|] == store
    ensures var e := r[|store|];
      && (user.Some? ==> e.user == Some(user.value.id))
      && (user.None? ==> e.user.None?)
      && e.action == action && e.modelName == Some("auth")
      && e.objectId.None? && e.details == map[] && e.timestamp == now
      && e.ipAddress == ClientIp(Some(request))
      && e.userAgent == Some(Get(request.meta, "HTTP_USER_AGENT", ""))
      && e.number.None? && e.scope.None?
  {
    var id := if user.Some? then Some(user.value.id) else None;
    store + [Entry(id, action, Some("auth"), None, None, map[], ClientIp(Some(request)),
                   Some(Get(request.meta, "HTTP_USER_AGENT", "")), None, now)]
  }

  /** An entry appended by `log_save` records the actor, the action of the
      save (CREATE exactly for creations, DELETE exactly for soft deletes),
      the unified target, the payload of the save and the request metadata; for
      a user or profile it is appended only when no entry of the same second
      exists for that actor and user. */
  lemma {:induction false} LogSaveNewEntry(store: Store, now: nat, sender: ModelClass, inst: Instance, created: bool,
                                           updateFields: Option<set<string>>, actor: Option<User>, request: Option<Request>)
    requires LogSave(store, now, sender, inst, created, updateFields, actor, request).Done?
    requires |LogSave(store, now, sender, inst, created, updateFields, actor, request).store| == |store| + 1
    ensures !SaveSkipped(sender, inst, updateFields, actor)
    ensures var e := LogSave(store, now, sender, inst, created, updateFields, actor, request).store[|store|];
      && e.user == Some(actor.value.id)
      && e.timestamp == now
      && (e.action == CREATE <==> created)
      && (e.action == DELETE <==> !created && SoftDeleted(inst))
      && e.ipAddress == ClientIp(request)
      && e.userAgent == Some(UserAgent(request))
      && TargetOf(sender, inst).Some?
      && e.modelName == Some(TargetOf(sender, inst).value.modelName)
      && e.objectId == TargetOf(sender, inst).value.objectId
      && SaveDetails(sender, inst, created, TargetOf(sender, inst).value.isUserEntry).Some?
      && e.details == SaveDetails(sender, inst, created, TargetOf(sender, inst).value.isUserEntry).value
      && (TargetOf(sender, inst).value.isUserEntry ==>
            forall j :: 0 <= j < |store| ==> !SameSecondEntry(store[j], actor.value, e.objectId, now))
  {
    var r := LogSave(store, now, sender, inst, created, updateFields, actor, request);
    var user := actor.value;
    var t := TargetOf(sender, inst).value;
    var details := SaveDetails(sender, inst, created, t.isUserEntry);
    var recent := if t.isUserEntry then MostRecent(store, e => SameSecondEntry(e, user, t.objectId, now)) else None;
    if recent.Some? {
      assert false;
    }
    var req := SaveRequest(sender, inst, created, user, t, details.value, request);
    assert r.store == SafeLog(store, req, now).0;
    assert SafeLog(store, req, now).1.Some?;
  }

  /** User/profile unification: a save of a profile is logged against its
      user's key under the shared model name, like a save of the user. */
  lemma ProfileSaveLoggedAgainstUser(store: Store, now: nat, inst: Instance, created: bool,
                                     updateFields: Option<set<string>>, actor: Option<User>, request: Option<Request>)
    requires LogSave(store, now, ProfileModel, inst, created, updateFields, actor, request).Done?
    requires |LogSave(store, now, ProfileModel, inst, created, updateFields, actor, request).store| == |store| + 1
    ensures var e := LogSave(store, now, ProfileModel, inst, created, updateFields, actor, request).store[|store|];
      e.modelName == Some(USER_PROFILE) && e.objectId == IntOf(inst.userId) && e.objectId.Some?
  {
    LogSaveNewEntry(store, now, ProfileModel, inst, created, updateFields, actor, request);
  }

  /** Same-second merge: when the actor already has an entry for the same user
      in the current second, no entry is added; the most recent such entry
      absorbs a non-empty payload (and becomes CREATE for a creation), and
      every other entry is unchanged. */
  lemma {:induction false} SameSecondSaveIsMerged(store: Store, now: nat, sender: ModelClass, inst: Instance, created: bool,
                                                  updateFields: Option<set<string>>, user: User, request: Option<Request>, j: nat)
    requires !SaveSkipped(sender, inst, updateFields, Some(user))
    requires sender.UserModel? || sender.ProfileModel?
    requires TargetOf(sender, inst).Some?
    requires SaveDetails(sender, inst, created, true).Some?
    requires j < |store| && SameSecondEntry(store[j], user, TargetOf(sender, inst).value.objectId, now)
    ensures var r := LogSave(store, now, sender, inst, created, updateFields, Some(user), request);
      var d := SaveDetails(sender, inst, created, true).value;
      && r.Done? && |r.store| == |store|
      && exists i :: 0 <= i < |store| && SameSecondEntry(store[i], user, TargetOf(sender, inst).value.objectId, now)
           && r.store == (if d == map[] then store else store[i := MergeInto(store[i], d, SaveAction(inst, created))])
  {
    var t := TargetOf(sender, inst).value;
    var p := e => SameSecondEntry(e, user, t.objectId, now);
    assert p(store[j]);
    var recent := MostRecent(store, p);
    assert recent.Some?;
    var i := recent.value;
    assert SameSecondEntry(store[i], user, t.objectId, now);
  }

  /** A user update followed, in the same wall-clock second, by an update of
      that user's profile leaves one entry holding both payloads. */
  lemma {:induction false} UserThenProfileShareOneEntry(store: Store, t1: nat, t2: nat, userInst: Instance, profInst: Instance,
                                                        user: User, req1: Option<Request>, req2: Option<Request>)
    requires Chronological(store)
    requires forall i :: 0 <= i < |store| ==> store[i].timestamp <= t1
    requires t1 <= t2 && SecondStart(t2) == SecondStart(t1)
    requires LogSave(store, t1, UserModel, userInst, false, None, Some(user), req1).Done?
    requires |LogSave(store, t1, UserModel, userInst, false, None, Some(user), req1).store| == |store| + 1
    requires !profInst.skipSignalLogging
    requires IntOf(profInst.userId) == IntOf(userInst.pk)
    requires profInst.snapshot.Some? && !SoftDeleted(profInst)
    ensures var s1 := LogSave(store, t1, UserModel, userInst, false, None, Some(user), req1).store;
      var d2 := Diff(profInst.fieldNames, profInst.values, profInst.snapshot.value.original);
      var r := LogSave(s1, t2, ProfileModel, profInst, false, None, Some(user), req2);
      && r.Done? && |r.store| == |s1|
      && r.store[..|store|] == store
      && r.store[|store|].details.Keys == s1[|store|].details.Keys + d2.Keys
  {
    var s1 := LogSave(store, t1, UserModel, userInst, false, None, Some(user), req1).store;
    LogSaveNewEntry(store, t1, UserModel, userInst, false, None, Some(user), req1);
    assert s1[..|store|] == store;
    JoinLastEntry(store, s1, t1, t2, user, IntOf(userInst.pk), profInst, req2);
  }

  /** The second half: a profile update joins the entry last appended. */
  lemma JoinLastEntry(store: Store, s1: Store, t1: nat, t2: nat, user: User, objectId: Option<int>,
                      profInst: Instance, req2: Option<Request>)
    requires |s1| == |store| + 1 && s1[..|store|] == store
    requires forall i :: 0 <= i < |store| ==> store[i].timestamp <= t1
    requires t1 <= t2 && SecondStart(t2) == SecondStart(t1)
    requires s1[|store|].user == Some(user.id) && s1[|store|].timestamp == t1
    requires s1[|store|].modelName == Some(USER_PROFILE) && s1[|store|].objectId == objectId
    requires user.isAuthenticated && !profInst.skipSignalLogging
    requires objectId.Some? && IntOf(profInst.userId) == objectId
    requires profInst.snapshot.Some? && !SoftDeleted(profInst)
    ensures var d2 := Diff(profInst.fieldNames, profInst.values, profInst.snapshot.value.original);
      var r := LogSave(s1, t2, ProfileModel, profInst, false, None, Some(user), req2);
      && r.Done? && |r.store| == |s1|
      && r.store[..|store|] == store
      && r.store[|store|].details.Keys == s1[|store|].details.Keys + d2.Keys
  {
    var n := |store|;
    assert SameSecondEntry(s1[n], user, objectId, t2);
    forall j | 0 <= j < |s1| - 1
      ensures s1[j].timestamp <= s1[|s1| - 1].timestamp
    {
      assert s1[j] == store[j];
    }
    LatestIsLast(s1, user, objectId, t2);
    assert TargetOf(ProfileModel, profInst) == Some(Target(true, USER_PROFILE, objectId));
    UpdateMergesInto(s1, t2, ProfileModel, profInst, user, req2, n);
  }

  /** An update of a user or profile whose same-second lookup finds entry
      `i` folds its diff into that entry. */
  lemma UpdateMergesInto(s: Store, now: nat, sender: ModelClass, inst: Instance, user: User, request: Option<Request>, i: nat)
    requires !SaveSkipped(sender, inst, None, Some(user))
    requires TargetOf(sender, inst).Some? && TargetOf(sender, inst).value.isUserEntry
    requires inst.snapshot.Some? && !SoftDeleted(inst)
    requires MostRecent(s, e => SameSecondEntry(e, user, TargetOf(sender, inst).value.objectId, now)) == Some(i)
    ensures var d := Diff(inst.fieldNames, inst.values, inst.snapshot.value.original);
      LogSave(s, now, sender, inst, false, None, Some(user), request) ==
        Done(if d == map[] then s else s[i := MergeInto(s[i], d, UPDATE)])
  {
  }

  /** An entry of the same second that is not older than any other entry is
      the one a later save merges into. */
  lemma LatestIsLast(s: Store, user: User, objectId: Option<int>, now: nat)
    requires |s| > 0 && SameSecondEntry(s[|s| - 1], user, objectId, now)
    requires forall j :: 0 <= j < |s| - 1 ==> s[j].timestamp <= s[|s| - 1].timestamp
    ensures MostRecent(s, e => SameSecondEntry(e, user, objectId, now)) == Some(|s| - 1)
  {
    var p := e => SameSecondEntry(e, user, objectId, now);
    var before := MostRecent(s[..|s| - 1], p);
    if before.Some? {
      assert s[..|s| - 1][before.value] == s[before.value];
    }
  }

  /** A hard delete of a user or profile is recorded at most once per actor,
      user and second: an existing DELETE entry of the same second stops it. */
  lemma {:induction false} SameSecondDeleteIsSkipped(store: Store, now: nat, sender: ModelClass, inst: Instance,
                                                     user: User, request: Option<Request>, j: nat)
    requires user.isAuthenticated
    requires sender.UserModel? || sender.ProfileModel?
    requires TargetOf(sender, inst).Some?
    requires j < |store| && store[j].action == DELETE
    requires SameSecondEntry(store[j], user, TargetOf(sender, inst).value.objectId, now)
    ensures LogDelete(store, now, sender, inst, Some(user), request) == Done(store)
  {
    var t := TargetOf(sender, inst).value;
    var p := e => SameSecondEntry(e, user, t.objectId, now) && e.action == DELETE;
    assert p(store[j]);
  }

  /** An entry appended by `log_delete` is a DELETE with an empty payload
      against the unified target. */
  lemma {:induction false} LogDeleteNewEntry(store: Store, now: nat, sender: ModelClass, inst: Instance,
                                             actor: Option<User>, request: Option<Request>)
    requires LogDelete(store, now, sender, inst, actor, request).Done?
    requires |LogDelete(store, now, sender, inst, actor, request).store| == |store| + 1
    ensures actor.Some? && actor.value.isAuthenticated
    ensures var e := LogDelete(store, now, sender, inst, actor, request).store[|store|];
      && e.action == DELETE && e.details == map[] && e.user == Some(actor.value.id)
      && e.timestamp == now
      && TargetOf(sender, inst).Some?
      && e.modelName == Some(TargetOf(sender, inst).value.modelName)
      && e.objectId == TargetOf(sender, inst).value.objectId
      && e.scope == ProfileScope(actor.value)
  {
    var user := actor.value;
    var t := TargetOf(sender, inst).value;
    var req := DeleteRequest(inst, user, t, request);
    assert LogDelete(store, now, sender, inst, actor, request).store == SafeLog(store, req, now).0;
  }
}

=== FILE: tables.dfy ===
/** The user and activity-log tables (microsys/tables.py): the context-menu
    actions attached to each row and the translated rendering of the action
    and model-name cells. URLs are represented by the record key they point
    at; the permission filter applied to the menu afterwards is not part of
    this model. */
module Tables {
  import opened Wrappers
  import opened Text
  import Translations

  type Table = Translations.Table

  /** `translations or _get_default_strings()`. */
  function StringsOrDefault(given: Option<Table>, default: Table): (s: Table)
    ensures given.Some? && given.value != map[] ==> s == given.value
    ensures given.None? || given.value == map[] ==> s == default
  {
    if given.Some? && given.value != map[] then given.value else default
  }

  datatype ActionKind = ViewUser | EditUser | ResetPassword | SoftDeleteUser | ViewLog

  datatype MenuEntry =
    | Divider
    /** A menu action for the record with key `pk`; `dblclick` marks the
        action a double click on the row triggers. */
    | MenuAction(kind: ActionKind, caption: string, pk: int, dblclick: bool, danger: bool, name: string)

  /** The user row the menu is built for. */
  datatype UserRow = UserRow(pk: int, username: string, isSuperuser: bool, fullName: Option<string>)

  predicate IsAction(e: MenuEntry, k: ActionKind) {
    e.MenuAction? && e.kind == k
  }

  /** `get_user_actions` before permission filtering: view, divider, edit,
      reset password, then divider and delete unless the user is a superuser. */
  function UserActions(row: UserRow, s: Table): (r: seq<MenuEntry>)
    ensures |r| == if row.isSuperuser then 4 else 6
    ensures IsAction(r[0], ViewUser) && r[0].dblclick
    ensures forall i :: 1 <= i < |r| ==> !(r[i].MenuAction? && r[i].dblclick)
    ensures (exists i :: 0 <= i < |r| && IsAction(r[i], SoftDeleteUser)) <==> !row.isSuperuser
    ensures !row.isSuperuser ==> r[|r| - 2] == Divider && IsAction(r[|r| - 1], SoftDeleteUser) && r[|r| - 1].danger
    ensures forall i :: 0 <= i < |r| && r[i].MenuAction? ==> r[i].pk == row.pk
  {
    var base := [
      MenuAction(ViewUser, Get(s, "view_label", "عرض"), row.pk, true, false, ""),
      Divider,
      MenuAction(EditUser, Get(s, "edit_label", "تعديل"), row.pk, false, false, ""),
      MenuAction(ResetPassword, Get(s, "reset_password", "إعادة تعيين كلمة المرور"), row.pk, false, false, row.username)
    ];
    if row.isSuperuser then base
    else
      var name := if row.fullName.Some? && row.fullName.value != "" then row.fullName.value else row.username;
      var r := base + [Divider, MenuAction(SoftDeleteUser, Get(s, "delete_label", "حذف"), row.pk, false, true, name)];
      assert IsAction(r[5], SoftDeleteUser);
      r
  }

  /** The delete action names the user by full name when there is one,
      never by an empty name unless the username itself is empty. */
  lemma DeleteNamesTheUser(row: UserRow, s: Table)
    requires !row.isSuperuser
    ensures var r := UserActions(row, s);
      r[|r| - 1].name == if row.fullName.Some? && row.fullName.value != "" then row.fullName.value else row.username
  {
  }

  /** `get_log_actions`: the single view action. */
  function LogActions(pk: int, s: Table): (r: seq<MenuEntry>)
    ensures |r| == 1 && IsAction(r[0], ViewLog) && r[0].dblclick && r[0].pk == pk
  {
    [MenuAction(ViewLog, Get(s, "view_details", "عرض التفاصيل"), pk, true, false, "")]
  }

  /** `render_action`: `-` for an empty action, else the `action_<lower>`
      translation, else the action itself. */
  function RenderAction(action: string, s: Table): (r: string)
    ensures action == "" ==> r == "-"
    ensures action != "" && "action_" + Lower(action) in s ==> r == s["action_" + Lower(action)]
    ensures action != "" && "action_" + Lower(action) !in s ==> r == action
  {
    if action == "" then "-" else Get(s, "action_" + Lower(action), action)
  }

  /** Actions differing only in case render the same. */
  lemma RenderActionCaseInsensitive(a: string, b: string, s: Table)
    requires a != "" && Lower(a) == Lower(b)
    requires "action_" + Lower(a) in s
    ensures RenderAction(a, s) == RenderAction(b, s)
  {
  }

  /** The two keys `render_model_name` tries, in order. */
  function ModelNameKeys(value: string): seq<string> {
    ["model_" + ReplaceChar(Lower(value), '.', '_'), "model_" + Lower(AfterLast(value, '.'))]
  }

  /** `render_model_name`: `-` for an empty value, else the first of the
      two keys with a translation, else the value itself. */
  function RenderModelName(value: Option<string>, s: Table): (r: string)
    ensures value.None? || value.value == "" ==> r == "-"
    ensures value.Some? && value.value != "" ==>
      var keys := ModelNameKeys(value.value);
      && (keys[0] in s ==> r == s[keys[0]])
      && (keys[0] !in s && keys[1] in s ==> r == s[keys[1]])
      && (keys[0] !in s && keys[1] !in s ==> r == value.value)
  {
    if value.None? || value.value == "" then "-"
    else
      var keys := ModelNameKeys(value.value);
      if keys[0] in s then s[keys[0]]
      else if keys[1] in s then s[keys[1]]
      else value.value
  }

  /** For a name without a dot both keys are the same. */
  lemma UndottedNameHasOneKey(value: string)
    requires '.' !in value
    ensures ModelNameKeys(value)[0] == ModelNameKeys(value)[1]
  {
    assert AfterLast(value, '.') == value;
    assert forall i :: 0 <= i < |value| ==> Lower(value)[i] != '.';
    assert ReplaceChar(Lower(value), '.', '_') == Lower(value);
  }

  /** `app.Model` with only a `model_model` translation renders as that translation. */
  lemma DottedNameFallsBackToModel(app: string, model: string, s: Table)
    requires '.' !in model
    requires "model_" + Lower(model) in s
    requires "model_" + ReplaceChar(Lower(app + "." + model), '.', '_') !in s
    ensures RenderModelName(Some(app + "." + model), s) == s["model_" + Lower(model)]
  {
    var v := app + "." + model;
    assert AfterLast(v, '.') == model by {
      AfterLastOfSuffix(app, model);
    }
  }

  lemma {:induction false} AfterLastOfSuffix(prefix: string, tail: string)
    requires '.' !in tail
    ensures AfterLast(prefix + "." + tail, '.') == tail
    decreases |tail|
  {
    var v := prefix + "." + tail;
    if tail == [] {
      assert v[|v| - 1] == '.';
    } else {
      assert v[|v| - 1] == tail[|tail| - 1];
      assert v[..|v| - 1] == prefix + "." + tail[..|tail| - 1];
      AfterLastOfSuffix(prefix, tail[..|tail| - 1]);
    }
  }
}

=== FILE: text.dfy ===
/** The handful of Python `str` operations the modelled code relies on,
    written out over `seq<char>`. Case mapping covers the ASCII letters only:
    the texts the code lower-cases or title-cases are identifiers, codenames
    and Arabic or English labels (Arabic letters have no case). */
module Text {

  predicate IsDigit(c: char) {
    '0' <= c <= '9'
  }

  predicate IsUpper(c: char) {
    'A' <= c <= 'Z'
  }

  predicate IsLower(c: char) {
    'a' <= c <= 'z'
  }

  predicate IsLetter(c: char) {
    IsUpper(c) || IsLower(c)
  }

  /** The characters Python's `str.isspace` accepts, which `str.strip` removes. */
  predicate IsWhitespace(c: char) {
    || c == ' ' || c == '\t' || c == '\n' || c == '\r'
    || c == '\U{0B}' || c == '\U{0C}'
    || ('\U{1C}' <= c <= '\U{1F}')
    || c == '\U{85}' || c == '\U{A0}' || c == '\U{1680}'
    || ('\U{2000}' <= c <= '\U{200A}')
    || c == '\U{2028}' || c == '\U{2029}' || c == '\U{202F}' || c == '\U{205F}' || c == '\U{3000}'
  }

  function ToLowerChar(c: char): (d: char)
    ensures !IsUpper(d)
    ensures IsLetter(c) <==> IsLetter(d)
    ensures !IsUpper(c) ==> d == c
  {
    if IsUpper(c) then (c as int - 'A' as int + 'a' as int) as char else c
  }

  function ToUpperChar(c: char): (d: char)
    ensures !IsLower(d)
    ensures IsLetter(c) <==> IsLetter(d)
    ensures !IsLower(c) ==> d == c
  {
    if IsLower(c) then (c as int - 'a' as int + 'A' as int) as char else c
  }

  /** `str.lower()`. */
  function Lower(s: string): (r: string)
    ensures |r| == |s|
    ensures forall i :: 0 <= i < |s| ==> r[i] == ToLowerChar(s[i])
  {
    seq(|s|, i requires 0 <= i < |s| => ToLowerChar(s[i]))
  }

  lemma LowerIdempotent(s: string)
    ensures Lower(Lower(s)) == Lower(s)
  {
  }

  predicate StartsWith(s: string, prefix: string) {
    |prefix| <= |s| && s[..|prefix|] == prefix
  }

  predicate OccursAt(s: string, pat: string, i: int) {
    0 <= i <= |s| - |pat| && s[i..i + |pat|] == pat
  }

  /** `pat in s`. */
  predicate Contains(s: string, pat: string) {
    exists i | 0 <= i <= |s| - |pat| :: OccursAt(s, pat, i)
  }

  /** `str.lstrip()`. */
  function TrimStart(s: string): (r: string)
    ensures |r| <= |s| && r == s[|s| - |r|..]
    ensures r == [] || !IsWhitespace(r[0])
    ensures forall i :: 0 <= i < |s| - |r| ==> IsWhitespace(s[i])
  {
    if |s| > 0 && IsWhitespace(s[0]) then
      var r := TrimStart(s[1..]);
      assert s[1..][|s| - 1 - |r|..] == s[|s| - |r|..];
      assert forall i :: 1 <= i < |s| - |r| ==> s[i] == s[1..][i - 1];
      r
    else s
  }

  /** `str.rstrip()`. */
  function TrimEnd(s: string): (r: string)
    ensures |r| <= |s| && r == s[..|r|]
    ensures r == [] || !IsWhitespace(r[|r| - 1])
    ensures forall i :: |r| <= i < |s| ==> IsWhitespace(s[i])
  {
    if |s| > 0 && IsWhitespace(s[|s| - 1]) then
      var r := TrimEnd(s[..|s| - 1]);
      assert s[..|s| - 1][..|r|] == s[..|r|];
      assert forall i :: |r| <= i < |s| - 1 ==> s[i] == s[..|s| - 1][i];
      r
    else s
  }

  /** `s` neither starts nor ends with whitespace. */
  predicate Unpadded(s: string) {
    s == [] || (!IsWhitespace(s[0]) && !IsWhitespace(s[|s| - 1]))
  }

  /** Every character of `s` is whitespace. */
  predicate Blank(s: string) {
    forall i :: 0 <= i < |s| ==> IsWhitespace(s[i])
  }

  /** `r` is the slice of `s` starting at `a` with only whitespace around it. */
  predicate TrimmedAt(s: string, r: string, a: int) {
    && 0 <= a <= |s| - |r|
    && (forall i :: 0 <= i < |r| ==> r[i] == s[a + i])
    && (forall i :: 0 <= i < a ==> IsWhitespace(s[i]))
    && (forall i :: a + |r| <= i < |s| ==> IsWhitespace(s[i]))
  }

  /** `r` is `s` with the whitespace at both ends removed. */
  ghost predicate StripsTo(s: string, r: string) {
    && Unpadded(r)
    && exists a :: TrimmedAt(s, r, a)
  }

  /** A text strips to nothing exactly when it is all whitespace. */
  lemma StripsToEmpty(s: string, r: string)
    requires StripsTo(s, r)
    ensures r == [] <==> Blank(s)
  {
    var a :| TrimmedAt(s, r, a);
    if r != [] {
      assert s[a] == r[0];
    }
  }

  /** A text strips to one result only. */
  lemma StripsToUnique(s: string, r1: string, r2: string)
    requires StripsTo(s, r1) && StripsTo(s, r2)
    ensures r1 == r2
  {
    StripsToEmpty(s, r1);
    StripsToEmpty(s, r2);
    if r1 != [] && r2 != [] {
      var a1 :| TrimmedAt(s, r1, a1);
      var a2 :| TrimmedAt(s, r2, a2);
      assert s[a1] == r1[0] && s[a2] == r2[0];
      assert a1 == a2;
      assert s[a1 + |r1| - 1] == r1[|r1| - 1];
      assert s[a2 + |r2| - 1] == r2[|r2| - 1];
      assert |r1| == |r2|;
      assert forall i :: 0 <= i < |r1| ==> r1[i] == r2[i];
    }
  }

  /** `str.strip()`: drops whitespace at both ends, and only that. */
  function Strip(s: string): (r: string)
    ensures StripsTo(s, r)
    ensures |r| <= |s|
    ensures Unpadded(r)
    ensures Unpadded(s) ==> r == s
    ensures Blank(s) <==> r == []
  {
    var r := TrimEnd(TrimStart(s));
    TrimAllWhitespace(s);
    assert Blank(s) <==> r == [];
    TrimUnpadded(s);
    TrimmedBothEnds(s, r);
    r
  }

  lemma TrimUnpadded(s: string)
    ensures Unpadded(s) ==> TrimEnd(TrimStart(s)) == s
  {
    if Unpadded(s) {
      assert TrimStart(s) == s;
    }
  }

  lemma TrimAllWhitespace(s: string)
    ensures Blank(s) <==> TrimEnd(TrimStart(s)) == []
  {
  }

  lemma TrimmedBothEnds(s: string, r: string)
    requires r == TrimEnd(TrimStart(s))
    ensures Unpadded(r)
    ensures StripsTo(s, r)
  {
    TrimmedEnds(s, r);
    TrimmedSlice(s, r);
  }

  lemma TrimmedEnds(s: string, r: string)
    requires r == TrimEnd(TrimStart(s))
    ensures Unpadded(r)
  {
    var t := TrimStart(s);
    if r != [] {
      assert r[0] == t[0];
    }
  }

  lemma TrimmedSlice(s: string, r: string)
    requires r == TrimEnd(TrimStart(s))
    ensures TrimmedAt(s, r, |s| - |TrimStart(s)|)
  {
    var t := TrimStart(s);
    SliceOfTrimmed(s, t, r, |s| - |t|);
  }

  /** `r`, a prefix of the suffix `t` of `s` with only whitespace after it in
      `t`, sits in `s` at the start of `t`. */
  lemma SliceOfTrimmed(s: string, t: string, r: string, a: int)
    requires 0 <= a <= |s| && t == s[a..] && |r| <= |t| && r == t[..|r|]
    requires forall i :: 0 <= i < a ==> IsWhitespace(s[i])
    requires forall i :: |r| <= i < |t| ==> IsWhitespace(t[i])
    ensures TrimmedAt(s, r, a)
  {
    forall i | a + |r| <= i < |s|
      ensures IsWhitespace(s[i])
    {
      assert s[i] == t[i - a];
    }
  }

  /** `s.replace(pat, rep)`: non-overlapping occurrences, scanned left to right. */
  function ReplaceAll(s: string, pat: string, rep: string): (r: string)
    requires |pat| > 0
    decreases |s|
  {
    if |s| < |pat| then s
    else if s[..|pat|] == pat then rep + ReplaceAll(s[|pat|..], pat, rep)
    else [s[0]] + ReplaceAll(s[1..], pat, rep)
  }

  /** A text without the pattern is left unchanged by `replace`. */
  lemma {:induction false} ReplaceAllAbsent(s: string, pat: string, rep: string)
    requires |pat| > 0
    requires !Contains(s, pat)
    ensures ReplaceAll(s, pat, rep) == s
    decreases |s|
  {
    if |s| < |pat| {
    } else {
      assert !OccursAt(s, pat, 0);
      assert s[0..0 + |pat|] == s[..|pat|];
      assert !Contains(s[1..], pat) by {
        forall i | OccursAt(s[1..], pat, i)
          ensures OccursAt(s, pat, i + 1)
        {
          assert s[1..][i..i + |pat|] == s[i + 1..i + 1 + |pat|];
        }
      }
      ReplaceAllAbsent(s[1..], pat, rep);
    }
  }

  /** Replacing every occurrence of a single character by another one. */
  function ReplaceChar(s: string, c: char, d: char): (r: string)
    ensures |r| == |s|
    ensures forall i :: 0 <= i < |s| ==> r[i] == (if s[i] == c then d else s[i])
  {
    seq(|s|, i requires 0 <= i < |s| => if s[i] == c then d else s[i])
  }

  /** For a one-character pattern, `replace` is the character-wise substitution. */
  lemma {:induction false} ReplaceAllSingleChar(s: string, c: char, d: char)
    ensures ReplaceAll(s, [c], [d]) == ReplaceChar(s, c, d)
    decreases |s|
  {
    if |s| == 0 {
    } else {
      ReplaceAllSingleChar(s[1..], c, d);
      assert ReplaceChar(s, c, d) == [if s[0] == c then d else s[0]] + ReplaceChar(s[1..], c, d);
    }
  }

  /** `s.split(c)[0]`: the text before the first `c`, or all of `s`. */
  function BeforeFirst(s: string, c: char): (r: string)
    ensures |r| <= |s| && r == s[..|r|]
    ensures c !in r
    ensures |r| < |s| ==> s[|r|] == c
  {
    if s == [] then []
    else if s[0] == c then []
    else [s[0]] + BeforeFirst(s[1..], c)
  }

  /** `s.split(c)[-1]`: the text after the last `c`, or all of `s`. */
  function AfterLast(s: string, c: char): (r: string)
    ensures |r| <= |s| && r == s[|s| - |r|..]
    ensures c !in r
    ensures |r| < |s| ==> s[|s| - |r| - 1] == c
  {
    if s == [] then []
    else if s[|s| - 1] == c then []
    else AfterLast(s[..|s| - 1], c) + [s[|s| - 1]]
  }

  /** `s.rsplit(c, 1)` on a text that contains `c`: the parts around the last `c`. */
  function SplitLast(s: string, c: char): (r: (string, string))
    requires c in s
    ensures r.0 + [c] + r.1 == s
    ensures c !in r.1
  {
    var ext := AfterLast(s, c);
    var base := s[..|s| - |ext| - 1];
    assert base + [c] + ext == s;
    (base, ext)
  }

  function DigitChar(d: nat): (c: char)
    requires d < 10
    ensures IsDigit(c)
  {
    (('0' as int) + d) as char
  }

  /** `str(n)` for a natural number. */
  function NatToString(n: nat): (r: string)
    ensures |r| >= 1
    ensures forall i :: 0 <= i < |r| ==> IsDigit(r[i])
    ensures n >= 10 ==> |r| >= 2
  {
    if n < 10 then [DigitChar(n)] else NatToString(n / 10) + [DigitChar(n % 10)]
  }

  /** Distinct numbers have distinct decimal renderings. */
  lemma {:induction false} NatToStringInjective(a: nat, b: nat)
    requires NatToString(a) == NatToString(b)
    ensures a == b
  {
    if a >= 10 && b >= 10 {
      var sa, sb := NatToString(a), NatToString(b);
      assert sa[|sa| - 1] == DigitChar(a % 10) && sb[|sb| - 1] == DigitChar(b % 10);
      assert NatToString(a / 10) == sa[..|sa| - 1] == sb[..|sb| - 1] == NatToString(b / 10);
      NatToStringInjective(a / 10, b / 10);
    }
  }

  /** `str(i)` for an integer. */
  function IntToString(i: int): (r: string)
    ensures |r| >= 1
  {
    if i < 0 then "-" + NatToString(-i) else NatToString(i)
  }

  lemma IntToStringInjective(a: int, b: int)
    requires IntToString(a) == IntToString(b)
    ensures a == b
  {
    var sa, sb := IntToString(a), IntToString(b);
    // Only negative numbers start with a minus sign.
    assert a < 0 <==> sa[0] == '-';
    assert b < 0 <==> sb[0] == '-';
    if a < 0 {
      assert NatToString(-a) == sa[1..] == sb[1..] == NatToString(-b);
      NatToStringInjective(-a, -b);
    } else {
      NatToStringInjective(a, b);
    }
  }

  /** `str.title()`: a letter is upper-cased when the character before it is not
      a letter and lower-cased otherwise; other characters are kept. */
  function TitleFrom(s: string, afterLetter: bool): (r: string)
    ensures |r| == |s|
    ensures forall i :: 0 <= i < |s| ==> (IsLetter(r[i]) <==> IsLetter(s[i]))
  {
    if s == [] then []
    else
      var c := s[0];
      var d := if !IsLetter(c) then c else if afterLetter then ToLowerChar(c) else ToUpperChar(c);
      [d] + TitleFrom(s[1..], IsLetter(c))
  }

  function Title(s: string): (r: string)
    ensures |r| == |s|
  {
    TitleFrom(s, false)
  }

  /** Title-casing a title-cased text changes nothing. */
  lemma {:induction false} TitleFromIdempotent(s: string, afterLetter: bool)
    ensures TitleFrom(TitleFrom(s, afterLetter), afterLetter) == TitleFrom(s, afterLetter)
  {
    if s != [] {
      var t := TitleFrom(s, afterLetter);
      assert t[1..] == TitleFrom(s[1..], IsLetter(s[0]));
      assert IsLetter(t[0]) == IsLetter(s[0]);
      TitleFromIdempotent(s[1..], IsLetter(s[0]));
    }
  }

  lemma TitleIdempotent(s: string)
    ensures Title(Title(s)) == Title(s)
  {
    TitleFromIdempotent(s, false);
  }

  /** The values of `f` on `lo`, ..., `hi - 1`. */
  function RangeImage<T>(f: nat -> T, lo: nat, hi: nat): set<T>
    requires lo <= hi
    decreases hi - lo
  {
    if hi == lo then {} else RangeImage(f, lo, hi - 1) + {f(hi - 1)}
  }

  lemma {:induction false} RangeImageSize<T>(f: nat -> T, lo: nat, hi: nat)
    requires lo <= hi
    requires forall i, j :: lo <= i < j < hi ==> f(i) != f(j)
    ensures |RangeImage(f, lo, hi)| == hi - lo
    ensures forall i :: lo <= i < hi ==> f(i) in RangeImage(f, lo, hi)
    decreases hi - lo
  {
    if hi > lo {
      RangeImageSize(f, lo, hi - 1);
      assert f(hi - 1) !in RangeImage(f, lo, hi - 1) by {
        RangeImageMembers(f, lo, hi - 1);
      }
    }
  }

  lemma {:induction false} RangeImageMembers<T>(f: nat -> T, lo: nat, hi: nat)
    requires lo <= hi
    ensures forall x :: x in RangeImage(f, lo, hi) ==> exists i :: lo <= i < hi && x == f(i)
    decreases hi - lo
  {
    if hi > lo {
      RangeImageMembers(f, lo, hi - 1);
    }
  }

  /** Pigeonhole: a set holding the values of an injective `f` on `lo`, ...,
      `hi - 1` has at least `hi - lo` elements. Bounds the search for a free
      name. */
  lemma InjectiveImageBound<T>(f: nat -> T, lo: nat, hi: nat, s: set<T>)
    requires lo <= hi
    requires forall i, j :: lo <= i < j < hi ==> f(i) != f(j)
    requires forall i :: lo <= i < hi ==> f(i) in s
    ensures hi - lo <= |s|
  {
    RangeImageSize(f, lo, hi);
    RangeImageMembers(f, lo, hi);
    var img := RangeImage(f, lo, hi);
    assert img <= s;
    assert s == img + (s - img);
  }
}

=== FILE: translations.dfy ===
/** Translation tables (microsys/translations.py): the catalogue merged from
    the core strings and every installed app's `MS_TRANSLATIONS`, and the
    per-language view of it with Arabic as the base and project overrides on
    top. */
module Translations {
  import opened Wrappers

  /** Key to display string, for one language. */
  type Table = map<string, string>

  /** Language code to table. */
  type Catalogue = map<string, Table>

  const BASE_LANGUAGE := "ar"

  /** What importing `<app>.translations` yields. */
  datatype AppTranslations =
    | NoModule
    /** Importing the module raised something other than `ImportError`. */
    | LoadFailed
    /** The module's `MS_TRANSLATIONS`, `None` when absent, empty or not a dictionary. */
    | Module(strings: Option<Catalogue>)

  datatype AppConfig = AppConfig(name: string, translations: AppTranslations)

  /** An app whose strings are merged: not microsys itself, with a module that
      defines a dictionary. */
  predicate Contributes(app: AppConfig) {
    app.name != "microsys" && app.translations.Module? && app.translations.strings.Some?
  }

  function AppStrings(app: AppConfig): Catalogue {
    if Contributes(app) then app.translations.strings.value else map[]
  }

  /** One step of the discovery loop: each language of the app is merged into
      the table of that language, created empty when missing. */
  function MergeApp(merged: Catalogue, app: AppConfig): (r: Catalogue)
    ensures !Contributes(app) ==> r == merged
    ensures r.Keys == merged.Keys + AppStrings(app).Keys
    ensures forall lang :: lang in r ==>
      r[lang].Keys == Get(merged, lang, map[]).Keys + Get(AppStrings(app), lang, map[]).Keys
    ensures forall lang, key :: lang in AppStrings(app) && key in AppStrings(app)[lang] ==>
      lang in r && key in r[lang] && r[lang][key] == AppStrings(app)[lang][key]
    ensures forall lang, key :: lang in merged && key in merged[lang] && !(lang in AppStrings(app) && key in AppStrings(app)[lang]) ==>
      lang in r && key in r[lang] && r[lang][key] == merged[lang][key]
  {
    if !Contributes(app) then merged
    else
      var strings := AppStrings(app);
      map lang | lang in merged.Keys + strings.Keys :: Get(merged, lang, map[]) + Get(strings, lang, map[])
  }

  /** `_discover_and_merge_translations`: the core catalogue with the apps
      merged in order. What it yields is stated by `DiscoveredKeys`,
      `LastAppWins`, `CoreValueKept` and `SilentAppsChangeNothing`. */
  function DiscoverAndMerge(core: Catalogue, apps: seq<AppConfig>): Catalogue {
    if apps == [] then core
    else MergeApp(DiscoverAndMerge(core, apps[..|apps| - 1]), apps[|apps| - 1])
  }

  predicate AppDefines(app: AppConfig, lang: string, key: string) {
    lang in AppStrings(app) && key in AppStrings(app)[lang]
  }

  /** Some app of `apps` defines `key` for `lang`. */
  predicate DefinedByApp(apps: seq<AppConfig>, lang: string, key: string) {
    exists i :: 0 <= i < |apps| && AppDefines(apps[i], lang, key)
  }

  predicate Defines(c: Catalogue, lang: string, key: string) {
    lang in c && key in c[lang]
  }

  lemma DefinedByAppSnoc(apps: seq<AppConfig>, lang: string, key: string)
    requires apps != []
    ensures DefinedByApp(apps, lang, key) <==>
      DefinedByApp(apps[..|apps| - 1], lang, key) || AppDefines(apps[|apps| - 1], lang, key)
  {
    var init := apps[..|apps| - 1];
    assert forall i :: 0 <= i < |init| ==> init[i] == apps[i];
  }

  /** The merged catalogue defines exactly what the core or some app defines. */
  lemma {:induction false} DiscoveredKeys(core: Catalogue, apps: seq<AppConfig>, lang: string, key: string)
    ensures Defines(DiscoverAndMerge(core, apps), lang, key) <==> Defines(core, lang, key) || DefinedByApp(apps, lang, key)
  {
    if apps != [] {
      DiscoveredKeys(core, apps[..|apps| - 1], lang, key);
      DefinedByAppSnoc(apps, lang, key);
    }
  }

  /** A later app overrides earlier ones: the value of a key is the one from
      the last app that defines it. */
  lemma {:induction false} LastAppWins(core: Catalogue, apps: seq<AppConfig>, i: nat, lang: string, key: string)
    requires i < |apps| && AppDefines(apps[i], lang, key)
    requires forall j :: i < j < |apps| ==> !AppDefines(apps[j], lang, key)
    ensures Defines(DiscoverAndMerge(core, apps), lang, key)
    ensures DiscoverAndMerge(core, apps)[lang][key] == AppStrings(apps[i])[lang][key]
  {
    if i < |apps| - 1 {
      var init := apps[..|apps| - 1];
      assert forall j :: 0 <= j < |init| ==> init[j] == apps[j];
      LastAppWins(core, init, i, lang, key);
    }
  }

  /** A key no app defines keeps its core value. */
  lemma {:induction false} CoreValueKept(core: Catalogue, apps: seq<AppConfig>, lang: string, key: string)
    requires Defines(core, lang, key) && !DefinedByApp(apps, lang, key)
    ensures Defines(DiscoverAndMerge(core, apps), lang, key)
    ensures DiscoverAndMerge(core, apps)[lang][key] == core[lang][key]
  {
    if apps != [] {
      DefinedByAppSnoc(apps, lang, key);
      CoreValueKept(core, apps[..|apps| - 1], lang, key);
    }
  }

  /** Apps that contribute nothing leave the catalogue unchanged. */
  lemma {:induction false} SilentAppsChangeNothing(core: Catalogue, apps: seq<AppConfig>)
    requires forall i :: 0 <= i < |apps| ==> !Contributes(apps[i])
    ensures DiscoverAndMerge(core, apps) == core
  {
    if apps != [] {
      SilentAppsChangeNothing(core, apps[..|apps| - 1]);
    }
  }

  /** `get_strings`: a copy of the Arabic table, overlaid by the requested
      language unless it is Arabic, then by the project's overrides for it. */
  function GetStrings(catalogue: Catalogue, lang: string, overrides: Option<Catalogue>): (r: Table)
    ensures var base := Get(catalogue, BASE_LANGUAGE, map[]);
      var layer := if lang == BASE_LANGUAGE then map[] else Get(catalogue, lang, map[]);
      var top := if overrides.Some? then Get(overrides.value, lang, map[]) else map[];
      && r.Keys == base.Keys + layer.Keys + top.Keys
      && (forall k :: k in top ==> r[k] == top[k])
      && (forall k :: k in layer && k !in top ==> r[k] == layer[k])
      && (forall k :: k in base && k !in layer && k !in top ==> r[k] == base[k])
  {
    var base := Get(catalogue, BASE_LANGUAGE, map[]);
    var withLang := if lang != BASE_LANGUAGE then base + Get(catalogue, lang, map[]) else base;
    if overrides.Some? then withLang + Get(overrides.value, lang, map[]) else withLang
  }

  /** Every Arabic key is present whatever the language. */
  lemma ArabicKeysAlwaysPresent(catalogue: Catalogue, lang: string, overrides: Option<Catalogue>, key: string)
    requires BASE_LANGUAGE in catalogue && key in catalogue[BASE_LANGUAGE]
    ensures key in GetStrings(catalogue, lang, overrides)
  {
  }

  /** An unknown language without overrides gets the Arabic table unchanged. */
  lemma UnknownLanguageFallsBack(catalogue: Catalogue, lang: string)
    requires lang !in catalogue
    ensures GetStrings(catalogue, lang, None) == Get(catalogue, BASE_LANGUAGE, map[])
  {
  }

  /** Overrides for the requested language win over both tables. */
  lemma OverridesWin(catalogue: Catalogue, lang: string, overrides: Catalogue, key: string)
    requires lang in overrides && key in overrides[lang]
    ensures GetStrings(catalogue, lang, Some(overrides))[key] == overrides[lang][key]
  {
  }
}

=== FILE: values.dfy ===
/** Field values of stored records as the ORM hands them to the code, with
    Python's `str()`, `==` and truthiness on them. */
module Values {
  import opened Text
  import opened Wrappers

  datatype Value =
    | Null
    | Bool(b: bool)
    | Int(i: int)
    | Str(s: string)
    /** A related record (a foreign key's target): compared by primary key,
        rendered by its `__str__`. */
    | Ref(pk: int, name: string)
    /** A list or dictionary held in a JSON field, or a date: compared and
        rendered through its `str()` form; `size` is its length (0 is falsy). */
    | Composite(repr: string, size: nat)

  /** `str(v)`. */
  function Display(v: Value): string {
    match v
    case Null => "None"
    case Bool(b) => if b then "True" else "False"
    case Int(i) => IntToString(i)
    case Str(s) => s
    case Ref(_, name) => name
    case Composite(repr, _) => repr
  }

  /** Python truthiness. */
  predicate Truthy(v: Value) {
    match v
    case Null => false
    case Bool(b) => b
    case Int(i) => i != 0
    case Str(s) => s != []
    case Ref(_, _) => true
    case Composite(_, size) => size > 0
  }

  /** Python `==`: `True == 1` and `False == 0`, records compare by key. */
  predicate PyEq(a: Value, b: Value) {
    match (a, b)
    case (Bool(x), Int(i)) => i == (if x then 1 else 0)
    case (Int(i), Bool(x)) => i == (if x then 1 else 0)
    case (Ref(p, _), Ref(q, _)) => p == q
    case (Composite(r, _), Composite(q, _)) => r == q
    case _ => a == b
  }

  lemma PyEqSymmetric(a: Value, b: Value)
    ensures PyEq(a, b) <==> PyEq(b, a)
  {
  }

  /** `int(v)`, or `None` where Python raises (`None`, a record, a list);
      texts are treated as non-numeric. */
  function IntOf(v: Value): Option<int> {
    match v
    case Int(i) => Some(i)
    case Bool(b) => Some(if b then 1 else 0)
    case _ => None
  }
}

=== FILE: views.dfy ===
/** The small policies inside microsys/views.py: the free-username search of
    `delete_user`, the profile completeness score, the scope toggle guard, the
    preferences merge and the inline creation of a minimal record. */
module Views {
  import opened Wrappers
  import opened Text
  import opened JsonData
  import opened Models
  import Signals

  // ---------------------------------------------------------------------
  // Renaming a deleted user

  /** The k-th name tried for a deleted user: `<base>` first, then
      `<base>2`, `<base>3`, and so on. */
  function Candidate(base: string, k: nat): string {
    if k <= 1 then base else base + NatToString(k)
  }

  lemma CandidateInjective(base: string, i: nat, j: nat)
    requires i >= 1 && j >= 1 && i != j
    ensures Candidate(base, i) != Candidate(base, j)
  {
    if Candidate(base, i) == Candidate(base, j) && i >= 2 && j >= 2 {
      assert NatToString(i) == Candidate(base, i)[|base|..];
      assert NatToString(j) == Candidate(base, j)[|base|..];
      NatToStringInjective(i, j);
    }
  }

  /** The rename loop of `delete_user`: `<username>_del` when no user has
      that name, else `<username>_del<k>` for the smallest free k from 2. */
  method RenameDeletedUser(existing: set<string>, username: string) returns (name: string)
    ensures name !in existing
    ensures var base := username + "_del";
      exists k :: k >= 1 && name == Candidate(base, k) &&
        forall j :: 1 <= j < k ==> Candidate(base, j) in existing
  {
    var base := username + "_del";
    name := base;
    var counter: nat := 2;
    while name in existing
      invariant counter >= 2
      invariant name == Candidate(base, counter - 1)
      invariant forall j :: 1 <= j < counter - 1 ==> Candidate(base, j) in existing
      decreases |existing| - (counter - 2)
    {
      forall i, j | 1 <= i < j < counter
        ensures Candidate(base, i) != Candidate(base, j)
      {
        CandidateInjective(base, i, j);
      }
      InjectiveImageBound(k => Candidate(base, k), 1, counter, existing);
      name := base + NatToString(counter);
      counter := counter + 1;
    }
  }

  // ---------------------------------------------------------------------
  // Profile completeness and health

  /** The four things the profile page checks, in order: both names, e-mail,
      phone, picture. */
  function CompletenessCriteria(u: User): seq<bool> {
    var hasPhone := u.profile.Some? && u.profile.value.phone.Some? && u.profile.value.phone.value != "";
    var hasPicture := u.profile.Some? && u.profile.value.picture != "";
    [u.firstName != "" && u.lastName != "", u.email != "", hasPhone, hasPicture]
  }

  function CountTrue(bs: seq<bool>): (n: nat)
    ensures n <= |bs|
    ensures n == |bs| <==> forall i :: 0 <= i < |bs| ==> bs[i]
  {
    if bs == [] then 0 else (if bs[0] then 1 else 0) + CountTrue(bs[1..])
  }

  lemma CountTrueFour(c: seq<bool>)
    requires |c| == 4
    ensures CountTrue(c) == (if c[0] then 1 else 0) + (if c[1] then 1 else 0) + (if c[2] then 1 else 0) + (if c[3] then 1 else 0)
  {
    assert c[1..][1..] == c[2..] && c[2..][1..] == c[3..] && c[3..][1..] == [];
    assert CountTrue(c[3..]) == if c[3] then 1 else 0;
    assert CountTrue(c[2..]) == (if c[2] then 1 else 0) + CountTrue(c[3..]);
    assert CountTrue(c[1..]) == (if c[1] then 1 else 0) + CountTrue(c[2..]);
  }

  /** The completeness percentage of `user_profile`: 25 points per criterion. */
  function Completeness(u: User): (score: nat)
    ensures score in {0, 25, 50, 75, 100}
    ensures score == 25 * CountTrue(CompletenessCriteria(u))
    ensures score == 100 <==> forall i :: 0 <= i < 4 ==> CompletenessCriteria(u)[i]
  {
    var c := CompletenessCriteria(u);
    CountTrueFour(c);
    (if c[0] then 25 else 0) + (if c[1] then 25 else 0) + (if c[2] then 25 else 0) + (if c[3] then 25 else 0)
  }

  /** Meeting more criteria never lowers the score. */
  lemma CompletenessMonotone(u: User, v: User)
    requires forall i :: 0 <= i < 4 ==> CompletenessCriteria(u)[i] ==> CompletenessCriteria(v)[i]
    ensures Completeness(u) <= Completeness(v)
  {
  }

  function AccountHealth(u: User): (r: string)
    ensures r == "good" <==> u.isActive
    ensures r in {"good", "attention"}
  {
    if u.isActive then "good" else "attention"
  }

  // ---------------------------------------------------------------------
  // Toggling scope mode

  /** `toggle_scopes`: the requested state, or the inverse of the current one
      when none is given; switching off is refused while some user is
      assigned a scope. Returns whether it succeeded and the settings table. */
  function ToggleScopes(t: SettingsTable, target: Option<bool>, anyUserScoped: bool): (r: (bool, SettingsTable))
    ensures var current := LoadSettings(t).0;
      var desired := if target.Some? then target.value else !current;
      && (!r.0 <==> current && !desired && anyUserScoped)
      && (r.0 ==> LoadSettings(r.1).0 == desired)
      && (!r.0 ==> r.1 == LoadSettings(t).1)
    ensures SingleRow(t) ==> SingleRow(r.1)
  {
    var (current, loaded) := LoadSettings(t);
    var desired := if target.Some? then target.value else !current;
    if current && !desired && anyUserScoped then (false, loaded)
    else (true, SaveSettings(loaded, desired))
  }

  /** While any user holds a scope, scope mode once on stays on. */
  lemma ScopedUsersKeepScopesOn(t: SettingsTable, target: Option<bool>)
    requires LoadSettings(t).0
    ensures LoadSettings(ToggleScopes(t, target, true).1).0
  {
  }

  /** Toggling twice without a target restores the original state, unless
      the second toggle is refused. */
  lemma DoubleToggleRestores(t: SettingsTable, anyUserScoped: bool)
    requires ToggleScopes(ToggleScopes(t, None, anyUserScoped).1, None, anyUserScoped).0
    ensures var once := ToggleScopes(t, None, anyUserScoped);
      LoadSettings(ToggleScopes(once.1, None, anyUserScoped).1).0 == LoadSettings(t).0
  {
  }

  // ---------------------------------------------------------------------
  // Preferences

  const CSRF_FIELD := "csrfmiddlewaretoken"

  /** The stored `profile.preferences` value. */
  datatype StoredPrefs =
    | PrefsObject(fields: map<string, Json>)
    /** A text value, with what `json.loads` makes of it (`None` when it
        does not parse). */
    | PrefsText(text: string, parsed: Option<Json>)
    /** `None`, a number, a list, or any other non-text value. */
    | PrefsOther

  /** What one element of the sequence given to `dict(...)` contributes: a
      two-element list whose first element is text, or a two-character text,
      is a key and a value; anything else makes `dict` raise. */
  function PairOf(item: Json): Option<(string, Json)> {
    if item.JList? && |item.items| == 2 && item.items[0].JStr? then Some((item.items[0].s, item.items[1]))
    else if item.JStr? && |item.s| == 2 then Some(([item.s[0]], JStr([item.s[1]])))
    else None
  }

  predicate AllPairs(items: seq<Json>) {
    forall i :: 0 <= i < |items| ==> PairOf(items[i]).Some?
  }

  /** `dict(items)` for a sequence of items: one key per pair, later pairs
      overwriting earlier ones, and an error when some item is not a pair. */
  function DictOfPairs(items: seq<Json>): (r: Result<map<string, Json>, string>)
    ensures r.Success? <==> AllPairs(items)
    ensures r.Success? ==> forall k :: k in r.value <==>
      exists i :: 0 <= i < |items| && PairOf(items[i]).Some? && PairOf(items[i]).value.0 == k
    decreases |items|
  {
    if items == [] then Success(map[])
    else
      var init := DictOfPairs(items[..|items| - 1]);
      var p := PairOf(items[|items| - 1]);
      assert forall i :: 0 <= i < |items| - 1 ==> items[..|items| - 1][i] == items[i];
      if init.Failure? || p.None? then Failure("dict() of a value that is not a sequence of pairs")
      else Success(init.value[p.value.0 := p.value.1])
  }

  /** The value of a key is the one of its last pair. */
  lemma {:induction false} DictOfPairsLastWins(items: seq<Json>, i: nat)
    requires AllPairs(items) && i < |items|
    requires forall j :: i < j < |items| ==> PairOf(items[j]).value.0 != PairOf(items[i]).value.0
    ensures PairOf(items[i]).value.0 in DictOfPairs(items).value
    ensures DictOfPairs(items).value[PairOf(items[i]).value.0] == PairOf(items[i]).value.1
    decreases |items|
  {
    var front := items[..|items| - 1];
    assert forall j :: 0 <= j < |front| ==> front[j] == items[j];
    assert AllPairs(front);
    if i < |items| - 1 {
      DictOfPairsLastWins(front, i);
    }
  }

  /** Python's `dict(value)` of a decoded JSON value: an object is copied, a
      list is read as a sequence of pairs, a text as a sequence of
      one-character items (so only the empty text succeeds), and a number,
      boolean or `null` raises. */
  function DictOf(j: Json): (r: Result<map<string, Json>, string>)
    ensures j.JObj? ==> r == Success(j.fields)
    ensures j.JList? ==> r == DictOfPairs(j.items)
    ensures j.JStr? ==> (r.Success? <==> j.s == []) && (r.Success? ==> r.value == map[])
    ensures j.JNull? || j.JBool? || j.JInt? ==> r.Failure?
  {
    match j
    case JObj(fields) => Success(fields)
    case JList(items) => DictOfPairs(items)
    case JStr(s) => if s == [] then Success(map[]) else Failure("dict() of a non-empty text")
    case _ => Failure("dict() of a scalar")
  }

  /** The preferences the merge starts from: a stored object as it is,
      non-blank text decoded (or `{}` when it does not decode) and passed
      through `dict(...)`, and anything else `{}`. */
  function CurrentPrefs(stored: StoredPrefs): (r: Result<map<string, Json>, string>)
    ensures stored.PrefsObject? ==> r == Success(stored.fields)
    ensures stored.PrefsOther? ==> r == Success(map[])
    ensures stored.PrefsText? && (Strip(stored.text) == [] || stored.parsed.None?) ==> r == Success(map[])
    ensures stored.PrefsText? && Strip(stored.text) != [] && stored.parsed.Some? ==>
      r == DictOf(stored.parsed.value)
  {
    match stored
    case PrefsObject(fields) => Success(fields)
    case PrefsOther => Success(map[])
    case PrefsText(text, parsed) =>
      if Strip(text) == [] || parsed.None? then Success(map[])
      else DictOf(parsed.value)
  }

  /** Decoded text holding an empty list, the empty JSON text or a list of
      key and value pairs is read as preferences, as `dict(...)` reads it. */
  lemma ListsOfPairsAreRead(text: string, k: string, v: Json)
    requires Strip(text) != []
    ensures CurrentPrefs(PrefsText(text, Some(JList([])))) == Success(map[])
    ensures CurrentPrefs(PrefsText(text, Some(JStr("")))) == Success(map[])
    ensures CurrentPrefs(PrefsText(text, Some(JList([JList([JStr(k), v])])))) == Success(map[k := v])
    ensures CurrentPrefs(PrefsText(text, Some(JInt(1)))).Failure?
  {
    ParsedRead(text, JList([]));
    ParsedRead(text, JStr(""));
    ParsedRead(text, JInt(1));
    var one := JList([JList([JStr(k), v])]);
    ParsedRead(text, one);
    OnePairRead(k, v);
  }

  lemma ParsedRead(text: string, j: Json)
    requires Strip(text) != []
    ensures CurrentPrefs(PrefsText(text, Some(j))) == DictOf(j)
  {
  }

  lemma OnePairRead(k: string, v: Json)
    ensures DictOfPairs([JList([JStr(k), v])]) == Success(map[k := v])
  {
    var items := [JList([JStr(k), v])];
    assert PairOf(items[0]) == Some((k, v));
    assert items[..0] == [];
  }

  /** The current preferences overridden by every posted key except the
      CSRF token. */
  function MergePosted(current: map<string, Json>, posted: map<string, Json>): (r: map<string, Json>)
    ensures r.Keys == current.Keys + (posted.Keys - {CSRF_FIELD})
    ensures forall k :: k in posted && k != CSRF_FIELD ==> r[k] == posted[k]
    ensures forall k :: k in current && (k !in posted || k == CSRF_FIELD) ==> r[k] == current[k]
  {
    current + map k | k in posted && k != CSRF_FIELD :: posted[k]
  }

  /** Merging the same posted values again changes nothing. */
  lemma MergePostedIdempotent(current: map<string, Json>, posted: map<string, Json>)
    ensures MergePosted(MergePosted(current, posted), posted) == MergePosted(current, posted)
  {
    var once := MergePosted(current, posted);
    var twice := MergePosted(once, posted);
    assert twice.Keys == once.Keys;
    forall k | k in twice
      ensures twice[k] == once[k]
    {
    }
  }

  /** The preference values `update_preferences` stores: the merge of the
      posted values into the current ones, or the failure to read the
      current ones. */
  function UpdatePreferences(stored: StoredPrefs, posted: map<string, Json>): (r: Result<map<string, Json>, string>)
    ensures CurrentPrefs(stored).Failure? <==> r.Failure?
    ensures r.Success? ==> r.value == MergePosted(CurrentPrefs(stored).value, posted)
  {
    var current :- CurrentPrefs(stored);
    Success(MergePosted(current, posted))
  }

  /** Posting the same preferences twice stores what posting them once does. */
  lemma UpdatePreferencesIdempotent(stored: StoredPrefs, posted: map<string, Json>)
    requires UpdatePreferences(stored, posted).Success?
    ensures var once := UpdatePreferences(stored, posted).value;
      UpdatePreferences(PrefsObject(once), posted) == Success(once)
  {
    MergePostedIdempotent(CurrentPrefs(stored).value, posted);
  }

  /** A posted CSRF token is never stored: the stored value (or its absence) survives. */
  lemma CsrfTokenNeverStored(stored: StoredPrefs, posted: map<string, Json>)
    requires UpdatePreferences(stored, posted).Success?
    ensures var current := CurrentPrefs(stored).value;
      var r := UpdatePreferences(stored, posted).value;
      (CSRF_FIELD in r <==> CSRF_FIELD in current) && (CSRF_FIELD in r ==> r[CSRF_FIELD] == current[CSRF_FIELD])
  {
  }

  /** Saving the preferences with `update_fields=['preferences']` writes no
      log entry. */
  lemma PreferencesSaveNotLogged(inst: Signals.Instance, actor: Option<User>)
    ensures Signals.SaveSkipped(Signals.ProfileModel, inst, Some({"preferences"}), actor)
  {
  }

  // ---------------------------------------------------------------------
  // Inline creation of a minimal record

  /** What the creation helper reads of a model field. */
  datatype FieldSpec = FieldSpec(
    name: string,
    primaryKey: bool,
    autoCreated: bool,
    /** `auto_now` or `auto_now_add`. */
    autoNow: bool,
    hasDefault: bool,
    blank: bool,
    nullable: bool,
    foreignKey: bool)

  /** A field the posted data must supply. */
  predicate Required(f: FieldSpec) {
    !f.primaryKey && !f.autoCreated && !f.autoNow && !f.hasDefault && !f.blank && !f.nullable
  }

  /** A field the posted data may assign. */
  predicate Assignable(f: FieldSpec) {
    !f.primaryKey && !f.autoCreated
  }

  datatype Assigned = Plain(value: string) | Related(pk: string)

  datatype Creation =
    /** Required fields absent from the post, in field order; nothing is saved. */
    | Missing(names: seq<string>)
    /** A foreign key whose posted value names no related record. */
    | BadReference(name: string)
    /** The keyword arguments the record is built from. */
    | Built(values: map<string, Assigned>)

  function MissingRequired(fields: seq<FieldSpec>, data: map<string, string>): (names: seq<string>)
    ensures forall n :: n in names <==> exists i :: 0 <= i < |fields| && Required(fields[i]) && fields[i].name == n && n !in data
    ensures names == [] <==> forall i :: 0 <= i < |fields| && Required(fields[i]) ==> fields[i].name in data
    ensures |names| <= |fields|
  {
    if fields == [] then []
    else
      var rest := MissingRequired(fields[1..], data);
      assert forall i :: 1 <= i < |fields| ==> fields[i] == fields[1..][i - 1];
      if Required(fields[0]) && fields[0].name !in data then [fields[0].name] + rest else rest
  }

  /** The second pass: assign every posted, assignable field, resolving
      foreign keys through `resolves`; the first unresolvable one aborts. */
  function AssignFields(fields: seq<FieldSpec>, data: map<string, string>, resolves: (string, string) -> bool): (r: Creation)
    ensures !r.Missing?
    ensures r.BadReference? ==>
      (exists i :: 0 <= i < |fields| && Assignable(fields[i]) && fields[i].foreignKey && fields[i].name == r.name) &&
      r.name in data && !resolves(r.name, data[r.name])
    ensures r.Built? <==> forall i :: 0 <= i < |fields| && Assignable(fields[i]) && fields[i].foreignKey && fields[i].name in data ==>
      resolves(fields[i].name, data[fields[i].name])
    ensures r.Built? ==> forall n :: n in r.values <==> exists i :: 0 <= i < |fields| && Assignable(fields[i]) && fields[i].name == n && n in data
  {
    if fields == [] then Built(map[])
    else
      var f := fields[0];
      assert forall i :: 1 <= i < |fields| ==> fields[i] == fields[1..][i - 1];
      if Assignable(f) && f.name in data && f.foreignKey && !resolves(f.name, data[f.name]) then BadReference(f.name)
      else
        var rest := AssignFields(fields[1..], data, resolves);
        if !rest.Built? then rest
        else if Assignable(f) && f.name in data then
          Built(rest.values[f.name := if f.foreignKey then Related(data[f.name]) else Plain(data[f.name])])
        else rest
  }

  /** `_create_minimal_instance_from_post` up to building the record: the
      required-field check first, then the assignment of posted fields. */
  function CreateMinimalInstance(fields: seq<FieldSpec>, data: map<string, string>, resolves: (string, string) -> bool): (r: Creation)
    ensures r.Missing? <==> exists i :: 0 <= i < |fields| && Required(fields[i]) && fields[i].name !in data
    ensures r.Missing? ==> r.names != [] && forall n :: n in r.names ==> n !in data
    ensures r.Built? ==> forall i :: 0 <= i < |fields| && Required(fields[i]) ==> fields[i].name in r.values
  {
    var missing := MissingRequired(fields, data);
    if missing != [] then Missing(missing)
    else
      var r := AssignFields(fields, data, resolves);
      assert r.Built? ==> forall i :: 0 <= i < |fields| && Required(fields[i]) ==> fields[i].name in data;
      r
  }

  /** A post that supplies every field leaves nothing missing. */
  lemma FullPostIsNeverMissing(fields: seq<FieldSpec>, data: map<string, string>, resolves: (string, string) -> bool)
    requires forall i :: 0 <= i < |fields| ==> fields[i].name in data
    ensures !CreateMinimalInstance(fields, data, resolves).Missing?
  {
  }

  /** The scope the inline-created record is saved with: with scope mode on,
      a non-superuser's scope (from the profile, else the user's own `scope`
      attribute) is forced; a superuser's only fills an empty scope. */
  function InlineScope(scopeMode: bool, hasScopeField: bool, actor: User, actorScopeAttr: Option<nat>, current: Option<nat>): (r: Option<nat>)
    ensures var own := if ProfileScope(actor).Some? then ProfileScope(actor) else actorScopeAttr;
      && (!scopeMode || !hasScopeField || own.None? ==> r == current)
      && (scopeMode && hasScopeField && own.Some? && !actor.isSuperuser ==> r == own)
      && (scopeMode && hasScopeField && own.Some? && actor.isSuperuser ==> r == if current.Some? then current else own)
  {
    var own := if ProfileScope(actor).Some? then ProfileScope(actor) else actorScopeAttr;
    if !scopeMode || !hasScopeField || own.None? then current
    else if !actor.isSuperuser then own
    else if current.None? then own
    else current
  }

  /** A superuser never moves a record out of a scope it already has. */
  lemma SuperuserKeepsExistingScope(scopeMode: bool, hasScopeField: bool, actor: User, actorScopeAttr: Option<nat>, current: Option<nat>)
    requires actor.isSuperuser && current.Some?
    ensures InlineScope(scopeMode, hasScopeField, actor, actorScopeAttr, current) == current
  {
  }
}

=== FILE: wrappers.dfy ===
/** Optional values and fallible results, used wherever the Python code
    returns `None` or raises instead of producing a value. */
module Wrappers {

  datatype Option<T> = None | Some(value: T) {

    /** The wrapped value, or `default` when there is none (Python's `x or default`
        when `x` can only be `None` or a truthy value). */
    function GetOr(default: T): T {
      match this
      case Some(v) => v
      case None => default
    }
  }

  /** `Failure` carries the key or reason of the error the source reports or raises. */
  datatype Result<T, E> = Success(value: T) | Failure(error: E) {

    predicate IsFailure() {
      Failure?
    }

    function PropagateFailure<U>(): Result<U, E>
      requires Failure?
    {
      Failure(error)
    }

    function Extract(): T
      requires Success?
    {
      value
    }
  }

  /** Python's `d.get(k, default)` on a map. */
  function Get<K, V>(m: map<K, V>, k: K, default: V): (v: V)
    ensures k in m ==> v == m[k]
    ensures k !in m ==> v == default
  {
    if k in m then m[k] else default
  }
}
